=== FILE: README.md ===
# labbot core, modelled in Dafny

labbot is a lab's Slack bot. It is a host process that runs timer tasks and
assembles every user's home tab from the modules' blocks. Around it sit
several modules and one helper script. This project models the sequential
logic of the parts below as pure functions over immutable values, and
proves properties about them.

- **Lab jobs** (`LabJobs`, `LabJobsProofs`). The SQLite store is modelled
  as four tables: reminder schedules, job templates, job instances and
  reminder messages. On top of the store sit:
  - the per-tick materialisation of template occurrences (`add_new_jobs`);
  - the cadence law of reminder schedules (`get_schedules`);
  - the reminder pass (`send_reminders`);
  - the timer task that runs both passes in one transaction;
  - the user actions that complete a job, reassign it, delete a schedule,
    and add, edit or delete a template.
- **Host** (`Host`):
  - the timer scheduler's iteration and loop;
  - the greeting bucket of the home-tab header;
  - the assembly of the home view from module blocks;
  - the publish pass behind the update flag;
  - the truncation of debug-log messages.
- **Hour tracking** (`CovidHours`):
  - the H:MM/HH:MM validator and its error keys;
  - the week column of a stored row;
  - the per-user, per-week accumulation of the CSV;
  - the weekly summary.
- **Label printing** (`LabelPrinting`):
  - the modal-view builder;
  - the label-form validator with the bacterial-stock conversion;
  - the FIFO print queue and its two token-checked endpoints.
- **FlowJo licence checkout** (`FlowjoCheckout`): a two-state machine behind
  a shared token, with its home-tab text.
- **Image zipper** (`ZipImages`):
  - the configuration check;
  - the dated-folder matcher with its separator backreference;
  - the zip decision;
  - nozip pruning;
  - the open-archive state machine over a top-down directory walk. The walk
    yields an event log of archive creations, writes and closes.
- **Citation scanner** (`WordVerification`):
  - the field-code and superscript state machine over a document's element
    stream;
  - the bibliography check.

Shared pieces live in `Common`:
- the `Option` type;
- Python's `int()`/`str()` on integers, whitespace stripping and substring
  search (module `PyText`);
- day numbers with weekdays and Mondays (module `Calendar`).

Instants are integer microseconds. Days are day numbers with 0 =
1970-01-01. Times of day in the hour tracker are integer minutes or seconds.

Some calls reach outside the modelled code: the clock, the RRULE evaluator,
the duration parser, the chat client, the view-update calls, timer tasks
and home-tab functions. Each becomes a parameter, usually a function value;
a raised exception is a distinguished result. The document, directory tree
and CSV file become sequences of abstract entries.

Several defects in the code are kept as written and exhibited by lemmas:
- `LateBinding`: every reminder schedule evaluates the last parsed
  schedule's pairs.
- `StuckJobBlocksTick`: an open job without an assignee or schedule stops
  every reminder pass and rolls back that tick's materialisation.
- `SubmitShortRow` and `TrailingNewlineFails`: once the fields are read, a
  one-column label row whose cell reads as an integer, or an empty row such
  as the last row a trailing newline makes, crashes with `IndexError`.
- `NothingEverQueued`: the label queue's `view.id` lookup fails on the view
  dictionary, so no submission is queued.
- `CheckoutThenCheckin` and `RunAlternates`: the host never supplies the
  licence module's `hometab_update` callback, so every accepted checkout or
  checkin flips the flag and then answers with an internal error.
- `SlackValuesRaise`: the label handler reads the form fields from the
  view's state values by action id, while Slack keys those values by block
  id and the modal sets none, so every submission raises `KeyError` at its
  first read (server/modules/label_printing.py:219), before any validation.
- `CovidHours.Submit`: a form with errors is acknowledged with the keyword
  `response_actions` (server/modules/covidapi.py:246), which Bolt's `ack`
  does not accept; that call raises `TypeError`, so the errors are never
  shown, and no row is written.
- `ScanForSuperscripts` and `CheckForBibliography`: both read a global `root`.

Two behaviours follow the code where its comments read otherwise:
- The comment at server/modules/lab_jobs.py:670 says the materialisation
  runs after 9am, but the gate at line 671 is `now.hour <= 9`, so nothing
  is materialised before 10:00.
- The catch-all pair appended at server/modules/lab_jobs.py:703 belongs to
  each parsed schedule. A job whose schedule reference is NULL never
  reaches it: its lookup at line 722 raises `KeyError`, which abandons the
  whole reminder pass (`StuckJobBlocksTick`).

## Model

Functions that only compute carry no row of their own; the lemmas that
state their contracts do:
- `LabJobs.SpawnAll`: `SpawnAllEffect`, `SpawnAllCrashes`.
- `LabJobs.GetSchedules`: `LateBinding`, `RequiredIntervalDefined`,
  `EscalationMonotone`.
- `LabJobs.SendReminders`: `SendRemindersSpec`, `NoImmediateRefire`.
- `LabJobs.PostAll`: `PostAllSpec`, `PostsMatchStep`.
- `LabJobs.Complete`: `CompleteSpec`, `CompleteRepeats`.
- `LabJobs.DeleteSchedule`: `DeleteScheduleSpec`, `DeleteScheduleFreezesTicks`.
- `LabJobs.AddTemplate`: `AddedTemplateIsInert`, `AddTemplatePreservesWellFormed`.
- `LabJobs.EditTemplate`: `EditReenables`, `EditTemplatePreservesWellFormed`.
- `LabJobs.DeleteTemplate`: `DeleteTemplateKeepsHistory`, `DeletionsPreserveWellFormed`.
- `CovidHours.ParseCsv` and `CovidHours.AddRow`: `ParseCsvUnique`,
  `ParseCsvTotals`, `ParseCsvInstances`, `FindBucketAdd`, `TotalsAdd`,
  `AddRowUsers`, `AddRowUnique`, `LastInstancesAdd`.
- `CovidHours.Summarize` and `CovidHours.SummarizeLoop`: `SummarizeLoopSpec`,
  `ParseCsvSummary`, `UserWithinAll`.
- `ZipImages.MatchDate`: `MatchDateSpec`.
- `ZipImages.StartsArchive`: `ZipDecision`, through `VisitDir`.
- `ZipImages.WalkEntries`, `ZipImages.WalkRoot` and `ZipImages.RunAll`:
  `WalkEntriesReplays`, `WalkRootReplays`, `RunReplays`, `WalkSkipsExcluded`,
  `NozipPrunes`.
- `WordVerification.FindBibliography`: `FindBibliographySpec`.
- `WordVerification.ScanPrefix`: `CountIsBalance`, `UnbalancedRaises`, `RaisedStays`.
- `LabelPrinting.Drain`: `DrainInOrder`, `QueuedLast`.
- `Host.ModuleSections` and `Host.HomeView`: `ModuleSectionsAppend`,
  `ModuleSectionsSnoc`, `HomeViewAppendModule`, `EmptyModuleInvisible`.

| member | source | states |
|---|---|---|
| PyText.IntRoundTrip | server/modules/label_printing.py:242-247 | `int()` reads back exactly the integer `str()` printed, so a pKG number written onto a label is the number parsed from the row |
| Calendar.MondayOf | server/modules/covidapi.py:329-330 | the week of a day is a Monday on or before it, less than seven days earlier |
| Calendar.MondayOfUnique | server/modules/covidapi.py:329-330 | that Monday is the only Monday in the six days before or on the day, so the week column is well defined |
| LabJobs.NextRowId | server/modules/lab_jobs.py:685-690 | the rowid SQLite gives a new row exceeds every rowid already in the table |
| LabJobs.Candidates | server/modules/lab_jobs.py:673-674 | the candidate templates are exactly those whose watermark day is strictly before today |
| LabJobs.Producers | server/modules/lab_jobs.py:677-683 | a candidate spawns exactly when it has an assignee and its next occurrence from now falls on today |
| LabJobs.StampWatermark | server/modules/lab_jobs.py:691 | only the template with the given id gets the new watermark; every other row is unchanged |
| LabJobs.AddNewJobs | server/modules/lab_jobs.py:669-672 | up to and including hour 9 the pass inserts nothing, stamps nothing and returns no ids |
| LabJobs.MinEligible | server/modules/lab_jobs.py:705 | the result is defined iff some pair's threshold is strictly below the elapsed time; it is then the interval of such a pair and no larger than any such pair's interval |
| LabJobs.LookupInterval | server/modules/lab_jobs.py:722 | a lookup fails only on a job with no schedule (KeyError) or an empty minimum |
| LabJobs.SelectOpen | server/modules/lab_jobs.py:715-725 | on success every open job had an assignee and a defined interval, and the ids picked are exactly the open jobs whose time since the last reminder strictly exceeds the required interval; a stop means some open job lacked one of those |
| LabJobs.FindJob | server/modules/lab_jobs.py:728 | the row fetched by id has that id; no row means no job has it |
| LabJobs.SetLastReminder | server/modules/lab_jobs.py:740 | only the job with the given id gets the new last-reminder instant |
| LabJobs.Tick | server/modules/lab_jobs.py:743-754 | the timer task always asks to run again after 30 seconds, whatever the passes did |
| LabJobs.MarkDone | server/modules/lab_jobs.py:787 | only the job with the given id becomes done; every other row is unchanged |
| LabJobs.MessagesOf | server/modules/lab_jobs.py:790 | the records fetched are exactly the stored messages of that job |
| LabJobs.EditAll | server/modules/lab_jobs.py:791-798 | edits are issued to a prefix of the records in order; all succeeded iff every record was edited, otherwise the last edit issued is the one that raised |
| LabJobs.Reassign | server/modules/lab_jobs.py:819-822 | a reassign submission leaves the store as it was |
| LabJobs.RemoveSchedule | server/modules/lab_jobs.py:895 | the schedules left are exactly those whose id differs from the deleted one |
| LabJobs.RemoveTemplate | server/modules/lab_jobs.py:973 | the templates left are exactly those whose id differs from the deleted one |
| LabJobsProofs.NextRowIdAfterInsert | server/modules/lab_jobs.py:685-690 | after inserting the row with the next rowid, the next rowid is one more |
| LabJobsProofs.SpawnAllCrashes | server/modules/lab_jobs.py:676-683 | the materialisation loop raises iff some candidate with an assignee has no next occurrence |
| LabJobsProofs.SpawnAllEffect | server/modules/lab_jobs.py:676-692 | a finished loop appends one open job per spawning candidate in order, with the template's name, schedule and assignee and due = last reminder = now; it stamps exactly those templates with today and returns exactly the new ids in insertion order |
| LabJobsProofs.AddNewJobsSpec | server/modules/lab_jobs.py:669-692 | after hour 9 the templates spawned are exactly those with a watermark before today that spawn today; the pass raises iff such a template with an assignee has no occurrence; a finished pass has the effect above |
| LabJobsProofs.SpawningOccurrenceIsLaterToday | server/modules/lab_jobs.py:681-683 | for an inclusive evaluator, a spawning template's occurrence lies between now and the end of today |
| LabJobsProofs.SameDaySpawnsOnce | server/modules/lab_jobs.py:673-691 | a second pass on the same day spawns nothing for a template the first pass spawned |
| LabJobsProofs.StampedTemplatesQuiet | server/modules/lab_jobs.py:673-691 | after a finished pass, no template still a candidate today spawns or raises |
| LabJobsProofs.MaterializeIdempotent | server/modules/lab_jobs.py:673-691 | a second pass at the same clock reading changes nothing and returns no ids |
| LabJobsProofs.AddedTemplateIsInert | server/modules/lab_jobs.py:905-916 | adding a template appends one default template with watermark 1970-01-01 and no assignee, which never spawns |
| LabJobsProofs.EditReenables | server/modules/lab_jobs.py:953-957 | editing a template overwrites its fields and resets its watermark to 1970-01-01, so it spawns today iff its new rule and assignee say so; other templates are unchanged |
| LabJobsProofs.DeleteTemplateKeepsHistory | server/modules/lab_jobs.py:973 | deleting a template removes exactly that template and keeps every job, message and schedule |
| LabJobsProofs.DeleteScheduleSpec | server/modules/lab_jobs.py:893-895 | deleting a schedule removes it, clears the reference in every template and job that held it, and changes nothing else |
| LabJobsProofs.RequiredIntervalDefined | server/modules/lab_jobs.py:701-705 | with the implicit (0, 36500 days) pair, the required interval is defined for every positive elapsed time and never exceeds 36500 days |
| LabJobsProofs.RequiredIntervalUndefinedBeforeDue | server/modules/lab_jobs.py:705 | with non-negative thresholds, the minimum is taken over an empty list when elapsed ≤ 0 |
| LabJobsProofs.EscalationMonotone | server/modules/lab_jobs.py:705 | as the elapsed time grows the required interval stays defined and never increases |
| LabJobsProofs.EscalationScenario | server/modules/lab_jobs.py:700-705 | a daily, then twice-daily, then four-hourly schedule yields 1 day, 12 hours and 4 hours at 1, 3 and 5 days overdue |
| LabJobsProofs.LateBinding | server/modules/lab_jobs.py:698-705 | whatever schedule a job names, its required interval is the one computed from the last schedule's pairs |
| LabJobsProofs.LateBindingExample | server/modules/lab_jobs.py:698-705 | a job on an hourly schedule, two hours overdue, is not reminded when a daily schedule was parsed last |
| LabJobsProofs.PostsMatchStep | server/modules/lab_jobs.py:727-740 | a post to the job's assignee followed by the rest of the pass matches every post to its job's assignee |
| LabJobsProofs.PostAllSpec | server/modules/lab_jobs.py:727-740 | a finished posting loop sends one post per id to that job's assignee, records one message per id in order, stamps those jobs with now, and changes nothing else |
| LabJobsProofs.SendRemindersSpec | server/modules/lab_jobs.py:708-741 | a committed pass posts to the new ids followed by the selected open jobs, with the effect above |
| LabJobsProofs.NoImmediateRefire | server/modules/lab_jobs.py:724 | a job reminded at this instant does not fire again at it (the comparison is strict) |
| LabJobsProofs.StuckJobBlocksTick | server/modules/lab_jobs.py:715-754 | one open job with no assignee or no schedule makes every tick post nothing and roll its inserts back |
| LabJobsProofs.DeleteScheduleFreezesTicks | server/modules/lab_jobs.py:893-895 | deleting the schedule of an open job leaves that job with no schedule, so every later tick is a no-op |
| LabJobsProofs.CompleteSpec | server/modules/lab_jobs.py:786-798 | completion marks the job done without checking the flag, inserts and deletes no message, and edits the job's records in order; when the job exists and no edit raises, it edits every record |
| LabJobsProofs.CompleteRepeats | server/modules/lab_jobs.py:786-798 | completing again gives the same store and re-issues the same edits |
| LabJobsProofs.AddTemplatePreservesWellFormed | server/modules/lab_jobs.py:912-914 | adding a template keeps every table's rowids unique and ordered |
| LabJobsProofs.EditTemplatePreservesWellFormed | server/modules/lab_jobs.py:953-957 | editing a template keeps every table's rowids unique and ordered |
| LabJobsProofs.DeletionsPreserveWellFormed | server/modules/lab_jobs.py:893-895 | deleting a schedule or a template keeps every table's rowids unique and ordered |
| LabJobsProofs.CompletePreservesWellFormed | server/modules/lab_jobs.py:787 | completion keeps every table's rowids unique and ordered |
| LabJobsProofs.MaterializePreservesWellFormed | server/modules/lab_jobs.py:685-691 | materialisation keeps every table's rowids unique and ordered |
| LabJobsProofs.SendPreservesWellFormed | server/modules/lab_jobs.py:736-740 | a committed reminder pass keeps every table's rowids unique and ordered |
| LabJobsProofs.TickPreservesWellFormed | server/modules/lab_jobs.py:743-754 | every tick, committed or rolled back, keeps every table's rowids unique and ordered |
| Host.Truncate | server/labbot/__main__.py:63-64 | a logged message is a prefix of the original of at most 2000 characters; it is unchanged iff it already fits, and a longer one keeps exactly 2000 |
| Host.TruncateIdempotent | server/labbot/__main__.py:63-64 | truncating a truncated message changes nothing |
| Host.GreetingFor | server/labbot/__main__.py:162-170 | the greeting is night iff the hour is below 5 and evening iff it is 17 or later |
| Host.GreetingMonotone | server/labbot/__main__.py:162-170 | as the hour advances the greeting only moves forward through night, morning, afternoon, evening |
| Host.GreetingBuckets | server/labbot/__main__.py:162-184 | within a day, morning is exactly hours 5-11 and afternoon exactly 12-16 |
| Host.ModuleSectionsAppend | server/labbot/__main__.py:186-189 | the sections of two module lists are the sections of each, in order |
| Host.ModuleSectionsSnoc | server/labbot/__main__.py:186-189 | the sections of a module list are those of all modules but the last, followed by the last module's divider and blocks, or nothing when it returned [] |
| Host.HomeViewAppendModule | server/labbot/__main__.py:180-189 | appending a module appends a divider and its blocks, or nothing when it returns [] |
| Host.EmptyModuleInvisible | server/labbot/__main__.py:186-189 | a module returning [] contributes nothing wherever it sits |
| Host.CollectBlocks | server/labbot/__main__.py:175-177 | blocks are collected iff no module raises, one list per module in order |
| Host.PublishAll | server/labbot/__main__.py:174-198 | views are published to a prefix of the users in order, each the home view of that user's blocks; the pass fails iff it stops short |
| Host.HomeTabPass | server/labbot/__main__.py:172-202 | the flag is always cleared; nothing is published when it was not set; each published view is the user's home view under the hour's greeting |
| Host.UpdateThenPass | server/labbot/__main__.py:172-198 | after an update request every user receives a view, and the next pass publishes nothing |
| Host.PublishAllFailure | server/labbot/__main__.py:174-202 | a failed pass means some user's blocks or publish call raised |
| Host.InitEntries | server/labbot/__main__.py:227-229 | every task starts with the start time as its trigger time, in task order |
| Host.NextEntry | server/labbot/__main__.py:237-247 | an entry not yet due is kept unchanged; a due entry survives iff its task asked for a delay |
| Host.TimerStep | server/labbot/__main__.py:236-252 | an iteration never adds entries |
| Host.TimerStepKeepsWaiting | server/labbot/__main__.py:239-240 | every entry whose trigger time is after now survives unchanged |
| Host.TimerStepReschedules | server/labbot/__main__.py:241-246 | a due task returning delay d is rescheduled to now + d |
| Host.RescheduledOne | server/labbot/__main__.py:241-246 | the same for one given entry |
| Host.TimerStepOrigin | server/labbot/__main__.py:236-252 | every surviving entry comes from an entry of the list, kept or rescheduled |
| Host.TimerStepErrors | server/labbot/__main__.py:247-250 | the tasks logged as failing are exactly the due tasks that raised |
| Host.TimerStepAppend | server/labbot/__main__.py:236-252 | an iteration works entry by entry, so relative task order is preserved |
| Host.TimerStepAppendErrors | server/labbot/__main__.py:236-252 | the logged failures also follow list order |
| Host.TimerStepDrops | server/labbot/__main__.py:243-247 | a due task that returns None or raises is gone after the iteration |
| Host.AllDueSurvivors | server/labbot/__main__.py:237-246 | when every entry is due, each survivor was rescheduled by its own task's delay |
| Host.InitEntriesMembers | server/labbot/__main__.py:227-229 | the initial list holds exactly the tasks, each due at the start time |
| Host.FirstStepRunsAll | server/labbot/__main__.py:227-246 | the first iteration runs every task; the survivors are exactly the tasks that asked for a delay, rescheduled by it |
| Host.TimerLoop | server/labbot/__main__.py:231-252 | the loop ends with an empty list, on a shutdown request, or when the readings run out, and never before checking its condition |
| Host.TimerLoopNeverGrows | server/labbot/__main__.py:231-252 | the list never grows, and an empty list stops the loop at once |
| FlowjoCheckout.Register | server/modules/flowjo_checkout.py:27-34 | registration succeeds iff a token is configured |
| FlowjoCheckout.CurrentStatus | server/modules/flowjo_checkout.py:36-42 | a wrong token gets 401; the right one gets the stored flag |
| FlowjoCheckout.Checkin | server/modules/flowjo_checkout.py:44-53 | a wrong token gets 401 and a free licence 409, both with no change; otherwise the licence becomes free, and one home-tab refresh happens iff the callback exists |
| FlowjoCheckout.Checkout | server/modules/flowjo_checkout.py:55-63 | a wrong token gets 403 and a licence in use 409, both with no change; otherwise the licence becomes in use, and one refresh happens iff the callback exists |
| FlowjoCheckout.Apply | server/modules/flowjo_checkout.py:36-63 | a status query changes nothing; the flag changes exactly on a checkout that finds the licence free or a checkin that finds it taken, each with the right token |
| FlowjoCheckout.Run | server/modules/flowjo_checkout.py:36-63 | a run gives one outcome per request, and each status query leaves the state the request before it left |
| FlowjoCheckout.HomeText | server/modules/flowjo_checkout.py:65-75 | the home text says "In use" iff checked out and "Free!" otherwise |
| FlowjoCheckout.CheckoutThenCheckin | server/modules/flowjo_checkout.py:44-63 | a checkout then a checkin with the right token returns the licence to free; without the callback both end in a server error |
| FlowjoCheckout.RunAlternates | server/modules/flowjo_checkout.py:44-63 | over any request sequence, successful checkouts minus successful checkins equal the change of the flag, and each caused one refresh when the callback exists |
| CovidHours.MinutesOf | server/modules/covidapi.py:225-237 | a matched time is a minute of the day, below 24 × 60 |
| CovidHours.MatchTime | server/modules/covidapi.py:225-227 | a time matches iff it is H:MM or HH:MM with hour 0-23 and minute 00-59, allowing one final newline as Python's `$` does |
| CovidHours.MatchTimeRoundTrip | server/modules/covidapi.py:225-227 | every hour and minute written as H:MM or HH:MM matches, with or without a final newline, and reads back as that minute of the day; so do hours below ten written with a leading zero |
| CovidHours.Validate | server/modules/covidapi.py:229-244 | the arrival key appears iff the arrival is malformed; the departure key appears iff the departure is malformed or both parse and the departure is strictly before the arrival, with the format message in the malformed case |
| CovidHours.ValidateAccepts | server/modules/covidapi.py:225-247 | no errors iff both times match and departure is not before arrival, so equal times are accepted |
| CovidHours.OrderErrorHint | server/modules/covidapi.py:239-244 | the order error is exactly the order message, followed by the midnight hint iff the departure is before 04:00 |
| CovidHours.NewRow | server/modules/covidapi.py:328-337 | a stored row keeps the user, day and times given and has as week the Monday on or before the day |
| CovidHours.SameWeekSameColumn | server/modules/covidapi.py:329-330 | all days of one Monday-to-Sunday week get the same week column |
| CovidHours.Submit | server/modules/covidapi.py:245-259 | a form with errors ends in the acknowledgement that raises `TypeError` (the `response_actions` keyword), carrying exactly the validation errors, which are never shown, and no row is written; a form without errors appends exactly one row |
| CovidHours.SummarizeLoopSpec | server/modules/covidapi.py:304-321 | the summary loop adds the user's bucket total and every user's bucket total for the week, and keeps the user's instances |
| CovidHours.FindBucketAdd | server/modules/covidapi.py:296-301 | adding a row extends only its own week's bucket, creating it if needed |
| CovidHours.TotalsAdd | server/modules/covidapi.py:292-301 | adding a row raises the week's all-members total, and its user's total, by its duration and changes no other total |
| CovidHours.AddRowUsers | server/modules/covidapi.py:292-293 | a row's user is appended to the user list iff not already present |
| CovidHours.AddRowUnique | server/modules/covidapi.py:292-293 | the results never hold one user twice |
| CovidHours.LastInstancesAdd | server/modules/covidapi.py:299-300 | adding a row appends its instance to its own user's and week's list only |
| CovidHours.ParseCsvUnique | server/modules/covidapi.py:286-302 | parsing any rows gives one entry per user |
| CovidHours.ParseCsvTotals | server/modules/covidapi.py:286-302 | the week's all-members total is the sum of durations of the rows of that week, and the user total of the rows of that user and week |
| CovidHours.ParseCsvInstances | server/modules/covidapi.py:286-302 | a user's week instances are that user's rows of the week, one per row, in file order |
| CovidHours.ParseCsvInvariant | server/modules/covidapi.py:286-302 | the three facts above together |
| CovidHours.TotalIsInstancesTotal | server/modules/covidapi.py:299-301 | a bucket's total is the sum of its instances' durations |
| CovidHours.ParseCsvSummary | server/modules/covidapi.py:281-321 | the summary's user total, all-members total and instances are those of the rows, and the user total is its instances' total |
| CovidHours.SelectWithinWeek | server/modules/covidapi.py:311-317 | with non-negative durations, a user's total lies between 0 and the week's total |
| CovidHours.UserWithinAll | server/modules/covidapi.py:304-321 | when no departure is before its arrival, the user total lies between 0 and the all-members total |
| LabelPrinting.BuildModalView | server/modules/label_printing.py:178-191 | with text, the title gains "..." and the blocks gain one section with the text; a placeholder replaces the box's; nothing else differs from the template |
| LabelPrinting.TemplateUntouched | server/modules/label_printing.py:178-191 | building without arguments returns the template; a build without text keeps the template's title and notes, one with text appends "..." to the title, and the placeholder changes only when one is given |
| LabelPrinting.SplitJoin | server/modules/label_printing.py:219 | splitting the labels text at newlines loses nothing: joining the lines gives it back |
| LabelPrinting.SplitTrailing | server/modules/label_printing.py:219 | a trailing newline adds exactly one empty line |
| LabelPrinting.CsvLines | server/modules/label_printing.py:219 | there is one row per line, the comma-split of that line |
| LabelPrinting.CsvRow | server/modules/label_printing.py:219 | a line gives an empty row exactly when it is empty, as `csv.reader` does |
| LabelPrinting.CsvRows | server/modules/label_printing.py:219 | the labels text always gives at least one row, even when empty |
| LabelPrinting.CsvRowsTrailing | server/modules/label_printing.py:219 | a trailing newline adds exactly one empty row |
| LabelPrinting.FirstStop | server/modules/label_printing.py:240-251 | every row before the stop has two cells and an integer first cell, and the stop row does not |
| LabelPrinting.ConvertBacterial | server/modules/label_printing.py:239-252 | the conversion produces at most one label per row |
| LabelPrinting.ConvertBacterialSpec | server/modules/label_printing.py:239-252 | each row before the stop becomes (pKG<n>, name, "<date> <initials>", str(n)); a non-integer first cell is reported as the invalid row and ends the loop; a row without a second cell raises IndexError |
| LabelPrinting.ConvertedLabels | server/modules/label_printing.py:240-248 | the converted labels are exactly the rows before the stop, converted |
| LabelPrinting.ConversionStops | server/modules/label_printing.py:240-251 | how the loop ends is decided by the stop row alone |
| LabelPrinting.CopiesErrors | server/modules/label_printing.py:227-232 | the copies key appears iff the count is not an integer or is at most 0 |
| LabelPrinting.BacterialErrors | server/modules/label_printing.py:227-251 | the copies key appears iff the count is bad; the labels key iff some row is not two columns or a row is invalid; the invalid-row message overrides the two-column one |
| LabelPrinting.CheckBacterial | server/modules/label_printing.py:225-252 | a valid form has a positive copy count equal to the one parsed |
| LabelPrinting.CheckBacterialSpec | server/modules/label_printing.py:225-252 | the form raises iff the conversion hits a short row, is valid iff all rows convert, all have two columns and the count is good, and otherwise carries exactly the errors above |
| LabelPrinting.CheckForm | server/modules/label_printing.py:219-284 | only a bacterial-stock form with a positive count can be valid |
| LabelPrinting.Submit | server/modules/label_printing.py:213-294 | a submission raises `KeyError` exactly when one of the five fields is missing from the state values; a queued one appends exactly one entry at the tail; a rejected one has errors |
| LabelPrinting.SlackValuesRaise | server/modules/label_printing.py:213-219 | state values keyed the way Slack keys them, without the `labels-field` action id, make every submission raise `KeyError` before validation |
| LabelPrinting.ReadForm | server/modules/label_printing.py:219-228 | the five field reads succeed exactly when all five action ids are keys of the state values |
| LabelPrinting.FormValues | server/modules/label_printing.py:219-228 | state values holding a form under its action ids read back as that form |
| LabelPrinting.CheckFormBadCopies | server/modules/label_printing.py:227-232 | a bad copy count makes the form invalid with the copies message |
| LabelPrinting.SubmitBadCopies | server/modules/label_printing.py:227-284 | with the fields read by action id, a bad copy count means nothing is queued, and a rejection names the copies field |
| LabelPrinting.SubmitBadColumns | server/modules/label_printing.py:235-237 | with the fields read by action id, a bacterial form with a row not of two columns is never queued |
| LabelPrinting.SubmitInvalidRow | server/modules/label_printing.py:249-251 | with the fields read by action id, the first row with a non-integer pKG is named in the labels error |
| LabelPrinting.SubmitShortRow | server/modules/label_printing.py:240-245 | with the fields read by action id, a row with an integer first cell and no second cell crashes with IndexError |
| LabelPrinting.TrailingNewlineFails | server/modules/label_printing.py:219-245 | with the fields read by action id, good rows followed by a trailing newline crash on the empty last row |
| LabelPrinting.EmptyBoxFails | server/modules/label_printing.py:219-245 | with the fields read by action id, an empty labels box crashes the same way |
| LabelPrinting.SubmitUnknownType | server/modules/label_printing.py:280-284 | with the fields read by action id, an unknown label type is rejected with the label-type error, plus the copies error iff the count is bad |
| LabelPrinting.SubmitOtherTypes | server/modules/label_printing.py:253-279 | with the fields read by action id, the cell-line, virus and custom types crash on the unbound loop variable |
| LabelPrinting.CheckFormAccepts | server/modules/label_printing.py:225-284 | a form is valid iff it is bacterial stock with a good count and every row has two columns and an integer first cell; the labels are then every row converted |
| LabelPrinting.SubmitQueues | server/modules/label_printing.py:219-291 | a submission is queued iff all five fields are read, the form is valid and a view id exists, appending the entry with the copy count and labels; it is rejected iff the fields are read and the form is invalid |
| LabelPrinting.NothingEverQueued | server/modules/label_printing.py:287-288 | without a view id no submission is ever queued, whatever the state values |
| LabelPrinting.Dequeue | server/modules/label_printing.py:296-309 | a wrong token gets 401 with the queue unchanged; an empty queue gets {}; otherwise the head is removed and, when the view update succeeds, returned |
| LabelPrinting.DrainInOrder | server/modules/label_printing.py:296-309 | repeated dequeues hand the entries out in queue order: the queue is FIFO |
| LabelPrinting.QueuedLast | server/modules/label_printing.py:287-309 | a new entry is handed out after every entry already queued |
| LabelPrinting.UpdateLabelStatus | server/modules/label_printing.py:311-319 | a wrong token gets 401; otherwise the form's view shows the status followed by "..." |
| ZipImages.CheckConfig | scripts/zip_images.py:44-50 | the configuration passes iff all three keys and both indicators are present, and the first missing key is the one reported |
| ZipImages.IndicatorsChecked | scripts/zip_images.py:48-50 | a missing nozip or zip indicator is reported by name, nozip first |
| ZipImages.MatchDateSpec | scripts/zip_images.py:75 | a folder name is dated iff it begins with 4 digits, an optional separator from . _ -, 2 digits, the same separator, and 2 digits |
| ZipImages.MixedSeparatorsRejected | scripts/zip_images.py:75 | "2021.01-05" is not dated, because the two separators differ |
| ZipImages.DottedDateAccepted | scripts/zip_images.py:75 | "2021.01.05" is dated |
| ZipImages.CompactDateAccepted | scripts/zip_images.py:75 | "20210105_scope" is dated, with no separator |
| ZipImages.Writes | scripts/zip_images.py:92-97 | every file of a directory is written once, with its path relative to the archive's base folder |
| ZipImages.VisitDir | scripts/zip_images.py:60-97 | a pruned directory does nothing; a nozip directory is pruned; leaving the open archive's subtree closes it first; inside the subtree the files are added and no new archive starts |
| ZipImages.VisitOutside | scripts/zip_images.py:66-97 | outside an archive, a directory closes any open one and either opens its own and adds its files, or opens nothing |
| ZipImages.ZipDecision | scripts/zip_images.py:74-90 | a dated folder raises iff its date is invalid, and starts an archive iff the zip indicator is present or its age strictly exceeds the delay |
| ZipImages.ReplayWrites | scripts/zip_images.py:92-97 | writes into the open archive leave it open |
| ZipImages.VisitReplays | scripts/zip_images.py:60-97 | a directory's events are a valid sequence of archive operations, leaving open the archive the state records |
| ZipImages.WalkEntriesReplays | scripts/zip_images.py:59-97 | the same holds for a whole walk |
| ZipImages.WalkRootReplays | scripts/zip_images.py:58-100 | a completed root leaves no archive open |
| ZipImages.RunReplays | scripts/zip_images.py:58-100 | a completed run over all roots leaves no archive open |
| ZipImages.VisitExcluded | scripts/zip_images.py:61-63 | a directory at or below a nozip directory produces no events |
| ZipImages.VisitCovers | scripts/zip_images.py:61-63 | after each directory, every nozip directory seen so far is pruned with its subtree |
| ZipImages.VisitSafe | scripts/zip_images.py:60-97 | a visit writes nothing from a nozip subtree |
| ZipImages.WalkSkipsExcluded | scripts/zip_images.py:59-97 | a walk never writes a file from a nozip subtree, even inside an open archive |
| ZipImages.NozipPrunes | scripts/zip_images.py:59-100 | no file below a nozip directory is ever archived |
| WordVerification.ScanStep | server/modules/word_verification.py:74-107 | a field begin increments the counter; a field end decrements it, clears the citation flag and raises when it goes negative; a Zotero item code sets the flag only inside a field; a superscript records its grandparent |
| WordVerification.ScanForSuperscripts | server/modules/word_verification.py:72 | without the global root the scan fails |
| WordVerification.CountIsBalance | server/modules/word_verification.py:74-83 | the counter is the number of field begins minus ends, which never goes negative on a scan that has not raised |
| WordVerification.UnbalancedRaises | server/modules/word_verification.py:78-83 | any prefix with more ends than begins makes the scan raise |
| WordVerification.RaisedStays | server/modules/word_verification.py:82-83 | once the scan raised, later elements change nothing |
| WordVerification.SlideKeepsLast | server/modules/word_verification.py:105-107 | sliding the window keeps the last six text runs |
| WordVerification.WindowIsLastRuns | server/modules/word_verification.py:104-107 | the context window holds the last six text runs, None as "" |
| WordVerification.ReportedRun | server/modules/word_verification.py:95-107 | a text run is reported iff it is under the last superscript's grandparent, looks like a citation and is outside a citation field, with the preceding six runs as context |
| WordVerification.NoneTextUnderSuperscript | server/modules/word_verification.py:101 | a text element without text under a superscript raises |
| WordVerification.SuperscriptExample | server/modules/word_verification.py:72-108 | a lone superscript "12" is reported, and the same inside a Zotero citation field is not |
| WordVerification.CheckForBibliography | server/modules/word_verification.py:43 | without the global root the check fails |
| WordVerification.FindBibliographySpec | server/modules/word_verification.py:43-46 | the check is true iff some instruction text holds the Zotero bibliography code with no textless instruction before it, and false iff none holds it and none lacks its text |

## Left out

- SQLite connections, commits and closes are not modelled. The store is an immutable value: an operation returns it as committed, or unchanged when it rolls back.
- The Slack, HTTP and file I/O calls become parameters: posts, view updates, `views_publish`, JSON and CSV reads and writes. The outcome of each is a function value or a flag.
- The RRULE evaluator (RFC 5545 section 3.3.10, via dateutil) is a parameter. Its only assumed law is that an occurrence is not before the reference instant (`Inclusive`); no RRULE semantics is modelled.
- `durations.Duration` parsing of reminder texts is a parameter that maps a schedule's whole text to its (threshold, interval) pairs, or fails on it at once.
- LabJobs.GetSchedules: a reminders segment without `=`, such as `1d`, is not modelled faithfully. In the code, `s.split('=')` at server/modules/lab_jobs.py:701 gives a one-element list and `get_schedules` still succeeds; the `IndexError` comes only at line 705, when that entry is among the eligible ones, and because of the late binding only through the last schedule. The parser parameter yields complete pairs or fails eagerly, so such a text is either rejected before any lookup, which aborts every reminder pass, or read as complete pairs.
- The clock is a parameter. The local hour, US/Eastern wall time and the system-zone date are given separately, as in the code. Instants are integer microseconds.
- Floats are not modelled. Minutes-of-day replace `h + m/60`, and integer seconds replace `/3600`. The order comparison is the same, because both times are exact multiples of 1/60 hour.
- The Block Kit builders and modal templates are not modelled: the reminder and completion messages, the schedule and job modals, and the job home tab (`lab_job_home_tab`). Their content is presentation only. `BuildModalView` keeps only the title, placeholder and notes.
- `add_reminder_schedule`, `edit_reminder_schedule_modal`, `show_reassign_modal` and the modal-opening actions are not modelled. They only insert a default row, overwrite a schedule row or open views.
- Logging and `print` calls are not modelled, including `slack_log`'s chat post. Only the truncation is modelled.
- The host's threads, locks, asyncio sleeps, uvicorn server and process restart are not modelled. A timer task is a function of (iteration, task, time), and the loop reads one (shutdown, now) pair per iteration.
- `csv.reader` is modelled as a comma split: quoting and escapes are not modelled. Python's `repr` of a row in the invalid-row message ignores quote escaping.
- The covid CSV file is given as parsed rows. A malformed stored date or time would raise in `strptime`; that path is not modelled.
- `PyText.IntRoundTrip`: `int()` accepts only ASCII digits, signs, underscores between digits and ASCII whitespace. Other Unicode digits and whitespace are not modelled.
- ZipImages.MatchDateSpec: the `\d` of the dated-folder pattern (scripts/zip_images.py:75) is modelled as ASCII 0-9. Python's `\d` on a `str` pattern matches every Unicode decimal digit, so a folder named in, say, fullwidth digits is dated by the script and undated in the model.
- WordVerification.ReportedRun: the `\d` of the superscript pattern (server/modules/word_verification.py:101) is modelled as ASCII 0-9. A superscript run written in other Unicode decimal digits is reported by the code and not by the model.
- The label form's `view.id` is a parameter. `None` is the code as written, where the attribute lookup on the view dictionary raises; `NothingEverQueued` shows it.
- The other label types read the unbound loop variable `label`. They are modelled as a crash; their column messages are therefore never observable.
- The directory walk is a given top-down list of (path, files) entries. Symlink cycles, `resolve(strict=True)` failures and file-system errors are not modelled. A date the `date` constructor rejects is a crash outcome.
- The document is a given element stream: FldBegin, FldEnd, InstrText, VertAlignSup, Text, Other. lxml tag matching and attribute iteration are not modelled. The global `root` is an `Option` parameter.
- LabJobsProofs.EscalationScenario: the three values are stated for one concrete schedule; the general law is `EscalationMonotone` and `RequiredIntervalDefined`.
- FlowjoCheckout.Register: only the token check is modelled, not the merge of defaults into `module_config`.
- LabJobs.Tick: its contract states only the 30-second delay. Its effect on the store is stated by `StuckJobBlocksTick`, `DeleteScheduleFreezesTicks` and `TickPreservesWellFormed`.
- Host.TimerStep: its contract states only that the list never grows. The full behaviour is stated by the `TimerStep*` lemmas.
- LabJobs.EditTemplate: takes the submitted values already read and converted. When no schedule is selected, `selected_option` is `None` and server/modules/lab_jobs.py:948 raises before the update, as a non-integer sort priority does at line 947; the model has no such input, so its edit always goes through.
- LabelPrinting.Submit: the view's state values are a flat map from key to string. Slack's nesting of block id, action id and `value` appears only as the absence of the action-id keys, which makes the first read raise `KeyError` (`SlackValuesRaise`); the validation lemmas take values stored under the action ids (`FormValues`), a shape the handler as written never receives.

=== FILE: common.dfy ===
/** Small shared vocabulary: an optional value, the parts of Python's text
    handling the labbot modules rely on, and proleptic-Gregorian day numbers. */
module Common {

  /** A value that may be absent: SQL NULL, a Python `None`, or a failed lookup. */
  datatype Option<+T> = None | Some(value: T)
}

/** Python `str` behaviour used by the modelled code: ASCII digits, `int(...)`
    and `str(int)`, substring tests, and the `$` anchor of the `re` module. */
module PyText {
  import opened Common

  predicate IsDigit(c: char) { '0' <= c <= '9' }

  function DigitValue(c: char): (v: nat)
    requires IsDigit(c)
    ensures v < 10
  {
    (c as int) - ('0' as int)
  }

  function DigitChar(d: nat): (c: char)
    requires d < 10
    ensures IsDigit(c) && DigitValue(c) == d
  {
    (('0' as int) + d) as char
  }

  predicate AllDigits(s: string) {
    forall i :: 0 <= i < |s| ==> IsDigit(s[i])
  }

  /** The value of a run of decimal digits, most significant first. */
  function DigitsValue(s: string): nat
    requires AllDigits(s)
    decreases |s|
  {
    if s == [] then 0 else DigitsValue(s[..|s| - 1]) * 10 + DigitValue(s[|s| - 1])
  }

  /** Decimal rendering of a natural number, as Python's `str(n)`. */
  function NatToString(n: nat): (s: string)
    ensures |s| > 0 && AllDigits(s)
    ensures DigitsValue(s) == n
    ensures s[0] == '0' ==> n == 0
    decreases n
  {
    if n < 10 then [DigitChar(n)]
    else
      var prefix := NatToString(n / 10);
      var s := prefix + [DigitChar(n % 10)];
      assert s[..|s| - 1] == prefix;
      s
  }

  /** Python's `str(n)` for an integer. */
  function IntToString(n: int): (s: string)
    ensures |s| > 0
  {
    if n < 0 then "-" + NatToString(-n) else NatToString(n)
  }

  /** The characters `str.strip()` and `int()` treat as white space (ASCII part). */
  predicate IsSpace(c: char) {
    var k := c as int;
    (9 <= k <= 13) || (28 <= k <= 32)
  }

  function TrimLeft(s: string): (t: string)
    ensures |t| <= |s| && t == s[|s| - |t|..]
    ensures |t| > 0 ==> !IsSpace(t[0])
    decreases |s|
  {
    if |s| > 0 && IsSpace(s[0]) then TrimLeft(s[1..]) else s
  }

  function TrimRight(s: string): (t: string)
    ensures |t| <= |s| && t == s[..|t|]
    ensures |t| > 0 ==> !IsSpace(t[|t| - 1])
    decreases |s|
  {
    if |s| > 0 && IsSpace(s[|s| - 1]) then TrimRight(s[..|s| - 1]) else s
  }

  function Strip(s: string): string {
    TrimRight(TrimLeft(s))
  }

  /** Digits with single underscores between them, the body `int()` accepts. */
  predicate UnderscoredDigits(b: string) {
    && |b| > 0
    && IsDigit(b[0])
    && IsDigit(b[|b| - 1])
    && (forall i :: 0 <= i < |b| ==> IsDigit(b[i]) || b[i] == '_')
    && (forall i :: 0 < i < |b| && b[i - 1] == '_' ==> b[i] != '_')
  }

  function RemoveUnderscores(b: string): (d: string)
    ensures AllDigits(b) ==> d == b
    ensures (forall i :: 0 <= i < |b| ==> IsDigit(b[i]) || b[i] == '_') ==> AllDigits(d)
  {
    if b == [] then []
    else if b[0] == '_' then RemoveUnderscores(b[1..])
    else [b[0]] + RemoveUnderscores(b[1..])
  }

  function UnsignedValue(b: string): Option<nat> {
    if UnderscoredDigits(b) then
      Some(DigitsValue(RemoveUnderscores(b)))
    else None
  }

  /** `int()` once the white space is stripped: an optional sign, then the digits. */
  function SignedValue(t: string): Option<int> {
    if |t| > 0 && (t[0] == '+' || t[0] == '-') then
      match UnsignedValue(t[1..])
      case None => None
      case Some(v) => if t[0] == '-' then Some(0 - v) else Some(v)
    else
      match UnsignedValue(t)
      case None => None
      case Some(v) => Some(v)
  }

  /** Python's `int(s)` on a string in base 10; `None` is the `ValueError`. */
  function PyInt(s: string): Option<int> {
    SignedValue(Strip(s))
  }

  lemma StripUnpadded(s: string)
    requires |s| > 0 && !IsSpace(s[0]) && !IsSpace(s[|s| - 1])
    ensures Strip(s) == s
  {
    assert TrimLeft(s) == s;
  }

  lemma UnsignedOfDigits(d: string)
    requires |d| > 0 && AllDigits(d)
    ensures UnsignedValue(d) == Some(DigitsValue(d))
  {
    assert UnderscoredDigits(d);
  }

  /** A run of digits reads as its value. */
  lemma UnsignedDigitsValue(d: string)
    requires |d| > 0 && AllDigits(d)
    ensures SignedValue(d) == Some(DigitsValue(d) as int)
  {
    UnsignedOfDigits(d);
    assert IsDigit(d[0]);
  }

  /** A minus sign before a run of digits negates its value. */
  lemma NegatedDigitsValue(d: string)
    requires |d| > 0 && AllDigits(d)
    ensures SignedValue("-" + d) == Some(0 - DigitsValue(d))
  {
    UnsignedOfDigits(d);
    var t := "-" + d;
    assert t[0] == '-' && t[1..] == d;
  }

  /** `int(str(n)) == n`: the decimal rendering of an integer parses back to it. */
  lemma IntRoundTrip(n: int)
    ensures PyInt(IntToString(n)) == Some(n)
  {
    var s := IntToString(n);
    StripUnpadded(s);
    if n < 0 {
      NegatedDigitsValue(NatToString(-n));
    } else {
      UnsignedDigitsValue(NatToString(n));
    }
  }

  /** True iff `pat` occurs in `s` (Python's `pat in s`). */
  predicate Contains(s: string, pat: string)
    decreases |s|
  {
    |pat| <= |s| && (s[..|pat|] == pat || Contains(s[1..], pat))
  }

  /** `re.match('^X$', s)` for a pattern X whose language has no newline:
      Python's `$` also matches just before a final newline. */
  predicate AnchoredMatch(inLanguage: string -> bool, s: string) {
    inLanguage(s) || (|s| > 0 && s[|s| - 1] == '\n' && inLanguage(s[..|s| - 1]))
  }
}

/** Calendar days as integers, day 0 being 1970-01-01 (a Thursday), with
    Python's weekday numbering (Monday = 0) and its `date` constructor range. */
module Calendar {

  type Day = int

  /** `date.weekday()`: Monday is 0, Sunday is 6. */
  function Weekday(d: Day): (w: nat)
    ensures w < 7
  {
    (d + 3) % 7
  }

  /** The Monday on or before day `d`, as `d - timedelta(days=d.weekday())`. */
  function MondayOf(d: Day): (m: Day)
    ensures m <= d < m + 7
    ensures Weekday(m) == 0
  {
    d - Weekday(d)
  }

  /** A week has exactly one Monday: any Monday at most six days before `d` is `MondayOf(d)`. */
  lemma MondayOfUnique(d: Day, m: Day)
    requires Weekday(m) == 0 && m <= d < m + 7
    ensures m == MondayOf(d)
  {
    var k := d - m;
    assert (m + 3) % 7 == 0;
    assert d + 3 == (m + 3) + k;
    assert Weekday(d) == k;
  }

  const MinYear := 1
  const MaxYear := 9999

  predicate IsLeap(y: int) {
    y % 4 == 0 && (y % 100 != 0 || y % 400 == 0)
  }

  function DaysInMonth(y: int, m: int): int
    requires 1 <= m <= 12
  {
    if m == 2 then (if IsLeap(y) then 29 else 28)
    else if m == 4 || m == 6 || m == 9 || m == 11 then 30
    else 31
  }

  /** The arguments Python's `date(y, m, d)` accepts without `ValueError`. */
  predicate ValidDate(y: int, m: int, d: int) {
    MinYear <= y <= MaxYear && 1 <= m <= 12 && 1 <= d <= DaysInMonth(y, m)
  }

  /** The day number of a valid calendar date (proleptic Gregorian). */
  function DaysFromCivil(y: int, m: int, d: int): Day
    requires ValidDate(y, m, d)
  {
    var y' := if m <= 2 then y - 1 else y;
    var era := y' / 400;
    var yoe := y' - era * 400;
    var mp := if m > 2 then m - 3 else m + 9;
    var doy := (153 * mp + 2) / 5 + d - 1;
    var doe := yoe * 365 + yoe / 4 - yoe / 100 + doy;
    era * 146097 + doe - 719468
  }
}

=== FILE: covid_hours.dfy ===
/** The hour tracker of `server/modules/covidapi.py`: the validation of an
    arrival/departure submission, the CSV row it appends (with the Monday of
    the day's week), and the per-user, per-week accumulation and weekly
    summary read back from that CSV. Times of day are integer minutes
    (validation) or seconds (accumulation) instead of floats. */
module CovidHours {
  import opened Common
  import opened PyText
  import Calendar

  // ---------------------------------------------------------------- time validation

  /** The hour group `[01]?[0-9]|2[0-3]`. */
  predicate HourText(h: string) {
    || (|h| == 1 && IsDigit(h[0]))
    || (|h| == 2 && (h[0] == '0' || h[0] == '1') && IsDigit(h[1]))
    || (|h| == 2 && h[0] == '2' && '0' <= h[1] <= '3')
  }

  /** The minute group `[0-5][0-9]`. */
  predicate MinuteText(m: string) {
    |m| == 2 && '0' <= m[0] <= '5' && IsDigit(m[1])
  }

  /** The language of `([01]?[0-9]|2[0-3]):([0-5][0-9])`: H:MM or HH:MM. */
  predicate TimeLanguage(s: string) {
    || (|s| == 4 && s[1] == ':' && HourText(s[..1]) && MinuteText(s[2..]))
    || (|s| == 5 && s[2] == ':' && HourText(s[..2]) && MinuteText(s[3..]))
  }

  /** The time of day, in minutes, of a text in the language. */
  function MinutesOf(s: string): (v: nat)
    requires TimeLanguage(s)
    ensures v < 24 * 60
  {
    var k := if |s| == 4 then 1 else 2;
    HourBelow24(s[..k]);
    TwoDigits(s[k + 1..]);
    DigitsValue(s[..k]) * 60 + DigitsValue(s[k + 1..])
  }

  lemma TwoDigits(s: string)
    requires |s| == 2 && AllDigits(s)
    ensures DigitsValue(s) == DigitValue(s[0]) * 10 + DigitValue(s[1])
  {
    var p := s[..1];
    assert s[..|s| - 1] == p;
    assert p[..|p| - 1] == [];
    assert DigitsValue(p) == DigitValue(s[0]);
  }

  lemma HourBelow24(h: string)
    requires HourText(h)
    ensures AllDigits(h) && DigitsValue(h) < 24
  {
    if |h| == 2 {
      TwoDigits(h);
    } else {
      assert h[..0] == [];
    }
  }

  /** `re.match('^...$', value)` followed by `int(group(1)) + group(2)/60`:
      the minutes since midnight, or `None` where the match fails. */
  function MatchTime(s: string): (r: Option<nat>)
    ensures r.Some? <==> AnchoredMatch(TimeLanguage, s)
    ensures r.Some? ==> r.value < 24 * 60
  {
    if TimeLanguage(s) then Some(MinutesOf(s))
    else if |s| > 0 && s[|s| - 1] == '\n' && TimeLanguage(s[..|s| - 1]) then Some(MinutesOf(s[..|s| - 1]))
    else None
  }

  /** The H:MM rendering of a time of day (hours without padding). */
  function FormatTime(hour: nat, minute: nat): string
    requires hour < 24 && minute < 60
  {
    NatToString(hour) + ":" + [DigitChar(minute / 10), DigitChar(minute % 10)]
  }

  /** Every valid time of day is accepted, and read back as itself; with a
      trailing newline (which `$` allows) too, and, for hours below ten,
      with the hour zero-padded as well. */
  lemma MatchTimeRoundTrip(hour: nat, minute: nat)
    requires hour < 24 && minute < 60
    ensures MatchTime(FormatTime(hour, minute)) == Some(hour * 60 + minute)
    ensures MatchTime(FormatTime(hour, minute) + "\n") == Some(hour * 60 + minute)
    ensures hour < 10 ==> MatchTime("0" + FormatTime(hour, minute)) == Some(hour * 60 + minute)
    ensures hour < 10 ==> MatchTime("0" + FormatTime(hour, minute) + "\n") == Some(hour * 60 + minute)
  {
    if hour < 10 {
      PaddedRoundTrip(hour, minute);
    }
    var h := NatToString(hour);
    var m := [DigitChar(minute / 10), DigitChar(minute % 10)];
    var s := h + ":" + m;
    if hour < 10 {
      assert |h| == 1;
      assert s[..1] == h && s[2..] == m;
    } else {
      assert |h| == 2 by { TwoDigitsLength(h, hour); }
      assert s[..2] == h && s[3..] == m;
      assert h[0] == '1' || h[0] == '2' by { LeadingDigit(h, hour); }
      if h[0] == '2' {
        assert '0' <= h[1] <= '3' by { LeadingDigit(h, hour); }
      }
    }
    assert DigitsValue(m) == minute by {
      assert m[..1] == [DigitChar(minute / 10)];
    }
    assert (s + "\n")[..|s + "\n"| - 1] == s;
  }

  lemma PaddedRoundTrip(hour: nat, minute: nat)
    requires hour < 10 && minute < 60
    ensures MatchTime("0" + FormatTime(hour, minute)) == Some(hour * 60 + minute)
    ensures MatchTime("0" + FormatTime(hour, minute) + "\n") == Some(hour * 60 + minute)
  {
    var h := NatToString(hour);
    assert h == [DigitChar(hour)];
    var m := [DigitChar(minute / 10), DigitChar(minute % 10)];
    var s := "0" + FormatTime(hour, minute);
    assert s == ['0', DigitChar(hour), ':'] + m;
    assert s[..2] == ['0', DigitChar(hour)] && s[3..] == m;
    TwoDigits(s[..2]);
    TwoDigits(m);
    assert (s + "\n")[..|s + "\n"| - 1] == s;
  }

  lemma TwoDigitsLength(h: string, n: nat)
    requires h == NatToString(n) && 10 <= n < 100
    ensures |h| == 2
  {
    assert NatToString(n / 10) == [DigitChar(n / 10)];
  }

  lemma LeadingDigit(h: string, n: nat)
    requires h == NatToString(n) && 10 <= n < 24
    ensures |h| == 2 && h[0] == DigitChar(n / 10) && h[1] == DigitChar(n % 10)
  {
    assert NatToString(n / 10) == [DigitChar(n / 10)];
  }

  // ---------------------------------------------------------------- the submission's errors

  const ArrivalKey := "arrival_time_input"
  const DepartureKey := "departure_time_input"
  const ArrivalFormatMessage := "You must enter arrival time in the 24-hour format (H:MM or HH:MM)"
  const DepartureFormatMessage := "You must enter departure time in the 24-hour format (H:MM or HH:MM)"
  const OrderMessage := "Departure time must be later than arrival time! "
  const MidnightHint := "To submit hours crossing midnight, please submit as two separate time intervals for each day"
  /** Departures before 04:00 get the crossing-midnight hint. */
  const HintBefore := 4 * 60

  /** The error map the submission handler acknowledges with. */
  function Validate(arrival: string, departure: string): (errors: map<string, string>)
    ensures errors.Keys <= {ArrivalKey, DepartureKey}
    ensures ArrivalKey in errors <==> MatchTime(arrival).None?
    ensures ArrivalKey in errors ==> errors[ArrivalKey] == ArrivalFormatMessage
    ensures DepartureKey in errors <==>
      || MatchTime(departure).None?
      || (MatchTime(arrival).Some? && MatchTime(departure).value < MatchTime(arrival).value)
    ensures MatchTime(departure).None? ==> errors[DepartureKey] == DepartureFormatMessage
  {
    var a := MatchTime(arrival);
    var d := MatchTime(departure);
    var e1: map<string, string> := if a.None? then map[ArrivalKey := ArrivalFormatMessage] else map[];
    var e2 := if d.None? then e1[DepartureKey := DepartureFormatMessage] else e1;
    if a.Some? && d.Some? && d.value < a.value then
      e2[DepartureKey := OrderMessage + (if d.value < HintBefore then MidnightHint else "")]
    else e2
  }

  /** A submission is accepted exactly when both times are well formed and
      the departure is not before the arrival; equal times are accepted. */
  lemma ValidateAccepts(arrival: string, departure: string)
    ensures Validate(arrival, departure) == map[] <==>
      && AnchoredMatch(TimeLanguage, arrival) && AnchoredMatch(TimeLanguage, departure)
      && MatchTime(arrival).value <= MatchTime(departure).value
  {
    var e := Validate(arrival, departure);
    if MatchTime(arrival).None? {
      assert ArrivalKey in e;
    } else if MatchTime(departure).None? || MatchTime(departure).value < MatchTime(arrival).value {
      assert DepartureKey in e;
    }
  }

  /** A departure before the arrival is reported on the departure field, with
      the crossing-midnight hint exactly when the departure is before 04:00. */
  lemma OrderErrorHint(arrival: string, departure: string)
    requires MatchTime(arrival).Some? && MatchTime(departure).Some?
    requires MatchTime(departure).value < MatchTime(arrival).value
    ensures Validate(arrival, departure)[DepartureKey] ==
      OrderMessage + (if MatchTime(departure).value < HintBefore then MidnightHint else "")
  {
  }

  // ---------------------------------------------------------------- rows

  /** A row of `covid_hours.csv` as `add_row` writes it. */
  datatype HoursRow = HoursRow(user: string, week: Calendar.Day, day: Calendar.Day, arrival: string, departure: string)

  /** `add_row`: the week column is the Monday on or before the day. */
  function NewRow(user: string, day: Calendar.Day, arrival: string, departure: string): (r: HoursRow)
    ensures r.week <= r.day < r.week + 7 && Calendar.Weekday(r.week) == 0
    ensures r.user == user && r.day == day && r.arrival == arrival && r.departure == departure
  {
    HoursRow(user, Calendar.MondayOf(day), day, arrival, departure)
  }

  /** Every day of one Monday-to-Sunday week gets the same week column. */
  lemma SameWeekSameColumn(d1: Calendar.Day, d2: Calendar.Day)
    requires Calendar.MondayOf(d1) <= d2 < Calendar.MondayOf(d1) + 7
    ensures NewRow("", d2, "", "").week == NewRow("", d1, "", "").week
  {
    Calendar.MondayOfUnique(d2, Calendar.MondayOf(d1));
  }

  /** The handler's outcome. `AckRaised` carries the errors the handler
      tried to send: it passes them to `ack` under the keyword
      `response_actions`, which Bolt's `ack` does not accept, so that call
      raises `TypeError` and the form never shows them. */
  datatype Submission = AckRaised(errors: map<string, string>) | Accepted(rows: seq<HoursRow>)

  /** `handle_form_submission`: a form with any error ends in the failing
      acknowledgement and nothing is written; otherwise one row is appended
      to the file. */
  function Submit(rows: seq<HoursRow>, user: string, day: Calendar.Day, arrival: string, departure: string): (r: Submission)
    ensures r.AckRaised? <==> Validate(arrival, departure) != map[]
    ensures r.AckRaised? ==> r.errors == Validate(arrival, departure)
    ensures r.Accepted? ==> r.rows == rows + [NewRow(user, day, arrival, departure)]
  {
    var errors := Validate(arrival, departure);
    if errors != map[] then AckRaised(errors) else Accepted(rows + [NewRow(user, day, arrival, departure)])
  }

  // ---------------------------------------------------------------- parse_csv

  /** A row as read back by `parse_csv`, its times in seconds since
      midnight (`csv.DictReader` and `strptime` are not modelled). */
  datatype ParsedRow = ParsedRow(user: string, week: Calendar.Day, day: Calendar.Day, arrival: int, departure: int)

  function Duration(r: ParsedRow): int { r.departure - r.arrival }

  datatype Instance = Instance(day: Calendar.Day, arrival: int, departure: int)

  function InstanceOf(r: ParsedRow): Instance { Instance(r.day, r.arrival, r.departure) }

  /** `{'total_time': ..., 'instances': [...]}` of one user and week. */
  datatype Bucket = Bucket(week: Calendar.Day, total: int, instances: seq<Instance>)

  /** One user's weeks, in the order they were first seen. */
  datatype UserResults = UserResults(user: string, buckets: seq<Bucket>)

  /** The results dictionary, users in insertion order. */
  type Results = seq<UserResults>

  function FindBucket(bs: seq<Bucket>, week: Calendar.Day): (r: Option<Bucket>)
    ensures r.Some? ==> r.value.week == week
  {
    if bs == [] then None
    else if bs[0].week == week then Some(bs[0])
    else FindBucket(bs[1..], week)
  }

  function Extend(b: Option<Bucket>, row: ParsedRow): Bucket {
    match b
    case None => Bucket(row.week, Duration(row), [InstanceOf(row)])
    case Some(b) => Bucket(b.week, b.total + Duration(row), b.instances + [InstanceOf(row)])
  }

  function AddToBuckets(bs: seq<Bucket>, row: ParsedRow): seq<Bucket> {
    if bs == [] then [Extend(None, row)]
    else if bs[0].week == row.week then [Extend(Some(bs[0]), row)] + bs[1..]
    else [bs[0]] + AddToBuckets(bs[1..], row)
  }

  /** One iteration of the loop of `parse_csv`. */
  function AddRow(res: Results, row: ParsedRow): Results {
    if res == [] then [UserResults(row.user, [Extend(None, row)])]
    else if res[0].user == row.user then [UserResults(row.user, AddToBuckets(res[0].buckets, row))] + res[1..]
    else [res[0]] + AddRow(res[1..], row)
  }

  /** `parse_csv` over the file's rows, in file order. */
  function ParseCsv(rows: seq<ParsedRow>): Results
    decreases |rows|
  {
    if rows == [] then [] else AddRow(ParseCsv(rows[..|rows| - 1]), rows[|rows| - 1])
  }

  // ---------------------------------------------------------------- summarize_hour_results

  datatype Summary = Summary(user: int, all: int, instances: seq<Instance>)

  /** The loop of `summarize_hour_results` (totals in seconds; the final
      division by 3600 is presentation). */
  function SummarizeLoop(res: Results, week: Calendar.Day, username: string, acc: Summary): Summary
    decreases |res|
  {
    if res == [] then acc
    else
      var next := match FindBucket(res[0].buckets, week)
        case None => acc
        case Some(b) =>
          if res[0].user == username then Summary(acc.user + b.total, acc.all + b.total, b.instances)
          else Summary(acc.user, acc.all + b.total, acc.instances);
      SummarizeLoop(res[1..], week, username, next)
  }

  function Summarize(res: Results, week: Calendar.Day, username: string): Summary {
    SummarizeLoop(res, week, username, Summary(0, 0, []))
  }

  // ---------------------------------------------------------------- reference definitions over the rows

  /** The rows of one user and week, in file order. */
  function Select(rows: seq<ParsedRow>, user: string, week: Calendar.Day): (r: seq<ParsedRow>)
    ensures forall x :: x in r <==> x in rows && x.user == user && x.week == week
    decreases |rows|
  {
    if rows == [] then []
    else
      var last := rows[|rows| - 1];
      var rest := Select(rows[..|rows| - 1], user, week);
      assert forall x :: x in rows <==> x in rows[..|rows| - 1] || x == last;
      if last.user == user && last.week == week then rest + [last] else rest
  }

  /** The rows of one week, any user. */
  function SelectWeek(rows: seq<ParsedRow>, week: Calendar.Day): (r: seq<ParsedRow>)
    ensures forall x :: x in r <==> x in rows && x.week == week
    decreases |rows|
  {
    if rows == [] then []
    else
      var last := rows[|rows| - 1];
      var rest := SelectWeek(rows[..|rows| - 1], week);
      assert forall x :: x in rows <==> x in rows[..|rows| - 1] || x == last;
      if last.week == week then rest + [last] else rest
  }

  function Total(rows: seq<ParsedRow>): int
    decreases |rows|
  {
    if rows == [] then 0 else Total(rows[..|rows| - 1]) + Duration(rows[|rows| - 1])
  }

  function Instances(rows: seq<ParsedRow>): (r: seq<Instance>)
    ensures |r| == |rows|
    ensures forall i :: 0 <= i < |rows| ==> r[i] == InstanceOf(rows[i])
  {
    seq(|rows|, i requires 0 <= i < |rows| => InstanceOf(rows[i]))
  }

  function InstancesTotal(xs: seq<Instance>): int
    decreases |xs|
  {
    if xs == [] then 0 else InstancesTotal(xs[..|xs| - 1]) + (xs[|xs| - 1].departure - xs[|xs| - 1].arrival)
  }

  // ---------------------------------------------------------------- the results dictionary, entry by entry

  function WeekTotal(e: UserResults, week: Calendar.Day): int {
    match FindBucket(e.buckets, week)
    case None => 0
    case Some(b) => b.total
  }

  /** The sum of every user's bucket for the week. */
  function AllTotal(res: Results, week: Calendar.Day): int
    decreases |res|
  {
    if res == [] then 0 else WeekTotal(res[0], week) + AllTotal(res[1..], week)
  }

  /** The sum of the named user's buckets for the week. */
  function UserTotal(res: Results, week: Calendar.Day, user: string): int
    decreases |res|
  {
    if res == [] then 0
    else (if res[0].user == user then WeekTotal(res[0], week) else 0) + UserTotal(res[1..], week, user)
  }

  /** The instances of the last entry of the named user having the week. */
  function LastInstances(res: Results, week: Calendar.Day, user: string): Option<seq<Instance>>
    decreases |res|
  {
    if res == [] then None
    else match LastInstances(res[1..], week, user)
      case Some(xs) => Some(xs)
      case None =>
        if res[0].user == user && FindBucket(res[0].buckets, week).Some?
        then Some(FindBucket(res[0].buckets, week).value.instances) else None
  }

  function OrEmpty(xs: Option<seq<Instance>>): seq<Instance> {
    match xs
    case None => []
    case Some(x) => x
  }

  predicate Distinct(xs: seq<string>) {
    forall i, j :: 0 <= i < j < |xs| ==> xs[i] != xs[j]
  }

  function Users(res: Results): (us: seq<string>)
    ensures |us| == |res| && forall i :: 0 <= i < |res| ==> us[i] == res[i].user
  {
    seq(|res|, i requires 0 <= i < |res| => res[i].user)
  }

  /** Python dict keys: each user has one entry. */
  predicate UniqueUsers(res: Results) {
    Distinct(Users(res))
  }

  /** The summary loop computes the per-entry sums: the named user's total,
      every user's total, and the instances of the named user. */
  lemma {:induction false} SummarizeLoopSpec(res: Results, week: Calendar.Day, user: string, acc: Summary)
    ensures SummarizeLoop(res, week, user, acc) ==
      Summary(acc.user + UserTotal(res, week, user), acc.all + AllTotal(res, week),
              match LastInstances(res, week, user) case None => acc.instances case Some(xs) => xs)
    decreases |res|
  {
    if res != [] {
      var next := match FindBucket(res[0].buckets, week)
        case None => acc
        case Some(b) =>
          if res[0].user == user then Summary(acc.user + b.total, acc.all + b.total, b.instances)
          else Summary(acc.user, acc.all + b.total, acc.instances);
      SummarizeLoopSpec(res[1..], week, user, next);
    }
  }

  lemma {:induction false} FindBucketAdd(bs: seq<Bucket>, row: ParsedRow, week: Calendar.Day)
    ensures FindBucket(AddToBuckets(bs, row), week) ==
      if week == row.week then Some(Extend(FindBucket(bs, week), row)) else FindBucket(bs, week)
    decreases |bs|
  {
    if bs != [] && bs[0].week != row.week {
      FindBucketAdd(bs[1..], row, week);
    }
  }

  lemma {:induction false} TotalsAdd(res: Results, row: ParsedRow, week: Calendar.Day, user: string)
    ensures AllTotal(AddRow(res, row), week) == AllTotal(res, week) + (if row.week == week then Duration(row) else 0)
    ensures UserTotal(AddRow(res, row), week, user) ==
      UserTotal(res, week, user) + (if row.week == week && row.user == user then Duration(row) else 0)
    decreases |res|
  {
    if res == [] {
      assert AddRow(res, row)[1..] == [];
      FindBucketAdd([], row, week);
    } else if res[0].user == row.user {
      FindBucketAdd(res[0].buckets, row, week);
      assert AddRow(res, row)[1..] == res[1..];
    } else {
      TotalsAdd(res[1..], row, week, user);
      assert AddRow(res, row)[1..] == AddRow(res[1..], row);
    }
  }

  lemma {:induction false} NoUserNoInstances(res: Results, week: Calendar.Day, user: string)
    requires forall e :: e in res ==> e.user != user
    ensures LastInstances(res, week, user).None?
    decreases |res|
  {
    if res != [] {
      NoUserNoInstances(res[1..], week, user);
    }
  }

  /** A row of a new user appends an entry for it; otherwise the users stay. */
  lemma {:induction false} AddRowUsers(res: Results, row: ParsedRow)
    ensures Users(AddRow(res, row)) == if row.user in Users(res) then Users(res) else Users(res) + [row.user]
    decreases |res|
  {
    var r := AddRow(res, row);
    if res == [] {
    } else if res[0].user == row.user {
      assert Users(res)[0] == row.user;
      assert |r| == |res| && r[1..] == res[1..] && r[0].user == res[0].user;
      assert Users(r) == Users(res);
    } else {
      AddRowUsers(res[1..], row);
      assert Users(res) == [res[0].user] + Users(res[1..]);
      assert r == [res[0]] + AddRow(res[1..], row);
      assert Users(r) == [res[0].user] + Users(AddRow(res[1..], row));
      assert row.user in Users(res) <==> row.user in Users(res[1..]);
    }
  }

  lemma AddRowUnique(res: Results, row: ParsedRow)
    requires UniqueUsers(res)
    ensures UniqueUsers(AddRow(res, row))
  {
    AddRowUsers(res, row);
  }

  lemma UniqueTail(res: Results)
    requires UniqueUsers(res) && |res| > 0
    ensures UniqueUsers(res[1..])
    ensures forall e :: e in res[1..] ==> e.user != res[0].user
  {
    assert Users(res[1..]) == Users(res)[1..];
    forall e | e in res[1..] ensures e.user != res[0].user {
      var k :| 0 <= k < |res| - 1 && res[1..][k] == e;
      assert Users(res)[k + 1] == e.user;
    }
  }

  lemma {:induction false} LastInstancesAdd(res: Results, row: ParsedRow, week: Calendar.Day, user: string)
    requires UniqueUsers(res)
    ensures LastInstances(AddRow(res, row), week, user) ==
      if row.user == user && row.week == week then Some(OrEmpty(LastInstances(res, week, user)) + [InstanceOf(row)])
      else LastInstances(res, week, user)
    decreases |res|
  {
    if res == [] {
      var r := AddRow(res, row);
      assert r[1..] == [];
      FindBucketAdd([], row, week);
      assert [] + [InstanceOf(row)] == [InstanceOf(row)];
    } else if res[0].user == row.user {
      UniqueTail(res);
      FindBucketAdd(res[0].buckets, row, week);
      var r := AddRow(res, row);
      assert r[1..] == res[1..];
      if row.user == user {
        NoUserNoInstances(res[1..], week, user);
        assert LastInstances(res, week, user) ==
          if FindBucket(res[0].buckets, week).Some? then Some(FindBucket(res[0].buckets, week).value.instances) else None;
        assert LastInstances(r, week, user) ==
          if FindBucket(r[0].buckets, week).Some? then Some(FindBucket(r[0].buckets, week).value.instances) else None;
        if row.week == week && FindBucket(res[0].buckets, week).None? {
          assert [] + [InstanceOf(row)] == [InstanceOf(row)];
        }
      }
    } else {
      UniqueTail(res);
      LastInstancesAdd(res[1..], row, week, user);
      assert AddRow(res, row)[1..] == AddRow(res[1..], row);
    }
  }

  /** The reference sums over the rows, one row at a time. */
  lemma SelectionsOfAppended(rows: seq<ParsedRow>, user: string, week: Calendar.Day)
    requires |rows| > 0
    ensures var init := rows[..|rows| - 1]; var last := rows[|rows| - 1];
      && Total(Select(rows, user, week)) == Total(Select(init, user, week)) + (if last.user == user && last.week == week then Duration(last) else 0)
      && Total(SelectWeek(rows, week)) == Total(SelectWeek(init, week)) + (if last.week == week then Duration(last) else 0)
      && Instances(Select(rows, user, week)) ==
           Instances(Select(init, user, week)) + (if last.user == user && last.week == week then [InstanceOf(last)] else [])
  {
    var init := rows[..|rows| - 1];
    var last := rows[|rows| - 1];
    var s := Select(init, user, week);
    assert (s + [last])[..|s|] == s;
    var t := SelectWeek(init, week);
    assert (t + [last])[..|t|] == t;
  }

  /** `parse_csv` keeps one entry per user. */
  lemma {:induction false} ParseCsvUnique(rows: seq<ParsedRow>)
    ensures UniqueUsers(ParseCsv(rows))
    decreases |rows|
  {
    if rows != [] {
      ParseCsvUnique(rows[..|rows| - 1]);
      AddRowUnique(ParseCsv(rows[..|rows| - 1]), rows[|rows| - 1]);
    }
  }

  /** The totals kept by `parse_csv` are the reference sums over the rows. */
  lemma {:induction false} ParseCsvTotals(rows: seq<ParsedRow>, week: Calendar.Day, user: string)
    ensures AllTotal(ParseCsv(rows), week) == Total(SelectWeek(rows, week))
    ensures UserTotal(ParseCsv(rows), week, user) == Total(Select(rows, user, week))
    decreases |rows|
  {
    if rows != [] {
      var init := rows[..|rows| - 1];
      var last := rows[|rows| - 1];
      var before := ParseCsv(init);
      assert ParseCsv(rows) == AddRow(before, last);
      ParseCsvTotals(init, week, user);
      TotalsAdd(before, last, week, user);
      SelectionsOfAppended(rows, user, week);
    }
  }

  /** The instances kept by `parse_csv` for a user and week are that user's
      rows of the week, in file order. */
  lemma {:induction false} ParseCsvInstances(rows: seq<ParsedRow>, week: Calendar.Day, user: string)
    ensures OrEmpty(LastInstances(ParseCsv(rows), week, user)) == Instances(Select(rows, user, week))
    decreases |rows|
  {
    if rows != [] {
      var init := rows[..|rows| - 1];
      var last := rows[|rows| - 1];
      var before := ParseCsv(init);
      assert ParseCsv(rows) == AddRow(before, last);
      ParseCsvInstances(init, week, user);
      ParseCsvUnique(init);
      LastInstancesAdd(before, last, week, user);
      SelectionsOfAppended(rows, user, week);
    }
  }

  /** `parse_csv` keeps one entry per user, and its entries add up to the
      reference sums over the rows. */
  lemma ParseCsvInvariant(rows: seq<ParsedRow>, week: Calendar.Day, user: string)
    ensures UniqueUsers(ParseCsv(rows))
    ensures AllTotal(ParseCsv(rows), week) == Total(SelectWeek(rows, week))
    ensures UserTotal(ParseCsv(rows), week, user) == Total(Select(rows, user, week))
    ensures OrEmpty(LastInstances(ParseCsv(rows), week, user)) == Instances(Select(rows, user, week))
  {
    ParseCsvUnique(rows);
    ParseCsvTotals(rows, week, user);
    ParseCsvInstances(rows, week, user);
  }

  lemma {:induction false} TotalIsInstancesTotal(rows: seq<ParsedRow>)
    ensures Total(rows) == InstancesTotal(Instances(rows))
    decreases |rows|
  {
    if rows != [] {
      TotalIsInstancesTotal(rows[..|rows| - 1]);
      assert Instances(rows)[..|rows| - 1] == Instances(rows[..|rows| - 1]);
    }
  }

  /** The weekly summary of the CSV: the user's total is the sum of
      (departure - arrival) over that user's rows of the week, and equals the
      sum over the instances reported; the all-members total sums every row
      of the week; the instances are the user's rows of the week in file
      order. */
  lemma ParseCsvSummary(rows: seq<ParsedRow>, week: Calendar.Day, user: string)
    ensures var s := Summarize(ParseCsv(rows), week, user);
      && s.user == Total(Select(rows, user, week))
      && s.all == Total(SelectWeek(rows, week))
      && s.instances == Instances(Select(rows, user, week))
      && s.user == InstancesTotal(s.instances)
  {
    SummarizeLoopSpec(ParseCsv(rows), week, user, Summary(0, 0, []));
    ParseCsvInvariant(rows, week, user);
    TotalIsInstancesTotal(Select(rows, user, week));
  }

  lemma {:induction false} SelectWithinWeek(rows: seq<ParsedRow>, week: Calendar.Day, user: string)
    requires forall r :: r in rows ==> Duration(r) >= 0
    ensures 0 <= Total(Select(rows, user, week)) <= Total(SelectWeek(rows, week))
    decreases |rows|
  {
    if rows != [] {
      assert forall r :: r in rows[..|rows| - 1] ==> r in rows;
      SelectWithinWeek(rows[..|rows| - 1], week, user);
      SelectionsOfAppended(rows, user, week);
    }
  }

  /** With non-negative durations, a user's weekly total never exceeds the
      total of all members. */
  lemma UserWithinAll(rows: seq<ParsedRow>, week: Calendar.Day, user: string)
    requires forall r :: r in rows ==> r.departure >= r.arrival
    ensures 0 <= Summarize(ParseCsv(rows), week, user).user <= Summarize(ParseCsv(rows), week, user).all
  {
    ParseCsvSummary(rows, week, user);
    SelectWithinWeek(rows, week, user);
  }
}

=== FILE: flowjo_checkout.dfy ===
/** The FlowJo licence tracker: a client on the analysis machine checks the
    single shared licence out and back in over HTTP, and every user's home
    tab shows whether it is in use. The JSON status file is a single flag. */
module FlowjoCheckout {
  import opened Common

  /** The module's configuration once registered: the shared secret, and
      whether the host supplied a `hometab_update` callback (the host's
      module loader never does). */
  datatype Config = Config(token: string, hasHometabUpdate: bool)

  /** `register_module`: the configuration must carry a token, otherwise
      registration raises and the module is not loaded. */
  function Register(token: Option<string>, hasHometabUpdate: bool): (c: Option<Config>)
    ensures c.Some? <==> token.Some?
    ensures c.Some? ==> c.value.token == token.value && c.value.hasHometabUpdate == hasHometabUpdate
  {
    if token.None? then None else Some(Config(token.value, hasHometabUpdate))
  }

  /** The stored flag and the number of home-tab refreshes requested so far. */
  datatype State = State(inUse: bool, refreshes: nat)

  /** An HTTP answer: the status body, an empty success, an HTTP error
      status, or the server error of a missing `hometab_update` key. */
  datatype Reply = CheckedOut(value: bool) | Done | HttpError(code: int) | InternalError

  datatype Outcome = Outcome(reply: Reply, state: State)

  const Unauthorized := 401
  const Forbidden := 403
  const Conflict := 409

  /** `current_status`. */
  function CurrentStatus(c: Config, s: State, token: string): (r: Reply)
    ensures token != c.token <==> r == HttpError(Unauthorized)
    ensures token == c.token ==> r == CheckedOut(s.inUse)
  {
    if token != c.token then HttpError(Unauthorized) else CheckedOut(s.inUse)
  }

  /** The common tail of both transitions: write the new flag, then call the
      home-tab callback, which raises `KeyError` when it was never supplied. */
  function WriteAndRefresh(c: Config, s: State, inUse: bool): Outcome {
    if c.hasHometabUpdate then Outcome(Done, State(inUse, s.refreshes + 1))
    else Outcome(InternalError, s.(inUse := inUse))
  }

  /** `checkin_license`. */
  function Checkin(c: Config, s: State, token: string): (o: Outcome)
    ensures token != c.token ==> o == Outcome(HttpError(Unauthorized), s)
    ensures token == c.token && !s.inUse ==> o == Outcome(HttpError(Conflict), s)
    ensures token == c.token && s.inUse ==> !o.state.inUse
    ensures o.reply == Done <==> token == c.token && s.inUse && c.hasHometabUpdate
    ensures o.state.refreshes == s.refreshes + (if o.reply == Done then 1 else 0)
  {
    if token != c.token then Outcome(HttpError(Unauthorized), s)
    else if !s.inUse then Outcome(HttpError(Conflict), s)
    else WriteAndRefresh(c, s, false)
  }

  /** `checkout_license`: the same shape, with 403 for a bad token. */
  function Checkout(c: Config, s: State, token: string): (o: Outcome)
    ensures token != c.token ==> o == Outcome(HttpError(Forbidden), s)
    ensures token == c.token && s.inUse ==> o == Outcome(HttpError(Conflict), s)
    ensures token == c.token && !s.inUse ==> o.state.inUse
    ensures o.reply == Done <==> token == c.token && !s.inUse && c.hasHometabUpdate
    ensures o.state.refreshes == s.refreshes + (if o.reply == Done then 1 else 0)
  {
    if token != c.token then Outcome(HttpError(Forbidden), s)
    else if s.inUse then Outcome(HttpError(Conflict), s)
    else WriteAndRefresh(c, s, true)
  }

  /** The home-tab section, the same for every user. */
  function HomeText(s: State): (t: string)
    ensures s.inUse <==> t == "*Flowjo license:* In use"
    ensures !s.inUse <==> t == "*Flowjo license:* Free!"
  {
    "*Flowjo license:* " + (if s.inUse then "In use" else "Free!")
  }

  /** A successful checkout followed by a checkin with the same token leaves
      the licence free again, two refreshes later; without the callback the
      flag still round-trips but both requests end in a server error. */
  lemma CheckoutThenCheckin(c: Config, s: State)
    requires !s.inUse
    ensures var o1 := Checkout(c, s, c.token);
      var o2 := Checkin(c, o1.state, c.token);
      && o1.state.inUse && !o2.state.inUse
      && (c.hasHometabUpdate ==> o1.reply == Done && o2.reply == Done && o2.state.refreshes == s.refreshes + 2)
      && (!c.hasHometabUpdate ==> o1.reply == InternalError && o2.reply == InternalError && o2.state == s)
  {
  }

  /** A request the licence client can send. */
  datatype Request = StatusQuery(token: string) | CheckinRequest(token: string) | CheckoutRequest(token: string)

  /** Serve one request: a status query changes nothing, and the flag
      changes exactly on a checkout that finds the licence free or a
      checkin that finds it taken, each with the right token. */
  function Apply(c: Config, s: State, q: Request): (o: Outcome)
    ensures q.StatusQuery? ==> o.state == s
    ensures o.state.inUse != s.inUse <==>
              q.token == c.token && ((q.CheckoutRequest? && !s.inUse) || (q.CheckinRequest? && s.inUse))
  {
    match q
    case StatusQuery(t) => Outcome(CurrentStatus(c, s, t), s)
    case CheckinRequest(t) => Checkin(c, s, t)
    case CheckoutRequest(t) => Checkout(c, s, t)
  }

  /** Serve the requests in order, each on the state the one before it
      left: one outcome per request, and a status query leaves the state
      it found. */
  function Run(c: Config, s: State, qs: seq<Request>): (o: seq<Outcome>)
    ensures |o| == |qs|
    ensures forall i :: 0 <= i < |qs| && qs[i].StatusQuery? ==> o[i].state == Before(s, o, i)
    decreases |qs|
  {
    if qs == [] then [] else
      var first := Apply(c, s, qs[0]);
      [first] + Run(c, first.state, qs[1..])
  }

  /** The state the `i`-th request of a run found. */
  function Before(s: State, o: seq<Outcome>, i: nat): State
    requires i <= |o|
  {
    if i == 0 then s else o[i - 1].state
  }

  function Final(s: State, o: seq<Outcome>): State {
    if o == [] then s else o[|o| - 1].state
  }

  /** How many requests of a kind changed the flag. */
  function Flips(qs: seq<Request>, o: seq<Outcome>, s: State, checkouts: bool): nat
    requires |o| == |qs|
    decreases |qs|
  {
    if qs == [] then 0 else
      var flipped := o[0].state.inUse != s.inUse && (if checkouts then qs[0].CheckoutRequest? else qs[0].CheckinRequest?);
      (if flipped then 1 else 0) + Flips(qs[1..], o[1..], o[0].state, checkouts)
  }

  /** Checkouts and checkins alternate: over any run, the number of checkouts
      that took the licence minus the checkins that returned it is the change
      of the flag, and the home tab was refreshed once per such request when
      the callback exists. */
  lemma {:induction false} RunAlternates(c: Config, s: State, qs: seq<Request>)
    ensures var o := Run(c, s, qs);
      var out := Flips(qs, o, s, true);
      var back := Flips(qs, o, s, false);
      && out - back == (if Final(s, o).inUse then 1 else 0) - (if s.inUse then 1 else 0)
      && (c.hasHometabUpdate ==> Final(s, o).refreshes == s.refreshes + out + back)
    decreases |qs|
  {
    if qs != [] {
      var o := Run(c, s, qs);
      var first := Apply(c, s, qs[0]);
      RunAlternates(c, first.state, qs[1..]);
      assert o[1..] == Run(c, first.state, qs[1..]);
      assert Final(first.state, o[1..]) == Final(s, o);
    }
  }
}

=== FILE: host.dfy ===
/** The sequential parts of the labbot host (`server/labbot/__main__.py`):
    truncation of debug-log messages, the greeting and block assembly of the
    home tab, one pass of the home-tab publisher, and the timer scheduler
    that drives every module's periodic task. Threads, locks and the event
    loop are not modelled; the clock, the tasks and the chat calls are
    parameters. */
module Host {
  import opened Common

  // ---------------------------------------------------------------- slack_log

  /** Messages longer than this are cut before they are posted. */
  const LogLimit := 2000

  function Truncate(message: string): (r: string)
    ensures |r| <= LogLimit && |r| <= |message|
    ensures r == message[..|r|]
    ensures r == message <==> |message| <= LogLimit
    ensures |message| > LogLimit ==> |r| == LogLimit
  {
    if |message| > LogLimit then message[..LogLimit] else message
  }

  /** Truncating twice is truncating once. */
  lemma TruncateIdempotent(message: string)
    ensures Truncate(Truncate(message)) == Truncate(message)
  {
  }

  // ---------------------------------------------------------------- greeting

  datatype Daypart = Night | Morning | Afternoon | Evening {
    function Name(): string {
      match this
      case Night => "night"
      case Morning => "morning"
      case Afternoon => "afternoon"
      case Evening => "evening"
    }
    /** The order in which the parts follow each other during a day. */
    function Rank(): nat {
      match this
      case Night => 0
      case Morning => 1
      case Afternoon => 2
      case Evening => 3
    }
  }

  /** The part of the day named in the home-tab header, from the US/Eastern
      hour: before 5 night, before 12 morning, before 17 afternoon, else
      evening. */
  function GreetingFor(hour: int): (g: Daypart)
    ensures g == Night <==> hour < 5
    ensures g == Evening <==> hour >= 17
    ensures g.Rank() <= 3
  {
    if hour < 5 then Night
    else if hour < 12 then Morning
    else if hour < 17 then Afternoon
    else Evening
  }

  /** As the hour advances the greeting only moves forward through the day,
      and over the hours 0-23 each part is used on exactly the hours of its
      bucket. */
  lemma GreetingMonotone(h1: int, h2: int)
    requires h1 <= h2
    ensures GreetingFor(h1).Rank() <= GreetingFor(h2).Rank()
  {
  }

  lemma GreetingBuckets(hour: int)
    requires 0 <= hour < 24
    ensures GreetingFor(hour) == Morning <==> 5 <= hour < 12
    ensures GreetingFor(hour) == Afternoon <==> 12 <= hour < 17
    ensures |HeaderText(GreetingFor(hour))| == 6 + |GreetingFor(hour).Name()|
  {
  }

  // ---------------------------------------------------------------- home view

  /** A Block Kit block. The modules' own blocks are opaque to the host. */
  datatype Block = Header(text: string) | Divider | ModuleBlock(payload: string)

  function HeaderText(g: Daypart): string {
    "Good " + g.Name() + "!"
  }

  /** One module's section: nothing for a module that returned [], and
      otherwise a divider followed by its blocks. */
  function Section(m: seq<Block>): seq<Block> {
    if m == [] then [] else [Divider] + m
  }

  /** What the modules' blocks contribute: the sections of the modules in
      module order. */
  function ModuleSections(mods: seq<seq<Block>>): (r: seq<Block>)
    ensures |r| == Contribution(mods)
    decreases |mods|
  {
    if mods == [] then [] else Section(mods[0]) + ModuleSections(mods[1..])
  }

  /** The number of blocks the modules contribute: one divider plus the
      blocks of each non-empty module. */
  function Contribution(mods: seq<seq<Block>>): nat
    decreases |mods|
  {
    if mods == [] then 0
    else (if mods[0] == [] then 0 else 1 + |mods[0]|) + Contribution(mods[1..])
  }

  /** The home view of one user: the greeting header, then the modules'
      sections. */
  function HomeView(g: Daypart, mods: seq<seq<Block>>): (r: seq<Block>)
    ensures |r| == 1 + Contribution(mods)
    ensures r[0] == Header(HeaderText(g))
    ensures r[1..] == ModuleSections(mods)
  {
    [Header(HeaderText(g))] + ModuleSections(mods)
  }

  lemma {:induction false} ModuleSectionsAppend(a: seq<seq<Block>>, b: seq<seq<Block>>)
    ensures ModuleSections(a + b) == ModuleSections(a) + ModuleSections(b)
    decreases |a|
  {
    if a == [] {
      assert a + b == b;
    } else {
      assert (a + b)[1..] == a[1..] + b;
      ModuleSectionsAppend(a[1..], b);
    }
  }

  /** Built from the back: the sections of a module list are those of all
      but its last module, followed by the last module's section. */
  lemma ModuleSectionsSnoc(mods: seq<seq<Block>>)
    requires mods != []
    ensures ModuleSections(mods) == ModuleSections(mods[..|mods| - 1]) + Section(mods[|mods| - 1])
  {
    var init := mods[..|mods| - 1];
    assert mods == init + [mods[|mods| - 1]];
    ModuleSectionsAppend(init, [mods[|mods| - 1]]);
  }

  /** Each module's section sits at its place in order: appending a module
      appends its divider and blocks, or nothing when it returned []. */
  lemma HomeViewAppendModule(g: Daypart, mods: seq<seq<Block>>, m: seq<Block>)
    ensures HomeView(g, mods + [m]) == HomeView(g, mods) + (if m == [] then [] else [Divider] + m)
  {
    ModuleSectionsSnoc(mods + [m]);
    assert (mods + [m])[..|mods + [m]| - 1] == mods;
  }

  /** A module that returns [] contributes nothing, wherever it sits. */
  lemma EmptyModuleInvisible(g: Daypart, before: seq<seq<Block>>, after: seq<seq<Block>>)
    ensures HomeView(g, before + [[]] + after) == HomeView(g, before + after)
  {
    var padded := before + [[]];
    ModuleSectionsSnoc(padded);
    assert padded[..|padded| - 1] == before;
    assert ModuleSections(padded) == ModuleSections(before);
    ModuleSectionsAppend(padded, after);
    ModuleSectionsAppend(before, after);
    assert before + [[]] + after == padded + after;
    assert ModuleSections(before + [[]] + after) == ModuleSections(before + after);
  }

  // ---------------------------------------------------------------- home-tab publisher

  /** A module's home-tab function applied to a user; `None` is an exception. */
  type HomeFunction = string -> Option<seq<Block>>
  /** `views_publish` for a user and view; `false` is an exception. */
  type Publisher = (string, seq<Block>) -> bool

  datatype Published = Published(user: string, view: seq<Block>)

  /** The outcome of one pass: the update flag afterwards, the views
      published, and whether an exception ended the pass early. */
  datatype HomePass = HomePass(flag: bool, published: seq<Published>, failed: bool)

  /** The blocks of every module for one user, or `None` if one raises. */
  function CollectBlocks(fs: seq<HomeFunction>, user: string): (r: Option<seq<seq<Block>>>)
    ensures r.Some? <==> forall i :: 0 <= i < |fs| ==> fs[i](user).Some?
    ensures r.Some? ==> |r.value| == |fs| && forall i :: 0 <= i < |fs| ==> r.value[i] == fs[i](user).value
    decreases |fs|
  {
    if fs == [] then Some([])
    else match fs[0](user)
      case None => None
      case Some(b) =>
        match CollectBlocks(fs[1..], user)
        case None => None
        case Some(rest) => Some([b] + rest)
  }

  /** Publishes the view of every user in turn until an exception. */
  function PublishAll(users: seq<string>, g: Daypart, fs: seq<HomeFunction>, publish: Publisher): (r: (seq<Published>, bool))
    ensures |r.0| <= |users|
    ensures forall k :: 0 <= k < |r.0| ==> r.0[k].user == users[k]
    ensures forall k :: 0 <= k < |r.0| ==>
      CollectBlocks(fs, users[k]).Some? && r.0[k].view == HomeView(g, CollectBlocks(fs, users[k]).value)
    ensures !r.1 <==> |r.0| == |users|
    decreases |users|
  {
    if users == [] then ([], false)
    else match CollectBlocks(fs, users[0])
      case None => ([], true)
      case Some(mods) =>
        var view := HomeView(g, mods);
        if !publish(users[0], view) then ([], true)
        else
          var rest := PublishAll(users[1..], g, fs, publish);
          ([Published(users[0], view)] + rest.0, rest.1)
  }

  /** One iteration of `home_tab_coroutine` that obtained the lock: nothing
      happens unless the update flag is set; otherwise the flag is cleared
      before any view is built, then every user who opened the home tab gets
      a freshly assembled view. An exception is logged and ends the pass. */
  function HomeTabPass(flag: bool, hour: int, users: seq<string>, fs: seq<HomeFunction>, publish: Publisher): (r: HomePass)
    ensures !r.flag
    ensures !flag ==> r.published == [] && !r.failed
    ensures |r.published| <= |users|
    ensures forall k :: 0 <= k < |r.published| ==>
      r.published[k].user == users[k]
      && CollectBlocks(fs, users[k]).Some?
      && r.published[k].view == HomeView(GreetingFor(hour), CollectBlocks(fs, users[k]).value)
    ensures flag && !r.failed ==> |r.published| == |users|
  {
    if !flag then HomePass(false, [], false)
    else
      var (published, failed) := PublishAll(users, GreetingFor(hour), fs, publish);
      HomePass(false, published, failed)
  }

  /** `update_home_tab` followed by a pass publishes a view to every user when
      nothing raises; a second pass with no new request publishes nothing. */
  lemma UpdateThenPass(hour: int, users: seq<string>, fs: seq<HomeFunction>, publish: Publisher)
    requires forall u, i :: u in users && 0 <= i < |fs| ==> fs[i](u).Some?
    requires forall u, v :: u in users ==> publish(u, v)
    ensures var r := HomeTabPass(true, hour, users, fs, publish);
      && |r.published| == |users| && !r.failed
      && HomeTabPass(r.flag, hour, users, fs, publish).published == []
  {
    var r := PublishAll(users, GreetingFor(hour), fs, publish);
    if r.1 {
      PublishAllFailure(users, GreetingFor(hour), fs, publish);
    }
  }

  lemma {:induction false} PublishAllFailure(users: seq<string>, g: Daypart, fs: seq<HomeFunction>, publish: Publisher)
    requires PublishAll(users, g, fs, publish).1
    ensures exists u :: u in users && (CollectBlocks(fs, u).None? || !publish(u, HomeView(g, CollectBlocks(fs, u).value)))
    decreases |users|
  {
    var u := users[0];
    if CollectBlocks(fs, u).Some? && publish(u, HomeView(g, CollectBlocks(fs, u).value)) {
      PublishAllFailure(users[1..], g, fs, publish);
      var w :| w in users[1..] && (CollectBlocks(fs, w).None? || !publish(w, HomeView(g, CollectBlocks(fs, w).value)));
      assert w in users;
    } else {
      assert u in users;
    }
  }

  // ---------------------------------------------------------------- timer scheduler

  /** What a timer task returns: a delay in seconds before it wants to run
      again, or `None` (finished); an exception is `Raised`. */
  datatype Outcome = Again(delay: int) | Finished | Raised

  /** A task (by its position in the registered task list) and the time at
      which it should run next. */
  datatype Entry = Entry(task: nat, trigger: int)

  /** Running task `task` in scheduler iteration `step` at time `now`. Tasks
      keep their own state (a database, a file), so the outcome may depend
      on the iteration. */
  type Runner = (nat, nat, int) -> Outcome

  /** The scheduler's initial list: every task due at the start time. */
  function InitEntries(tasks: seq<nat>, start: int): (r: seq<Entry>)
    ensures |r| == |tasks|
    ensures forall i :: 0 <= i < |tasks| ==> r[i] == Entry(tasks[i], start)
  {
    seq(|tasks|, i requires 0 <= i < |tasks| => Entry(tasks[i], start))
  }

  /** What becomes of one entry in an iteration at time `now`. */
  function NextEntry(e: Entry, step: nat, now: int, run: Runner): (r: Option<Entry>)
    ensures e.trigger > now ==> r == Some(e)
    ensures e.trigger <= now ==> (r.Some? <==> run(step, e.task, now).Again?)
    ensures r.Some? ==> r.value.task == e.task
  {
    if e.trigger > now then Some(e)
    else match run(step, e.task, now)
      case Again(d) => Some(Entry(e.task, now + d))
      case _ => None
  }

  datatype StepResult = StepResult(entries: seq<Entry>, errors: seq<nat>)

  /** The entries left after one iteration, in their relative order. */
  function Survivors(entries: seq<Entry>, step: nat, now: int, run: Runner): (r: seq<Entry>)
    ensures |r| <= |entries|
    decreases |entries|
  {
    if entries == [] then []
    else
      var kept := match NextEntry(entries[0], step, now, run) case Some(x) => [x] case None => [];
      kept + Survivors(entries[1..], step, now, run)
  }

  /** The tasks whose exception an iteration logs, in list order. */
  function Failures(entries: seq<Entry>, step: nat, now: int, run: Runner): (r: seq<nat>)
    ensures |r| <= |entries|
    decreases |entries|
  {
    if entries == [] then []
    else
      var e := entries[0];
      (if e.trigger <= now && run(step, e.task, now).Raised? then [e.task] else []) + Failures(entries[1..], step, now, run)
  }

  /** One iteration of `timer_coroutine` after the one-second sleep: entries
      not yet due are kept as they are; due tasks are run, those returning a
      delay are rescheduled from `now`, the others dropped; exceptions are
      logged. Relative order is kept. */
  function TimerStep(entries: seq<Entry>, step: nat, now: int, run: Runner): (r: StepResult)
    ensures |r.entries| <= |entries|
  {
    StepResult(Survivors(entries, step, now, run), Failures(entries, step, now, run))
  }

  /** Entries not yet due are kept as they are. */
  lemma {:induction false} TimerStepKeepsWaiting(entries: seq<Entry>, step: nat, now: int, run: Runner)
    ensures forall e :: e in entries && e.trigger > now ==> e in TimerStep(entries, step, now, run).entries
    decreases |entries|
  {
    if entries != [] {
      TimerStepKeepsWaiting(entries[1..], step, now, run);
    }
  }

  /** A due task asking for a delay is kept, rescheduled from `now`. */
  lemma {:induction false} TimerStepReschedules(entries: seq<Entry>, step: nat, now: int, run: Runner)
    ensures forall e :: e in entries && e.trigger <= now && run(step, e.task, now).Again? ==>
      Entry(e.task, now + run(step, e.task, now).delay) in TimerStep(entries, step, now, run).entries
    decreases |entries|
  {
    if entries != [] {
      TimerStepReschedules(entries[1..], step, now, run);
    }
  }

  /** The same for one entry. */
  lemma RescheduledOne(entries: seq<Entry>, e: Entry, step: nat, now: int, run: Runner)
    requires e in entries && e.trigger <= now && run(step, e.task, now).Again?
    ensures Entry(e.task, now + run(step, e.task, now).delay) in TimerStep(entries, step, now, run).entries
  {
    TimerStepReschedules(entries, step, now, run);
  }

  /** Every surviving entry is what `NextEntry` made of an entry of the list. */
  lemma {:induction false} TimerStepOrigin(entries: seq<Entry>, step: nat, now: int, run: Runner)
    ensures forall x :: x in TimerStep(entries, step, now, run).entries ==>
      exists e :: e in entries && e.task == x.task && NextEntry(e, step, now, run) == Some(x)
    decreases |entries|
  {
    if entries != [] {
      TimerStepOrigin(entries[1..], step, now, run);
      assert forall e :: e in entries[1..] ==> e in entries;
    }
  }

  /** Exactly the due tasks that raised are logged. */
  lemma {:induction false} TimerStepErrors(entries: seq<Entry>, step: nat, now: int, run: Runner)
    ensures forall t :: t in TimerStep(entries, step, now, run).errors <==>
      exists e :: e in entries && e.task == t && e.trigger <= now && run(step, t, now).Raised?
    decreases |entries|
  {
    if entries != [] {
      TimerStepErrors(entries[1..], step, now, run);
      var e := entries[0];
      var head := if e.trigger <= now && run(step, e.task, now).Raised? then [e.task] else [];
      assert TimerStep(entries, step, now, run).errors == head + TimerStep(entries[1..], step, now, run).errors;
      forall t ensures t in TimerStep(entries, step, now, run).errors <==>
        exists x :: x in entries && x.task == t && x.trigger <= now && run(step, t, now).Raised?
      {
        if t !in head && exists x :: x in entries && x.task == t && x.trigger <= now && run(step, t, now).Raised? {
          var x :| x in entries && x.task == t && x.trigger <= now && run(step, t, now).Raised?;
          assert x != e;
          assert x in entries[1..];
        }
      }
    }
  }

  function TaskIds(entries: seq<Entry>): (r: seq<nat>)
    ensures |r| == |entries| && forall i :: 0 <= i < |entries| ==> r[i] == entries[i].task
  {
    seq(|entries|, i requires 0 <= i < |entries| => entries[i].task)
  }

  /** An iteration treats the list entry by entry: it commutes with
      concatenation, so the surviving entries keep their relative order. */
  lemma {:induction false} TimerStepAppend(a: seq<Entry>, b: seq<Entry>, step: nat, now: int, run: Runner)
    ensures TimerStep(a + b, step, now, run).entries == TimerStep(a, step, now, run).entries + TimerStep(b, step, now, run).entries
    decreases |a|
  {
    if a == [] {
      assert a + b == b;
    } else {
      var ab := a + b;
      assert ab[0] == a[0];
      assert ab[1..] == a[1..] + b;
      TimerStepAppend(a[1..], b, step, now, run);
    }
  }

  /** The same for the logged exceptions. */
  lemma {:induction false} TimerStepAppendErrors(a: seq<Entry>, b: seq<Entry>, step: nat, now: int, run: Runner)
    ensures TimerStep(a + b, step, now, run).errors == TimerStep(a, step, now, run).errors + TimerStep(b, step, now, run).errors
    decreases |a|
  {
    if a == [] {
      assert a + b == b;
    } else {
      var ab := a + b;
      assert ab[0] == a[0];
      assert ab[1..] == a[1..] + b;
      TimerStepAppendErrors(a[1..], b, step, now, run);
    }
  }

  /** A dropped task is gone for good: a due task that finishes or raises is
      not in the next list, provided each task appears once. */
  lemma TimerStepDrops(entries: seq<Entry>, step: nat, now: int, run: Runner, i: nat)
    requires i < |entries|
    requires forall a, b :: 0 <= a < b < |entries| ==> entries[a].task != entries[b].task
    requires entries[i].trigger <= now && !run(step, entries[i].task, now).Again?
    ensures forall x :: x in TimerStep(entries, step, now, run).entries ==> x.task != entries[i].task
  {
    TimerStepOrigin(entries, step, now, run);
    forall x | x in TimerStep(entries, step, now, run).entries ensures x.task != entries[i].task {
      var e :| e in entries && e.task == x.task && NextEntry(e, step, now, run) == Some(x);
      var j :| 0 <= j < |entries| && entries[j] == e;
      if j != i {
        assert entries[j].task != entries[i].task by {
          if j < i {} else {}
        }
      }
    }
  }

  /** When every entry is due, each survivor is a task that asked for a
      delay, rescheduled from `now`. */
  lemma AllDueSurvivors(es: seq<Entry>, step: nat, now: int, run: Runner)
    requires forall e :: e in es ==> e.trigger <= now
    ensures forall x :: x in TimerStep(es, step, now, run).entries ==>
      exists e :: e in es && e.task == x.task && run(step, x.task, now) == Again(x.trigger - now)
  {
    TimerStepOrigin(es, step, now, run);
    forall x | x in TimerStep(es, step, now, run).entries
      ensures exists e :: e in es && e.task == x.task && run(step, x.task, now) == Again(x.trigger - now)
    {
      var e :| e in es && e.task == x.task && NextEntry(e, step, now, run) == Some(x);
      assert run(step, x.task, now) == Again(x.trigger - now);
    }
  }

  /** The initial list holds exactly the tasks, each due at the start. */
  lemma InitEntriesMembers(tasks: seq<nat>, start: int)
    ensures forall e :: e in InitEntries(tasks, start) ==> e.trigger == start && e.task in tasks
    ensures forall t :: t in tasks ==> Entry(t, start) in InitEntries(tasks, start)
  {
    var es := InitEntries(tasks, start);
    forall e | e in es ensures e.trigger == start && e.task in tasks {
      var i :| 0 <= i < |es| && es[i] == e;
      assert tasks[i] == e.task;
    }
    forall t | t in tasks ensures Entry(t, start) in es {
      var i :| 0 <= i < |tasks| && tasks[i] == t;
      assert es[i] == Entry(t, start);
    }
  }

  /** On the first iteration after the start every task is due, so every
      task runs once; exactly the tasks asking for a delay survive, each
      rescheduled from the time of that iteration. */
  lemma FirstStepRunsAll(tasks: seq<nat>, start: int, now: int, run: Runner)
    requires start <= now
    ensures var r := TimerStep(InitEntries(tasks, start), 0, now, run);
      && (forall x :: x in r.entries ==> x.task in tasks && run(0, x.task, now) == Again(x.trigger - now))
      && (forall t :: t in tasks && run(0, t, now).Again? ==> Entry(t, now + run(0, t, now).delay) in r.entries)
  {
    var es := InitEntries(tasks, start);
    InitEntriesMembers(tasks, start);
    AllDueSurvivors(es, 0, now, run);
    forall t | t in tasks && run(0, t, now).Again?
      ensures Entry(t, now + run(0, t, now).delay) in TimerStep(es, 0, now, run).entries
    {
      RescheduledOne(es, Entry(t, start), 0, now, run);
    }
  }

  /** One reading per scheduler iteration: whether shutdown was requested at
      the loop test, and the clock after the sleep. */
  datatype Reading = Reading(exit: bool, now: int)

  datatype LoopEnd = Drained | ShutDown | OutOfReadings

  datatype LoopResult = LoopResult(entries: seq<Entry>, steps: nat, end: LoopEnd)

  /** `timer_coroutine`'s loop: iterates while shutdown has not been
      requested and some task remains. The readings bound the run. */
  function TimerLoop(entries: seq<Entry>, readings: seq<Reading>, run: Runner, step: nat): (r: LoopResult)
    ensures r.steps <= |readings|
    ensures r.end == Drained ==> r.entries == [] && (r.steps == |readings| || !readings[r.steps].exit)
    ensures r.end == ShutDown ==> r.steps < |readings| && readings[r.steps].exit
    ensures r.end == OutOfReadings ==> r.steps == |readings| && r.entries != []
    ensures r.steps == 0 ==> r.entries == entries
    decreases |readings|
  {
    if readings != [] && readings[0].exit then LoopResult(entries, 0, ShutDown)
    else if entries == [] then LoopResult([], 0, Drained)
    else if readings == [] then LoopResult(entries, 0, OutOfReadings)
    else
      var next := TimerStep(entries, step, readings[0].now, run).entries;
      var r := TimerLoop(next, readings[1..], run, step + 1);
      LoopResult(r.entries, r.steps + 1, r.end)
  }

  /** The list only shrinks or keeps its length: the scheduler never adds a
      task, and an empty list ends the loop at once. */
  lemma {:induction false} TimerLoopNeverGrows(entries: seq<Entry>, readings: seq<Reading>, run: Runner, step: nat)
    ensures |TimerLoop(entries, readings, run, step).entries| <= |entries|
    ensures entries == [] ==> TimerLoop(entries, readings, run, step).steps == 0
    decreases |readings|
  {
    if !(readings != [] && readings[0].exit) && entries != [] && readings != [] {
      var next := TimerStep(entries, step, readings[0].now, run).entries;
      TimerLoopNeverGrows(next, readings[1..], run, step + 1);
    }
  }
}

=== FILE: lab_jobs.dfy ===
/** The lab-job engine of `server/modules/lab_jobs.py`: four tables (reminder
    schedules, job templates, job instances, reminder messages), the per-tick
    materialisation and reminder passes, and the user actions that edit the
    tables. The SQLite store is an immutable `Store` value; every operation
    returns the store as it is after the operation's commit (or the unchanged
    store when the operation rolls back). Clock readings, the RRULE evaluator,
    the duration parser and the chat client are parameters. */
module LabJobs {
  import opened Common
  import Calendar

  /** An absolute instant in microseconds since the Unix epoch (the
      resolution of the ISO timestamps the source stores). */
  type Instant = int
  type Day = Calendar.Day

  const MicrosPerHour: int := 3_600_000_000
  const MicrosPerDay: int := 24 * MicrosPerHour
  /** `timedelta(days=100*365)`, the "practically infinite" interval. */
  const NeverInterval: int := 36500 * MicrosPerDay
  /** Materialisation runs only once the local hour is past this one. */
  const LastQuietHour := 9
  /** `"1970-01-01"`, the watermark of a new or freshly edited template. */
  const EpochDay: Day := 0
  const DefaultName := "Unnamed"
  const DefaultRule := "FREQ=WEEKLY;INTERVAL=1;BYDAY=MO"
  /** `check_jobs_reminders` asks to be run again after 30 seconds. */
  const TickDelaySeconds := 30

  // ---------------------------------------------------------------- tables

  datatype Schedule = Schedule(id: int, name: string, reminders: string)

  datatype Template = Template(
    id: int,
    sortPriority: int,
    name: string,
    watermark: Day,            // last_generated_ts
    schedule: Option<int>,     // reminder_schedule
    rule: string,              // recurrence (RRULE text)
    assignee: Option<string>)

  datatype Job = Job(
    id: int,
    name: string,
    done: bool,
    due: Instant,              // due_ts
    lastReminder: Instant,     // last_reminder_ts
    schedule: Option<int>,
    assignee: Option<string>)

  datatype Message = Message(jobId: int, channel: string, ts: string)

  /** The four tables, each in rowid order. */
  datatype Store = Store(
    schedules: seq<Schedule>,
    templates: seq<Template>,
    jobs: seq<Job>,
    messages: seq<Message>)

  function ScheduleIds(ss: seq<Schedule>): (ids: seq<int>)
    ensures |ids| == |ss| && forall i :: 0 <= i < |ss| ==> ids[i] == ss[i].id
  {
    seq(|ss|, i requires 0 <= i < |ss| => ss[i].id)
  }

  function TemplateIds(ts: seq<Template>): (ids: seq<int>)
    ensures |ids| == |ts| && forall i :: 0 <= i < |ts| ==> ids[i] == ts[i].id
  {
    seq(|ts|, i requires 0 <= i < |ts| => ts[i].id)
  }

  function JobIds(js: seq<Job>): (ids: seq<int>)
    ensures |ids| == |js| && forall i :: 0 <= i < |js| ==> ids[i] == js[i].id
  {
    seq(|js|, i requires 0 <= i < |js| => js[i].id)
  }

  predicate StrictlyIncreasing(xs: seq<int>) {
    forall i, j :: 0 <= i < j < |xs| ==> xs[i] < xs[j]
  }

  /** Rowids are unique and the tables are kept in rowid order. */
  predicate WellFormed(s: Store) {
    && StrictlyIncreasing(ScheduleIds(s.schedules))
    && StrictlyIncreasing(TemplateIds(s.templates))
    && StrictlyIncreasing(JobIds(s.jobs))
  }

  function MaxOf(xs: seq<int>): (m: int)
    requires |xs| > 0
    ensures m in xs && forall x :: x in xs ==> x <= m
  {
    if |xs| == 1 then xs[0]
    else
      var rest := MaxOf(xs[1..]);
      assert forall x :: x in xs[1..] ==> x in xs;
      assert forall x :: x in xs ==> x == xs[0] || x in xs[1..];
      if xs[0] >= rest then xs[0] else rest
  }

  /** The rowid SQLite gives an insert into a table without AUTOINCREMENT:
      one more than the largest rowid, or 1 in an empty table. */
  function NextRowId(ids: seq<int>): (id: int)
    ensures forall x :: x in ids ==> x < id
  {
    if |ids| == 0 then 1 else MaxOf(ids) + 1
  }

  // ---------------------------------------------------------------- clock and collaborators

  /** One reading of the clock: the absolute instant, the naive US/Eastern
      wall-clock time in microseconds (what `now.replace(tzinfo=None)` and
      `now.hour`/`now.date()` see), and the day `date.today()` reports in the
      host's own time zone. */
  datatype Clock = Clock(instant: Instant, wall: int, systemDay: Day) {
    function Hour(): int { (wall % MicrosPerDay) / MicrosPerHour }
    function Today(): Day { wall / MicrosPerDay }
  }

  /** `rrulestr(rule).after(ref, inc=True)` on naive wall-clock times; `None`
      stands both for "no further occurrence" and for an unparseable rule,
      since the source crashes on either. */
  type Recurrence = (string, int) -> Option<int>

  /** The RFC 5545 contract the evaluator is assumed to keep: an occurrence
      found "after" a reference with `inc=True` is never before it. */
  ghost predicate Inclusive(next: Recurrence) {
    forall rule, ref :: next(rule, ref).Some? ==> next(rule, ref).value >= ref
  }

  // ---------------------------------------------------------------- materialisation (add_new_jobs)

  /** `SELECT ... FROM template_jobs WHERE last_generated_ts < today`. */
  function Candidates(ts: seq<Template>, today: Day): (cs: seq<Template>)
    ensures forall t :: t in cs <==> t in ts && t.watermark < today
    ensures |cs| <= |ts|
  {
    if ts == [] then []
    else if ts[0].watermark < today then [ts[0]] + Candidates(ts[1..], today)
    else Candidates(ts[1..], today)
  }

  /** The template asks for an instance now: it has an assignee and its next
      occurrence at or after the current wall-clock time falls on today's
      (US/Eastern) date. */
  predicate SpawnsToday(t: Template, clock: Clock, next: Recurrence) {
    && t.assignee.Some?
    && next(t.rule, clock.wall).Some?
    && next(t.rule, clock.wall).value / MicrosPerDay == clock.Today()
  }

  /** The candidate makes the pass raise: the evaluator gives no occurrence
      and `next_event.date()` is called on `None`. */
  predicate Breaks(t: Template, clock: Clock, next: Recurrence) {
    t.assignee.Some? && next(t.rule, clock.wall).None?
  }

  /** The candidates that spawn, in table order. */
  function Producers(cs: seq<Template>, clock: Clock, next: Recurrence): (ps: seq<Template>)
    ensures forall t :: t in ps <==> t in cs && SpawnsToday(t, clock, next)
    ensures |ps| <= |cs|
  {
    if cs == [] then []
    else if SpawnsToday(cs[0], clock, next) then [cs[0]] + Producers(cs[1..], clock, next)
    else Producers(cs[1..], clock, next)
  }

  /** The instance row inserted for template `t`. */
  function NewJob(id: int, t: Template, clock: Clock): Job {
    Job(id, t.name, false, clock.instant, clock.instant, t.schedule, t.assignee)
  }

  /** `UPDATE template_jobs SET last_generated_ts=? WHERE id=?`. */
  function StampWatermark(ts: seq<Template>, id: int, day: Day): (r: seq<Template>)
    ensures |r| == |ts|
    ensures forall i :: 0 <= i < |ts| ==>
      r[i] == if ts[i].id == id then ts[i].(watermark := day) else ts[i]
  {
    seq(|ts|, i requires 0 <= i < |ts| => if ts[i].id == id then ts[i].(watermark := day) else ts[i])
  }

  datatype Materialized = Materialized(store: Store, newIds: seq<int>) | MaterializeCrashed

  /** The loop of `add_new_jobs` over the candidate rows (a snapshot taken
      before the loop). */
  function SpawnAll(s: Store, cs: seq<Template>, clock: Clock, next: Recurrence): Materialized
    decreases |cs|
  {
    if cs == [] then Materialized(s, [])
    else
      var t := cs[0];
      if t.assignee.None? then SpawnAll(s, cs[1..], clock, next)
      else if next(t.rule, clock.wall).None? then MaterializeCrashed
      else if next(t.rule, clock.wall).value / MicrosPerDay != clock.Today() then
        SpawnAll(s, cs[1..], clock, next)
      else
        var id := NextRowId(JobIds(s.jobs));
        var s1 := s.(jobs := s.jobs + [NewJob(id, t, clock)],
                     templates := StampWatermark(s.templates, t.id, clock.systemDay));
        match SpawnAll(s1, cs[1..], clock, next)
        case MaterializeCrashed => MaterializeCrashed
        case Materialized(s2, ids) => Materialized(s2, [id] + ids)
  }

  /** `add_new_jobs`: nothing before 10:00 local time; otherwise one new open
      instance per candidate template that spawns today. The changes are not
      committed here; `Tick` decides whether they persist. */
  function AddNewJobs(s: Store, clock: Clock, next: Recurrence): (r: Materialized)
    ensures clock.Hour() <= LastQuietHour ==> r == Materialized(s, [])
  {
    if clock.Hour() <= LastQuietHour then Materialized(s, [])
    else SpawnAll(s, Candidates(s.templates, clock.systemDay), clock, next)
  }

  /** The templates a materialisation pass spawns an instance for. */
  function SpawnedTemplates(s: Store, clock: Clock, next: Recurrence): seq<Template> {
    if clock.Hour() <= LastQuietHour then []
    else Producers(Candidates(s.templates, clock.systemDay), clock, next)
  }

  // ---------------------------------------------------------------- cadence (get_schedules)

  /** One "<threshold>=<interval>" entry of a schedule, both durations in
      microseconds. */
  datatype Pair = Pair(threshold: int, interval: int)

  /** The pair `get_schedules` appends to every parsed schedule. */
  const ImplicitPair := Pair(0, NeverInterval)

  /** `Duration` parsing of a whole `reminders` text; `None` is a parse error. */
  type ScheduleParser = string -> Option<seq<Pair>>

  /** The smallest interval among the pairs whose threshold is strictly below
      `elapsed`; `None` where Python's `min` of an empty list raises. */
  function MinEligible(pairs: seq<Pair>, elapsed: int): (r: Option<int>)
    ensures r.Some? <==> exists p :: p in pairs && p.threshold < elapsed
    ensures r.Some? ==> exists p :: p in pairs && p.threshold < elapsed && p.interval == r.value
    ensures r.Some? ==> forall p :: p in pairs && p.threshold < elapsed ==> r.value <= p.interval
    decreases |pairs|
  {
    if pairs == [] then None
    else
      var rest := MinEligible(pairs[1..], elapsed);
      assert forall p :: p in pairs <==> p == pairs[0] || p in pairs[1..];
      if pairs[0].threshold < elapsed then
        if rest.Some? && rest.value < pairs[0].interval then rest else Some(pairs[0].interval)
      else rest
  }

  /** The reminder interval a schedule with the given parsed pairs requires
      after `elapsed` has passed since the due time (the lookup law). */
  function RequiredInterval(pairs: seq<Pair>, elapsed: int): Option<int> {
    MinEligible(pairs + [ImplicitPair], elapsed)
  }

  /** What `get_schedules` returns: a lambda per schedule id. Every lambda
      closes over the loop variable `reminder_pairs`, so all of them see the
      pairs of the last schedule read. */
  datatype Laws = Laws(ids: set<int>, pairs: seq<Pair>)

  function GetSchedules(ss: seq<Schedule>, parse: ScheduleParser): Option<Laws> {
    if exists i :: 0 <= i < |ss| && parse(ss[i].reminders).None? then None
    else if ss == [] then Some(Laws({}, []))
    else Some(Laws(set i | 0 <= i < |ss| :: ss[i].id, parse(ss[|ss| - 1].reminders).value + [ImplicitPair]))
  }

  /** Why a pass stops without committing. */
  datatype Abort =
    | NullAssignee        // the `return` at the null-assignee check
    | MissingSchedule     // KeyError on reminder_schedules[...]
    | EmptyMinimum        // ValueError from min([])
    | UnparsedSchedule    // Duration parse error in get_schedules
    | MissingJob          // fetchone() returned None
    | PostFailed          // chat_postMessage raised

  datatype Lookup = Interval(value: int) | LookupFailed(reason: Abort)

  /** `reminder_schedules[job['reminder_schedule']](due_time_delta)`. */
  function LookupInterval(laws: Laws, schedule: Option<int>, elapsed: int): (r: Lookup)
    ensures r.LookupFailed? ==> r.reason == MissingSchedule || r.reason == EmptyMinimum
  {
    if schedule.None? || schedule.value !in laws.ids then LookupFailed(MissingSchedule)
    else match MinEligible(laws.pairs, elapsed)
      case None => LookupFailed(EmptyMinimum)
      case Some(v) => Interval(v)
  }

  /** The fire rule: the time since the last reminder strictly exceeds the
      interval the schedule requires at the job's current lateness. */
  predicate Fires(j: Job, laws: Laws, now: Instant) {
    var lookup := LookupInterval(laws, j.schedule, now - j.due);
    lookup.Interval? && now - j.lastReminder > lookup.value
  }

  /** The open job can be evaluated: it has an assignee and its schedule
      lookup yields an interval. */
  predicate Eligible(j: Job, laws: Laws, now: Instant) {
    j.assignee.Some? && LookupInterval(laws, j.schedule, now - j.due).Interval?
  }

  datatype Selection = Selected(ids: seq<int>) | Stopped(reason: Abort)

  /** The first loop of `send_reminders` over the open jobs. */
  function SelectOpen(jobs: seq<Job>, laws: Laws, now: Instant): (r: Selection)
    ensures r.Selected? ==> forall j :: j in jobs && !j.done ==> Eligible(j, laws, now)
    ensures r.Selected? ==> forall j :: j in jobs && !j.done && Fires(j, laws, now) ==> j.id in r.ids
    ensures r.Selected? ==> forall id :: id in r.ids ==>
      exists j :: j in jobs && !j.done && j.id == id && Fires(j, laws, now)
    ensures r.Stopped? ==> exists j :: j in jobs && !j.done && !Eligible(j, laws, now)
    decreases |jobs|
  {
    if jobs == [] then Selected([])
    else
      var j := jobs[0];
      assert forall x :: x in jobs <==> x == j || x in jobs[1..];
      if j.done then SelectOpen(jobs[1..], laws, now)
      else if j.assignee.None? then Stopped(NullAssignee)
      else match LookupInterval(laws, j.schedule, now - j.due)
        case LookupFailed(e) => Stopped(e)
        case Interval(v) =>
          var rest := SelectOpen(jobs[1..], laws, now);
          if rest.Stopped? then rest
          else if now - j.lastReminder > v then Selected([j.id] + rest.ids)
          else rest
  }

  // ---------------------------------------------------------------- sending (send_reminders)

  /** The handle `chat_postMessage` returns: the channel and the message ts. */
  datatype Handle = Handle(channel: string, ts: string)

  /** The chat client: the reply to the `k`-th post of a pass to a
      destination; `None` is an exception. */
  type Chat = (string, nat) -> Option<Handle>

  /** A reminder posted to the chat service. */
  datatype Post = Post(destination: string, jobId: int)

  /** `SELECT ... FROM jobs WHERE id=?` followed by `fetchone()`. */
  function FindJob(js: seq<Job>, id: int): (r: Option<Job>)
    ensures r.Some? ==> r.value in js && r.value.id == id
    ensures r.None? ==> forall j :: j in js ==> j.id != id
  {
    if js == [] then None
    else if js[0].id == id then Some(js[0])
    else FindJob(js[1..], id)
  }

  /** `UPDATE jobs SET last_reminder_ts=? WHERE id=?`. */
  function SetLastReminder(js: seq<Job>, id: int, now: Instant): (r: seq<Job>)
    ensures |r| == |js|
    ensures forall i :: 0 <= i < |js| ==>
      r[i] == if js[i].id == id then js[i].(lastReminder := now) else js[i]
  {
    seq(|js|, i requires 0 <= i < |js| => if js[i].id == id then js[i].(lastReminder := now) else js[i])
  }

  datatype PostOutcome = Posted(store: Store, posts: seq<Post>) | PostAborted(posts: seq<Post>, reason: Abort)

  /** The second loop of `send_reminders`: one post and one message row per
      listed id, in order; `k` counts the posts already made in this pass. */
  function PostAll(s: Store, ids: seq<int>, now: Instant, chat: Chat, k: nat): PostOutcome
    decreases |ids|
  {
    if ids == [] then Posted(s, [])
    else match FindJob(s.jobs, ids[0])
      case None => PostAborted([], MissingJob)
      case Some(j) =>
        if j.assignee.None? then PostAborted([], PostFailed)
        else match chat(j.assignee.value, k)
          case None => PostAborted([], PostFailed)
          case Some(h) =>
            var s1 := s.(messages := s.messages + [Message(ids[0], h.channel, h.ts)],
                         jobs := SetLastReminder(s.jobs, ids[0], now));
            var p := Post(j.assignee.value, ids[0]);
            match PostAll(s1, ids[1..], now, chat, k + 1)
            case Posted(s2, ps) => Posted(s2, [p] + ps)
            case PostAborted(ps, e) => PostAborted([p] + ps, e)
  }

  datatype SendOutcome = Sent(store: Store, posts: seq<Post>) | Abandoned(posts: seq<Post>, reason: Abort)

  /** `send_reminders(db, new_jobs)` at instant `now`: the newly materialised
      ids first, then every open job the fire rule selects; commits only when
      the whole pass succeeds. */
  function SendReminders(s: Store, newIds: seq<int>, now: Instant, parse: ScheduleParser, chat: Chat): SendOutcome {
    match GetSchedules(s.schedules, parse)
    case None => Abandoned([], UnparsedSchedule)
    case Some(laws) =>
      match SelectOpen(s.jobs, laws, now)
      case Stopped(e) => Abandoned([], e)
      case Selected(sel) =>
        match PostAll(s, newIds + sel, now, chat, 0)
        case Posted(s2, ps) => Sent(s2, ps)
        case PostAborted(ps, e) => Abandoned(ps, e)
  }

  // ---------------------------------------------------------------- the timer task (check_jobs_reminders)

  datatype TickResult = TickResult(store: Store, posts: seq<Post>, delay: int)

  /** One run of `check_jobs_reminders`. Both passes share one connection and
      only `send_reminders` commits, so the materialised rows persist only if
      the reminder pass commits; any exception (or the early `return`) closes
      the connection without a commit. Posts already made are not undone. */
  function Tick(s: Store, clock: Clock, sendNow: Instant, next: Recurrence, parse: ScheduleParser, chat: Chat): (r: TickResult)
    ensures r.delay == TickDelaySeconds
  {
    match AddNewJobs(s, clock, next)
    case MaterializeCrashed => TickResult(s, [], TickDelaySeconds)
    case Materialized(s1, ids) =>
      match SendReminders(s1, ids, sendNow, parse, chat)
      case Sent(s2, ps) => TickResult(s2, ps, TickDelaySeconds)
      case Abandoned(ps, _) => TickResult(s, ps, TickDelaySeconds)
  }

  // ---------------------------------------------------------------- user actions

  /** `UPDATE jobs SET done=1 WHERE id=?`. */
  function MarkDone(js: seq<Job>, id: int): (r: seq<Job>)
    ensures |r| == |js|
    ensures forall i :: 0 <= i < |js| ==> r[i] == if js[i].id == id then js[i].(done := true) else js[i]
  {
    seq(|js|, i requires 0 <= i < |js| => if js[i].id == id then js[i].(done := true) else js[i])
  }

  /** `SELECT ... FROM reminder_messages WHERE job_id=?`, in table order. */
  function MessagesOf(ms: seq<Message>, id: int): (r: seq<Message>)
    ensures forall m :: m in r <==> m in ms && m.jobId == id
    ensures |r| <= |ms|
  {
    if ms == [] then []
    else if ms[0].jobId == id then [ms[0]] + MessagesOf(ms[1..], id)
    else MessagesOf(ms[1..], id)
  }

  /** `chat_update` on one stored message; `false` is an exception. */
  type Editor = Message -> bool

  /** The edit loop: edits are issued in order until one raises. Returns the
      edits issued and whether all of them succeeded. */
  function EditAll(records: seq<Message>, edit: Editor): (r: (seq<Message>, bool))
    ensures |r.0| <= |records| && r.0 == records[..|r.0|]
    ensures r.1 <==> r.0 == records && forall m :: m in records ==> edit(m)
    ensures !r.1 ==> |r.0| > 0 && !edit(r.0[|r.0| - 1])
    decreases |records|
  {
    if records == [] then ([], true)
    else if !edit(records[0]) then ([records[0]], false)
    else
      var rest := EditAll(records[1..], edit);
      assert forall m :: m in records <==> m == records[0] || m in records[1..];
      ([records[0]] + rest.0, rest.1)
  }

  datatype Completion = Completion(store: Store, edits: seq<Message>, failed: bool)

  /** `complete_labjob`: marks the job done and commits, then edits every
      message recorded for it. There is no check of the done flag first. */
  function Complete(s: Store, id: int, edit: Editor): Completion {
    var s1 := s.(jobs := MarkDone(s.jobs, id));
    var records := MessagesOf(s1.messages, id);
    if FindJob(s1.jobs, id).None? && records != [] then
      Completion(s1, [], true)   // job['name'] on None raises before the first edit
    else
      var (edits, ok) := EditAll(records, edit);
      Completion(s1, edits, !ok)
  }

  /** `reassign_labjob`: the submission is acknowledged and logged only. */
  function Reassign(s: Store, id: int, newAssignee: string): (r: Store)
    ensures r == s
  {
    s
  }

  /** `delete_reminder_schedule`: NULL the references in templates and jobs,
      then delete the schedule row. */
  function DeleteSchedule(s: Store, sid: int): Store {
    s.(templates := seq(|s.templates|, i requires 0 <= i < |s.templates| =>
                        if s.templates[i].schedule == Some(sid) then s.templates[i].(schedule := None) else s.templates[i]),
       jobs := seq(|s.jobs|, i requires 0 <= i < |s.jobs| =>
                        if s.jobs[i].schedule == Some(sid) then s.jobs[i].(schedule := None) else s.jobs[i]),
       schedules := RemoveSchedule(s.schedules, sid))
  }

  function RemoveSchedule(ss: seq<Schedule>, sid: int): (r: seq<Schedule>)
    ensures forall x :: x in r <==> x in ss && x.id != sid
    ensures |r| <= |ss|
  {
    if ss == [] then []
    else if ss[0].id == sid then RemoveSchedule(ss[1..], sid)
    else [ss[0]] + RemoveSchedule(ss[1..], sid)
  }

  /** `add_labjob`: a new template with the default values and no assignee. */
  function AddTemplate(s: Store): Store {
    var t := Template(NextRowId(TemplateIds(s.templates)), 0, DefaultName, EpochDay, None, DefaultRule, None);
    s.(templates := s.templates + [t])
  }

  /** The template-edit submission: overwrites the editable fields and resets
      the watermark to 1970-01-01. */
  function EditTemplate(s: Store, id: int, sortPriority: int, name: string, schedule: int,
                        rule: string, assignee: Option<string>): Store {
    s.(templates := seq(|s.templates|, i requires 0 <= i < |s.templates| =>
         if s.templates[i].id == id then
           s.templates[i].(sortPriority := sortPriority, name := name, watermark := EpochDay,
                           schedule := Some(schedule), rule := rule, assignee := assignee)
         else s.templates[i]))
  }

  /** `delete_labjob`: removes the template row only. */
  function DeleteTemplate(s: Store, id: int): Store {
    s.(templates := RemoveTemplate(s.templates, id))
  }

  function RemoveTemplate(ts: seq<Template>, id: int): (r: seq<Template>)
    ensures forall x :: x in r <==> x in ts && x.id != id
    ensures |r| <= |ts|
  {
    if ts == [] then []
    else if ts[0].id == id then RemoveTemplate(ts[1..], id)
    else [ts[0]] + RemoveTemplate(ts[1..], id)
  }
}

=== FILE: lab_jobs_proofs.dfy ===
/** Properties of the lab-job engine: what a materialisation pass inserts and
    stamps, same-day idempotence, the cadence lookup law, the fire rule and
    its effects, the completion action, the tick's rollback behaviour, and
    the rowid invariant every operation keeps. */
module LabJobsProofs {
  import opened Common
  import opened LabJobs

  // ---------------------------------------------------------------- rowids

  lemma NextRowIdAfterInsert(js: seq<Job>, j: Job)
    requires j.id == NextRowId(JobIds(js))
    ensures NextRowId(JobIds(js + [j])) == j.id + 1
  {
    var ids := JobIds(js + [j]);
    assert ids == JobIds(js) + [j.id];
    assert j.id in ids;
    var m := MaxOf(ids);
    assert m in JobIds(js) || m == j.id;
  }

  /** Two job tables that agree on every row's id and assignee answer every
      `SELECT ... WHERE id=?` alike, up to the other fields. */
  lemma {:induction false} FindJobSameIds(js: seq<Job>, js': seq<Job>, x: int)
    requires |js| == |js'|
    requires forall i :: 0 <= i < |js| ==> js'[i].id == js[i].id && js'[i].assignee == js[i].assignee
    ensures FindJob(js', x).Some? == FindJob(js, x).Some?
    ensures FindJob(js, x).Some? ==> FindJob(js', x).value.assignee == FindJob(js, x).value.assignee
    decreases |js|
  {
    if js != [] && js[0].id != x {
      FindJobSameIds(js[1..], js'[1..], x);
    }
  }

  // ---------------------------------------------------------------- materialisation

  /** The instance rows a materialisation pass appends: one per spawning
      template `ps[k]`, with consecutive rowids above every existing one. */
  ghost predicate JobsAppended(js: seq<Job>, js': seq<Job>, ids: seq<int>, ps: seq<Template>, clock: Clock) {
    && |ids| == |ps|
    && |js'| == |js| + |ps|
    && js'[..|js|] == js
    && (forall k :: 0 <= k < |ps| ==> js'[|js| + k] == NewJob(ids[k], ps[k], clock))
    && (forall k :: 0 <= k < |ids| ==> ids[k] == NextRowId(JobIds(js)) + k)
  }

  /** Exactly the spawning templates get today's host date as watermark. */
  ghost predicate TemplatesStamped(ts: seq<Template>, ts': seq<Template>, ps: seq<Template>, day: Day) {
    && |ts'| == |ts|
    && forall i :: 0 <= i < |ts| ==>
         ts'[i] == if ts[i].id in TemplateIds(ps) then ts[i].(watermark := day) else ts[i]
  }

  /** What a successful materialisation pass did to the store: `ps` are the
      spawning templates in order and `ids` the rowids of their instances. */
  ghost predicate SpawnEffect(s: Store, s': Store, ids: seq<int>, ps: seq<Template>, clock: Clock) {
    && s'.schedules == s.schedules
    && s'.messages == s.messages
    && JobsAppended(s.jobs, s'.jobs, ids, ps, clock)
    && TemplatesStamped(s.templates, s'.templates, ps, clock.systemDay)
  }

  lemma JobsAppendedStep(js: seq<Job>, t: Template, js2: seq<Job>, ids: seq<int>, ps: seq<Template>, clock: Clock)
    requires JobsAppended(js + [NewJob(NextRowId(JobIds(js)), t, clock)], js2, ids, ps, clock)
    ensures JobsAppended(js, js2, [NextRowId(JobIds(js))] + ids, [t] + ps, clock)
  {
    var j := NewJob(NextRowId(JobIds(js)), t, clock);
    var js1 := js + [j];
    NextRowIdAfterInsert(js, j);
    assert js2[..|js|] == js2[..|js1|][..|js|] == js;
    assert js2[|js|] == js2[..|js1|][|js|] == j;
    forall k | 1 <= k < |ps| + 1 ensures js2[|js| + k] == NewJob(([j.id] + ids)[k], ([t] + ps)[k], clock) {
      assert js2[|js| + k] == js2[|js1| + (k - 1)];
    }
  }

  lemma TemplatesStampedStep(ts: seq<Template>, t: Template, ts2: seq<Template>, ps: seq<Template>, day: Day)
    requires TemplatesStamped(StampWatermark(ts, t.id, day), ts2, ps, day)
    ensures TemplatesStamped(ts, ts2, [t] + ps, day)
  {
    assert TemplateIds([t] + ps) == [t.id] + TemplateIds(ps);
  }

  lemma {:induction false} SpawnAllCrashes(s: Store, cs: seq<Template>, clock: Clock, next: Recurrence)
    ensures SpawnAll(s, cs, clock, next).MaterializeCrashed? <==> exists t :: t in cs && Breaks(t, clock, next)
    decreases |cs|
  {
    if cs != [] {
      var t := cs[0];
      assert forall x :: x in cs <==> x == t || x in cs[1..];
      if SpawnsToday(t, clock, next) {
        assert !Breaks(t, clock, next);
        var s1 := s.(jobs := s.jobs + [NewJob(NextRowId(JobIds(s.jobs)), t, clock)],
                     templates := StampWatermark(s.templates, t.id, clock.systemDay));
        SpawnAllCrashes(s1, cs[1..], clock, next);
        assert SpawnAll(s, cs, clock, next).MaterializeCrashed? == SpawnAll(s1, cs[1..], clock, next).MaterializeCrashed?;
      } else {
        SpawnAllCrashes(s, cs[1..], clock, next);
        if !Breaks(t, clock, next) {
          assert SpawnAll(s, cs, clock, next) == SpawnAll(s, cs[1..], clock, next);
        }
      }
    }
  }

  lemma {:induction false} SpawnAllEffect(s: Store, cs: seq<Template>, clock: Clock, next: Recurrence)
    requires SpawnAll(s, cs, clock, next).Materialized?
    ensures SpawnEffect(s, SpawnAll(s, cs, clock, next).store, SpawnAll(s, cs, clock, next).newIds,
                        Producers(cs, clock, next), clock)
    decreases |cs|
  {
    if cs == [] {
      assert s.jobs[..|s.jobs|] == s.jobs;
      return;
    }
    var t := cs[0];
    if !SpawnsToday(t, clock, next) {
      SpawnAllEffect(s, cs[1..], clock, next);
      return;
    }
    var s1 := s.(jobs := s.jobs + [NewJob(NextRowId(JobIds(s.jobs)), t, clock)],
                 templates := StampWatermark(s.templates, t.id, clock.systemDay));
    SpawnAllEffect(s1, cs[1..], clock, next);
    var r := SpawnAll(s1, cs[1..], clock, next);
    JobsAppendedStep(s.jobs, t, r.store.jobs, r.newIds, Producers(cs[1..], clock, next), clock);
    TemplatesStampedStep(s.templates, t, r.store.templates, Producers(cs[1..], clock, next), clock.systemDay);
  }

  /** The spawning templates are exactly the candidates (watermark strictly
      before the host's date) that have an assignee and whose next occurrence
      from now falls on today's date; the pass crashes exactly when some
      candidate with an assignee has no next occurrence; before 10:00 it
      inserts nothing. */
  lemma AddNewJobsSpec(s: Store, clock: Clock, next: Recurrence)
    ensures forall t :: t in SpawnedTemplates(s, clock, next) <==>
      && clock.Hour() > LastQuietHour
      && t in s.templates && t.watermark < clock.systemDay
      && SpawnsToday(t, clock, next)
    ensures AddNewJobs(s, clock, next).MaterializeCrashed? <==>
      && clock.Hour() > LastQuietHour
      && exists t :: t in s.templates && t.watermark < clock.systemDay && Breaks(t, clock, next)
    ensures AddNewJobs(s, clock, next).Materialized? ==>
      SpawnEffect(s, AddNewJobs(s, clock, next).store, AddNewJobs(s, clock, next).newIds,
                  SpawnedTemplates(s, clock, next), clock)
  {
    if clock.Hour() <= LastQuietHour {
      assert s.jobs[..|s.jobs|] == s.jobs;
    } else {
      var cs := Candidates(s.templates, clock.systemDay);
      SpawnAllCrashes(s, cs, clock, next);
      if SpawnAll(s, cs, clock, next).Materialized? {
        SpawnAllEffect(s, cs, clock, next);
      }
    }
  }

  /** The evaluator is asked from the current wall-clock time, not from
      midnight: with an inclusive evaluator, the occurrence that spawns an
      instance lies between now and the end of today. */
  lemma SpawningOccurrenceIsLaterToday(s: Store, clock: Clock, next: Recurrence, t: Template)
    requires Inclusive(next)
    requires t in SpawnedTemplates(s, clock, next)
    ensures clock.wall <= next(t.rule, clock.wall).value < (clock.Today() + 1) * MicrosPerDay
  {
    AddNewJobsSpec(s, clock, next);
  }

  /** Two passes on the same host date spawn at most one instance per
      template: a template that spawned in the first pass is no longer a
      candidate in the second. */
  lemma SameDaySpawnsOnce(s: Store, c1: Clock, c2: Clock, next: Recurrence)
    requires c1.systemDay == c2.systemDay
    requires AddNewJobs(s, c1, next).Materialized?
    ensures forall t :: t in SpawnedTemplates(AddNewJobs(s, c1, next).store, c2, next) ==>
      t.id !in TemplateIds(SpawnedTemplates(s, c1, next))
  {
    AddNewJobsSpec(s, c1, next);
    var s1 := AddNewJobs(s, c1, next).store;
    AddNewJobsSpec(s1, c2, next);
    var p1 := SpawnedTemplates(s, c1, next);
    forall t | t in SpawnedTemplates(s1, c2, next) ensures t.id !in TemplateIds(p1) {
      var i :| 0 <= i < |s1.templates| && s1.templates[i] == t;
    }
  }

  lemma NoProducers(cs: seq<Template>, clock: Clock, next: Recurrence)
    requires forall t :: t in cs ==> !SpawnsToday(t, clock, next)
    ensures Producers(cs, clock, next) == []
  {
  }

  /** After a pass, every template still older than the host's date neither
      spawns nor breaks under the same clock. */
  lemma StampedTemplatesQuiet(s: Store, clock: Clock, next: Recurrence)
    requires clock.Hour() > LastQuietHour
    requires AddNewJobs(s, clock, next).Materialized?
    ensures var s1 := AddNewJobs(s, clock, next).store;
      forall t :: t in s1.templates && t.watermark < clock.systemDay ==>
        !SpawnsToday(t, clock, next) && !Breaks(t, clock, next)
  {
    AddNewJobsSpec(s, clock, next);
    var s1 := AddNewJobs(s, clock, next).store;
    forall t | t in s1.templates && t.watermark < clock.systemDay
      ensures !SpawnsToday(t, clock, next) && !Breaks(t, clock, next)
    {
      var i :| 0 <= i < |s1.templates| && s1.templates[i] == t;
      assert t == s.templates[i];
    }
  }

  /** Re-running the pass with the same clock changes nothing: it neither
      crashes nor inserts. */
  lemma MaterializeIdempotent(s: Store, clock: Clock, next: Recurrence)
    requires AddNewJobs(s, clock, next).Materialized?
    ensures var s1 := AddNewJobs(s, clock, next).store;
      AddNewJobs(s1, clock, next) == Materialized(s1, [])
  {
    if clock.Hour() > LastQuietHour {
      var s1 := AddNewJobs(s, clock, next).store;
      StampedTemplatesQuiet(s, clock, next);
      AddNewJobsSpec(s1, clock, next);
      NoProducers(Candidates(s1.templates, clock.systemDay), clock, next);
      var r := AddNewJobs(s1, clock, next);
      assert r.store.templates == s1.templates;
      assert r.store.jobs == r.store.jobs[..|s1.jobs|] == s1.jobs;
    }
  }

  /** A template added with the default values has no assignee, so no pass
      ever spawns an instance for it. */
  lemma AddedTemplateIsInert(s: Store, clock: Clock, next: Recurrence)
    ensures var s' := AddTemplate(s);
      && |s'.templates| == |s.templates| + 1
      && s'.templates[..|s.templates|] == s.templates
      && s'.templates[|s.templates|].watermark == EpochDay
      && s'.templates[|s.templates|].assignee.None?
      && s'.templates[|s.templates|] !in SpawnedTemplates(s', clock, next)
  {
    AddNewJobsSpec(AddTemplate(s), clock, next);
    assert AddTemplate(s).templates[..|s.templates|] == s.templates;
  }

  /** Editing a template resets its watermark to 1970-01-01, so from any later
      host date it is a candidate again, and it spawns whenever its new rule
      and assignee say so. */
  lemma EditReenables(s: Store, id: int, sortPriority: int, name: string, schedule: int,
                      rule: string, assignee: Option<string>, clock: Clock, next: Recurrence)
    requires clock.systemDay > EpochDay && clock.Hour() > LastQuietHour
    ensures var s' := EditTemplate(s, id, sortPriority, name, schedule, rule, assignee);
      && |s'.templates| == |s.templates|
      && forall i :: 0 <= i < |s.templates| ==>
           if s.templates[i].id == id then
             && s'.templates[i].watermark == EpochDay
             && s'.templates[i].rule == rule && s'.templates[i].assignee == assignee
             && s'.templates[i].schedule == Some(schedule)
             && (s'.templates[i] in SpawnedTemplates(s', clock, next) <==> SpawnsToday(s'.templates[i], clock, next))
           else s'.templates[i] == s.templates[i]
  {
    AddNewJobsSpec(EditTemplate(s, id, sortPriority, name, schedule, rule, assignee), clock, next);
  }

  /** Deleting a template removes only that template row; instances generated
      from it, schedules and messages stay. */
  lemma DeleteTemplateKeepsHistory(s: Store, id: int)
    ensures var s' := DeleteTemplate(s, id);
      && s'.jobs == s.jobs && s'.messages == s.messages && s'.schedules == s.schedules
      && forall t :: t in s'.templates <==> t in s.templates && t.id != id
  {
  }

  /** Deleting a schedule leaves no template or job referring to it, removes
      only that schedule row, and touches nothing but the references. */
  lemma DeleteScheduleSpec(s: Store, sid: int)
    ensures var s' := DeleteSchedule(s, sid);
      && s'.messages == s.messages
      && (forall x :: x in s'.schedules <==> x in s.schedules && x.id != sid)
      && |s'.templates| == |s.templates| && |s'.jobs| == |s.jobs|
      && (forall i :: 0 <= i < |s.templates| ==>
            s'.templates[i].schedule != Some(sid)
            && s'.templates[i] == s.templates[i].(schedule := s'.templates[i].schedule))
      && (forall i :: 0 <= i < |s.jobs| ==>
            && s'.jobs[i].schedule != Some(sid)
            && s'.jobs[i] == s.jobs[i].(schedule := s'.jobs[i].schedule)
            && (s.jobs[i].schedule != Some(sid) ==> s'.jobs[i] == s.jobs[i]))
  {
  }

  // ---------------------------------------------------------------- cadence law

  lemma InAppended(pairs: seq<Pair>, p: Pair)
    ensures p in pairs + [ImplicitPair] <==> p in pairs || p == ImplicitPair
  {
  }

  /** The required interval is defined exactly when some pair's threshold is
      strictly below the elapsed time; the implicit pair makes it defined for
      every positive elapsed time, at most 36500 days. */
  lemma RequiredIntervalDefined(pairs: seq<Pair>, elapsed: int)
    ensures RequiredInterval(pairs, elapsed).Some? <==>
      elapsed > 0 || exists p :: p in pairs && p.threshold < elapsed
    ensures elapsed > 0 ==> RequiredInterval(pairs, elapsed).value <= NeverInterval
  {
    forall p ensures p in pairs + [ImplicitPair] <==> p in pairs || p == ImplicitPair {
      InAppended(pairs, p);
    }
  }

  /** With non-negative thresholds (durations), the law has no value for an
      instance that is not yet past due: `min` of an empty list raises. */
  lemma RequiredIntervalUndefinedBeforeDue(pairs: seq<Pair>, elapsed: int)
    requires elapsed <= 0
    requires forall p :: p in pairs ==> p.threshold >= 0
    ensures RequiredInterval(pairs, elapsed).None?
  {
    RequiredIntervalDefined(pairs, elapsed);
  }

  /** Escalation: as the elapsed time grows the required interval never
      grows, and once defined it stays defined. */
  lemma EscalationMonotone(pairs: seq<Pair>, e1: int, e2: int)
    requires e1 <= e2
    requires RequiredInterval(pairs, e1).Some?
    ensures RequiredInterval(pairs, e2).Some?
    ensures RequiredInterval(pairs, e2).value <= RequiredInterval(pairs, e1).value
  {
    var all := pairs + [ImplicitPair];
    var p :| p in all && p.threshold < e1 && p.interval == RequiredInterval(pairs, e1).value;
    assert p.threshold < e2;
  }

  /** The schedule {0s: 1 day, 2 days: 12 h, 4 days: 4 h}: one day late the
      interval is one day, three days late twelve hours, five days late four
      hours. */
  lemma EscalationScenario()
    ensures var pairs := [Pair(0, MicrosPerDay), Pair(2 * MicrosPerDay, 12 * MicrosPerHour),
                          Pair(4 * MicrosPerDay, 4 * MicrosPerHour)];
      && RequiredInterval(pairs, MicrosPerDay) == Some(MicrosPerDay)
      && RequiredInterval(pairs, 3 * MicrosPerDay) == Some(12 * MicrosPerHour)
      && RequiredInterval(pairs, 5 * MicrosPerDay) == Some(4 * MicrosPerHour)
  {
  }

  /** The closure in `get_schedules` binds late: whatever schedule a job
      names, its interval is computed from the last schedule's pairs. */
  lemma LateBinding(ss: seq<Schedule>, parse: ScheduleParser, sid: int, elapsed: int)
    requires GetSchedules(ss, parse).Some?
    requires sid in ScheduleIds(ss)
    ensures |ss| > 0 && parse(ss[|ss| - 1].reminders).Some?
    ensures var law := RequiredInterval(parse(ss[|ss| - 1].reminders).value, elapsed);
      LookupInterval(GetSchedules(ss, parse).value, Some(sid), elapsed)
        == if law.Some? then Interval(law.value) else LookupFailed(EmptyMinimum)
  {
    var i :| 0 <= i < |ss| && ScheduleIds(ss)[i] == sid;
    assert sid == ss[i].id;
  }

  /** A `Duration` parser that knows the two schedules of the example below. */
  function ExampleParse(text: string): (r: Option<seq<Pair>>)
    ensures r.Some?
  {
    if text == "0s=1h" then Some([Pair(0, MicrosPerHour)]) else Some([Pair(0, MicrosPerDay)])
  }

  /** A concrete consequence: a job on a one-hour schedule, two hours late and
      reminded two hours ago, is not reminded because the last schedule read
      (one day) is applied to it. */
  lemma LateBindingExample()
    ensures
      var ss := [Schedule(1, "hourly", "0s=1h"), Schedule(2, "daily", "0s=1d")];
      var now := 10 * MicrosPerDay;
      var job := Job(7, "Autoclave", false, now - 2 * MicrosPerHour, now - 2 * MicrosPerHour, Some(1), Some("U1"));
      && RequiredInterval(ExampleParse("0s=1h").value, now - job.due) == Some(MicrosPerHour)
      && GetSchedules(ss, ExampleParse).Some?
      && !Fires(job, GetSchedules(ss, ExampleParse).value, now)
  {
    var ss := [Schedule(1, "hourly", "0s=1h"), Schedule(2, "daily", "0s=1d")];
    assert 1 in ScheduleIds(ss) by { assert ss[0].id == 1; }
    assert "0s=1d" != "0s=1h" by { assert "0s=1d"[4] != "0s=1h"[4]; }
    LateBinding(ss, ExampleParse, 1, 2 * MicrosPerHour);
    var daily := [Pair(0, MicrosPerDay)];
    assert ExampleParse(ss[|ss| - 1].reminders).value == daily;
    assert MinEligible(daily + [ImplicitPair], 2 * MicrosPerHour) == Some(MicrosPerDay);
  }

  // ---------------------------------------------------------------- sending

  /** One message row per listed id, appended in order. */
  ghost predicate MessagesAppended(ms: seq<Message>, ms': seq<Message>, ids: seq<int>) {
    && |ms'| == |ms| + |ids|
    && ms'[..|ms|] == ms
    && forall k :: 0 <= k < |ids| ==> ms'[|ms| + k].jobId == ids[k]
  }

  /** One post per listed id, in order, to the assignee stored on its job. */
  ghost predicate PostsMatch(js: seq<Job>, ids: seq<int>, posts: seq<Post>) {
    && |posts| == |ids|
    && forall k :: 0 <= k < |ids| ==>
         && posts[k].jobId == ids[k]
         && FindJob(js, ids[k]).Some?
         && FindJob(js, ids[k]).value.assignee == Some(posts[k].destination)
  }

  /** `last_reminder_ts = now` on exactly the listed jobs. */
  ghost predicate RemindersStamped(js: seq<Job>, js': seq<Job>, ids: seq<int>, now: Instant) {
    && |js'| == |js|
    && forall i :: 0 <= i < |js| ==>
         js'[i] == if js[i].id in ids then js[i].(lastReminder := now) else js[i]
  }

  /** What a successful post loop did: one post and one message row per
      listed id in order, `last_reminder_ts = now` on those jobs, nothing
      else touched. */
  ghost predicate PostEffect(s: Store, s': Store, ids: seq<int>, posts: seq<Post>, now: Instant) {
    && s'.schedules == s.schedules
    && s'.templates == s.templates
    && MessagesAppended(s.messages, s'.messages, ids)
    && PostsMatch(s.jobs, ids, posts)
    && RemindersStamped(s.jobs, s'.jobs, ids, now)
  }

  lemma MessagesAppendedStep(ms: seq<Message>, m: Message, ms2: seq<Message>, ids: seq<int>)
    requires MessagesAppended(ms + [m], ms2, ids)
    ensures MessagesAppended(ms, ms2, [m.jobId] + ids)
  {
    var ms1 := ms + [m];
    assert ms2[..|ms|] == ms2[..|ms1|][..|ms|] == ms;
    assert ms2[|ms|] == ms2[..|ms1|][|ms|] == m;
    forall k | 1 <= k < |ids| + 1 ensures ms2[|ms| + k].jobId == ([m.jobId] + ids)[k] {
      assert ms2[|ms| + k] == ms2[|ms1| + (k - 1)];
    }
  }

  /** Posts checked against one job table stay valid against a table with
      the same rowids and assignees. */
  lemma PostsMatchTransfer(js: seq<Job>, js': seq<Job>, ids: seq<int>, posts: seq<Post>)
    requires |js| == |js'|
    requires forall i :: 0 <= i < |js| ==> js'[i].id == js[i].id && js'[i].assignee == js[i].assignee
    requires PostsMatch(js', ids, posts)
    ensures PostsMatch(js, ids, posts)
  {
    forall k | 0 <= k < |ids|
      ensures FindJob(js, ids[k]).Some? && FindJob(js, ids[k]).value.assignee == Some(posts[k].destination)
    {
      FindJobSameIds(js, js', ids[k]);
    }
  }

  lemma PostsMatchStep(js: seq<Job>, id: int, now: Instant, p: Post, ids: seq<int>, posts: seq<Post>)
    requires FindJob(js, id).Some? && FindJob(js, id).value.assignee == Some(p.destination) && p.jobId == id
    requires PostsMatch(SetLastReminder(js, id, now), ids, posts)
    ensures PostsMatch(js, [id] + ids, [p] + posts)
  {
    PostsMatchTransfer(js, SetLastReminder(js, id, now), ids, posts);
    var ids' := [id] + ids;
    var posts' := [p] + posts;
    forall k | 0 <= k < |ids'|
      ensures && posts'[k].jobId == ids'[k]
              && FindJob(js, ids'[k]).Some?
              && FindJob(js, ids'[k]).value.assignee == Some(posts'[k].destination)
    {
      if k > 0 {
        assert ids'[k] == ids[k - 1] && posts'[k] == posts[k - 1];
      }
    }
  }

  lemma RemindersStampedStep(js: seq<Job>, id: int, js2: seq<Job>, ids: seq<int>, now: Instant)
    requires RemindersStamped(SetLastReminder(js, id, now), js2, ids, now)
    ensures RemindersStamped(js, js2, [id] + ids, now)
  {
  }

  lemma {:induction false} PostAllSpec(s: Store, ids: seq<int>, now: Instant, chat: Chat, k: nat)
    requires PostAll(s, ids, now, chat, k).Posted?
    ensures PostEffect(s, PostAll(s, ids, now, chat, k).store, ids, PostAll(s, ids, now, chat, k).posts, now)
    decreases |ids|
  {
    if ids == [] {
      assert s.messages[..|s.messages|] == s.messages;
      return;
    }
    var j := FindJob(s.jobs, ids[0]).value;
    var h := chat(j.assignee.value, k).value;
    var m := Message(ids[0], h.channel, h.ts);
    var s1 := s.(messages := s.messages + [m], jobs := SetLastReminder(s.jobs, ids[0], now));
    PostAllSpec(s1, ids[1..], now, chat, k + 1);
    var r1 := PostAll(s1, ids[1..], now, chat, k + 1);
    assert ids == [ids[0]] + ids[1..];
    MessagesAppendedStep(s.messages, m, r1.store.messages, ids[1..]);
    PostsMatchStep(s.jobs, ids[0], now, Post(j.assignee.value, ids[0]), ids[1..], r1.posts);
    RemindersStampedStep(s.jobs, ids[0], r1.store.jobs, ids[1..], now);
  }

  /** `send_reminders` commits only after selecting with the fire rule and
      posting once per listed id: the ids materialised in this tick come
      first, unconditionally, then the selected open jobs. */
  lemma SendRemindersSpec(s: Store, newIds: seq<int>, now: Instant, parse: ScheduleParser, chat: Chat)
    ensures var r := SendReminders(s, newIds, now, parse, chat);
      r.Sent? ==>
        && GetSchedules(s.schedules, parse).Some?
        && SelectOpen(s.jobs, GetSchedules(s.schedules, parse).value, now).Selected?
        && PostEffect(s, r.store, newIds + SelectOpen(s.jobs, GetSchedules(s.schedules, parse).value, now).ids,
                      r.posts, now)
  {
    var laws := GetSchedules(s.schedules, parse);
    if laws.Some? {
      var sel := SelectOpen(s.jobs, laws.value, now);
      if sel.Selected? && PostAll(s, newIds + sel.ids, now, chat, 0).Posted? {
        PostAllSpec(s, newIds + sel.ids, now, chat, 0);
      }
    }
  }

  /** After a reminder fires, evaluating the same job again at the same
      instant does not fire (for schedules whose intervals are durations). */
  lemma NoImmediateRefire(j: Job, laws: Laws, now: Instant)
    requires j.lastReminder == now
    requires forall p :: p in laws.pairs ==> p.interval >= 0
    ensures !Fires(j, laws, now)
  {
    var lookup := LookupInterval(laws, j.schedule, now - j.due);
    if lookup.Interval? {
      var p :| p in laws.pairs && p.threshold < now - j.due && p.interval == lookup.value;
    }
  }

  // ---------------------------------------------------------------- the tick

  /** An open job without an assignee (the early `return`) or without a
      schedule (the swallowed `KeyError`) makes every tick end without a
      commit: no instance is materialised and no reminder is posted. */
  lemma StuckJobBlocksTick(s: Store, clock: Clock, sendNow: Instant, next: Recurrence, parse: ScheduleParser, chat: Chat, j: Job)
    requires j in s.jobs && !j.done && (j.assignee.None? || j.schedule.None?)
    ensures Tick(s, clock, sendNow, next, parse, chat) == TickResult(s, [], TickDelaySeconds)
  {
    AddNewJobsSpec(s, clock, next);
    var m := AddNewJobs(s, clock, next);
    if m.Materialized? {
      var s1 := m.store;
      var i :| 0 <= i < |s.jobs| && s.jobs[i] == j;
      assert s1.jobs[i] == s1.jobs[..|s.jobs|][i] == j;
      var laws := GetSchedules(s1.schedules, parse);
      if laws.Some? {
        assert !Eligible(j, laws.value, sendNow);
      }
    }
  }

  /** Deleting a schedule that an open job still uses nulls that job's
      reference, after which every tick leaves the store unchanged until the
      job is completed. */
  lemma DeleteScheduleFreezesTicks(s: Store, sid: int, j: Job, clock: Clock, sendNow: Instant,
                                   next: Recurrence, parse: ScheduleParser, chat: Chat)
    requires j in s.jobs && !j.done && j.schedule == Some(sid)
    ensures var s' := DeleteSchedule(s, sid);
      Tick(s', clock, sendNow, next, parse, chat) == TickResult(s', [], TickDelaySeconds)
  {
    var s' := DeleteSchedule(s, sid);
    var i :| 0 <= i < |s.jobs| && s.jobs[i] == j;
    assert s'.jobs[i] == j.(schedule := None);
    StuckJobBlocksTick(s', clock, sendNow, next, parse, chat, s'.jobs[i]);
  }

  // ---------------------------------------------------------------- completion

  /** Completion marks the job done, inserts and deletes no message row, and
      edits the job's stored messages in table order, one edit each when all
      succeed; it does not look at the done flag first. */
  lemma CompleteSpec(s: Store, id: int, edit: Editor)
    ensures var c := Complete(s, id, edit);
      && c.store.schedules == s.schedules
      && c.store.templates == s.templates
      && c.store.messages == s.messages
      && |c.store.jobs| == |s.jobs|
      && (forall i :: 0 <= i < |s.jobs| ==>
            c.store.jobs[i] == if s.jobs[i].id == id then s.jobs[i].(done := true) else s.jobs[i])
      && c.edits == MessagesOf(s.messages, id)[..|c.edits|]
      && (FindJob(s.jobs, id).Some? && (forall m :: m in s.messages && m.jobId == id ==> edit(m)) ==>
            !c.failed && c.edits == MessagesOf(s.messages, id))
  {
    forall x ensures FindJob(MarkDone(s.jobs, id), x).Some? == FindJob(s.jobs, x).Some? {
      FindJobSameIds(s.jobs, MarkDone(s.jobs, id), x);
    }
  }

  /** Completing an already completed job issues the same edits again and
      leaves the store as it was. */
  lemma CompleteRepeats(s: Store, id: int, edit: Editor)
    ensures var c1 := Complete(s, id, edit);
      var c2 := Complete(c1.store, id, edit);
      c2 == c1
  {
    var js := MarkDone(s.jobs, id);
    assert MarkDone(js, id) == js;
  }

  // ---------------------------------------------------------------- the rowid invariant

  /** The rowids left after deleting the rows with rowid `x`. */
  function FilterOut(xs: seq<int>, x: int): (r: seq<int>)
    ensures forall y :: y in r ==> y in xs
  {
    if xs == [] then []
    else if xs[0] == x then FilterOut(xs[1..], x)
    else [xs[0]] + FilterOut(xs[1..], x)
  }

  lemma {:induction false} FilterOutIncreasing(xs: seq<int>, x: int)
    requires StrictlyIncreasing(xs)
    ensures StrictlyIncreasing(FilterOut(xs, x))
    decreases |xs|
  {
    if xs != [] {
      assert StrictlyIncreasing(xs[1..]) by {
        forall a, b | 0 <= a < b < |xs| - 1 ensures xs[1..][a] < xs[1..][b] {
          assert xs[1..][a] == xs[a + 1] && xs[1..][b] == xs[b + 1];
        }
      }
      FilterOutIncreasing(xs[1..], x);
      var rest := FilterOut(xs[1..], x);
      if xs[0] != x {
        forall y | y in rest ensures xs[0] < y {
          var k :| 0 <= k < |xs| - 1 && xs[1..][k] == y;
          assert xs[k + 1] == y;
        }
        var r := [xs[0]] + rest;
        forall a, b | 0 <= a < b < |r| ensures r[a] < r[b] {
          if a > 0 {
            assert r[a] == rest[a - 1] && r[b] == rest[b - 1];
          } else {
            assert r[b] in rest;
          }
        }
      }
    }
  }

  lemma {:induction false} RemoveTemplateIds(ts: seq<Template>, id: int)
    ensures TemplateIds(RemoveTemplate(ts, id)) == FilterOut(TemplateIds(ts), id)
    decreases |ts|
  {
    if ts != [] {
      RemoveTemplateIds(ts[1..], id);
      assert TemplateIds(ts)[1..] == TemplateIds(ts[1..]);
      if ts[0].id != id {
        assert TemplateIds([ts[0]] + RemoveTemplate(ts[1..], id))
            == [ts[0].id] + TemplateIds(RemoveTemplate(ts[1..], id));
      }
    }
  }

  lemma {:induction false} RemoveScheduleIds(ss: seq<Schedule>, sid: int)
    ensures ScheduleIds(RemoveSchedule(ss, sid)) == FilterOut(ScheduleIds(ss), sid)
    decreases |ss|
  {
    if ss != [] {
      RemoveScheduleIds(ss[1..], sid);
      assert ScheduleIds(ss)[1..] == ScheduleIds(ss[1..]);
      if ss[0].id != sid {
        assert ScheduleIds([ss[0]] + RemoveSchedule(ss[1..], sid))
            == [ss[0].id] + ScheduleIds(RemoveSchedule(ss[1..], sid));
      }
    }
  }

  /** Adding a template gives it a rowid above every existing one. */
  lemma AddTemplatePreservesWellFormed(s: Store)
    requires WellFormed(s)
    ensures WellFormed(AddTemplate(s))
  {
    var a := AddTemplate(s);
    var ids := TemplateIds(s.templates);
    var id := NextRowId(ids);
    assert TemplateIds(a.templates) == ids + [id];
    forall x, y | 0 <= x < y < |ids| + 1 ensures (ids + [id])[x] < (ids + [id])[y] {
      assert ids[x] in ids;
    }
  }

  lemma EditTemplatePreservesWellFormed(s: Store, id: int, sortPriority: int, name: string, schedule: int,
                                        rule: string, assignee: Option<string>)
    requires WellFormed(s)
    ensures WellFormed(EditTemplate(s, id, sortPriority, name, schedule, rule, assignee))
  {
    assert TemplateIds(EditTemplate(s, id, sortPriority, name, schedule, rule, assignee).templates) == TemplateIds(s.templates);
  }

  lemma DeletionsPreserveWellFormed(s: Store, id: int)
    requires WellFormed(s)
    ensures WellFormed(DeleteTemplate(s, id))
    ensures WellFormed(DeleteSchedule(s, id))
  {
    RemoveTemplateIds(s.templates, id);
    FilterOutIncreasing(TemplateIds(s.templates), id);
    RemoveScheduleIds(s.schedules, id);
    FilterOutIncreasing(ScheduleIds(s.schedules), id);
    var d := DeleteSchedule(s, id);
    assert TemplateIds(d.templates) == TemplateIds(s.templates);
    assert JobIds(d.jobs) == JobIds(s.jobs);
  }

  lemma CompletePreservesWellFormed(s: Store, id: int, edit: Editor)
    requires WellFormed(s)
    ensures WellFormed(Complete(s, id, edit).store)
  {
    assert JobIds(Complete(s, id, edit).store.jobs) == JobIds(s.jobs);
  }

  lemma JobsAppendedIncreasing(js: seq<Job>, js': seq<Job>, ids: seq<int>, ps: seq<Template>, clock: Clock)
    requires StrictlyIncreasing(JobIds(js))
    requires JobsAppended(js, js', ids, ps, clock)
    ensures StrictlyIncreasing(JobIds(js'))
  {
    var n := |js|;
    var base := NextRowId(JobIds(js));
    forall a, b | 0 <= a < b < |js'| ensures js'[a].id < js'[b].id {
      if b < n {
        assert js'[a] == js'[..n][a] == js[a];
        assert js'[b] == js'[..n][b] == js[b];
        assert JobIds(js)[a] < JobIds(js)[b];
      } else if a < n {
        assert js'[a] == js'[..n][a] == js[a];
        assert JobIds(js)[a] in JobIds(js);
        assert js'[b].id == ids[b - n] == base + (b - n);
      } else {
        assert js'[a].id == ids[a - n] == base + (a - n);
        assert js'[b].id == ids[b - n] == base + (b - n);
      }
    }
  }

  /** New instances get rowids above every existing one. */
  lemma MaterializePreservesWellFormed(s: Store, clock: Clock, next: Recurrence)
    requires WellFormed(s)
    requires AddNewJobs(s, clock, next).Materialized?
    ensures WellFormed(AddNewJobs(s, clock, next).store)
  {
    AddNewJobsSpec(s, clock, next);
    var m := AddNewJobs(s, clock, next);
    JobsAppendedIncreasing(s.jobs, m.store.jobs, m.newIds, SpawnedTemplates(s, clock, next), clock);
    assert TemplateIds(m.store.templates) == TemplateIds(s.templates);
  }

  /** Reminding changes no rowid. */
  lemma SendPreservesWellFormed(s: Store, newIds: seq<int>, now: Instant, parse: ScheduleParser, chat: Chat)
    requires WellFormed(s)
    requires SendReminders(s, newIds, now, parse, chat).Sent?
    ensures WellFormed(SendReminders(s, newIds, now, parse, chat).store)
  {
    SendRemindersSpec(s, newIds, now, parse, chat);
    assert JobIds(SendReminders(s, newIds, now, parse, chat).store.jobs) == JobIds(s.jobs);
  }

  /** A tick keeps rowids unique and in table order. */
  lemma TickPreservesWellFormed(s: Store, clock: Clock, sendNow: Instant, next: Recurrence, parse: ScheduleParser, chat: Chat)
    requires WellFormed(s)
    ensures WellFormed(Tick(s, clock, sendNow, next, parse, chat).store)
  {
    var m := AddNewJobs(s, clock, next);
    if m.Materialized? {
      MaterializePreservesWellFormed(s, clock, next);
      if SendReminders(m.store, m.newIds, sendNow, parse, chat).Sent? {
        SendPreservesWellFormed(m.store, m.newIds, sendNow, parse, chat);
      }
    }
  }
}

=== FILE: label_printing.dfy ===
/** The label printer: the form a user submits to queue stock labels, the
    first-in first-out queue the label client polls, and the modal view the
    form and its progress messages are shown in. */
module LabelPrinting {
  import opened Common
  import opened PyText

  // ---------------------------------------------------------------------
  // The modal view
  // ---------------------------------------------------------------------

  /** The parts of the label modal the module changes: the title, the
      placeholder of the CSV box (block 6) and the trailing mrkdwn sections. */
  datatype ModalView = ModalView(title: string, placeholder: string, notes: seq<string>)

  /** The shared template `label_model`. */
  const LabelModel := ModalView(":label: Label printer", "pKG_number, description", [])

  /** `build_modal_view`: a fresh copy of the template, with the CSV box
      placeholder replaced when one is given, and with "..." after the title
      plus one `:label: _text_` section when a text is given. */
  function BuildModalView(text: Option<string>, placeholder: Option<string>): (v: ModalView)
    ensures |v.title| == |LabelModel.title| + (if text.Some? then 3 else 0)
    ensures v.title[..|LabelModel.title|] == LabelModel.title
    ensures text.Some? ==> v.title[|LabelModel.title|..] == "..."
    ensures placeholder.None? ==> v.placeholder == LabelModel.placeholder
    ensures placeholder.Some? ==> v.placeholder == placeholder.value
    ensures |v.notes| == |LabelModel.notes| + (if text.Some? then 1 else 0)
    ensures v.notes[..|LabelModel.notes|] == LabelModel.notes
    ensures text.Some? ==> v.notes[|v.notes| - 1] == ":label: _" + text.value + "_"
  {
    var v := LabelModel;
    var v := if placeholder.Some? then v.(placeholder := placeholder.value) else v;
    if text.Some? then
      v.(title := v.title + "...", notes := v.notes + [":label: _" + text.value + "_"])
    else v
  }

  /** Building without arguments returns the template; a decorated build
      changes only the title and the notes, and the placeholder when one is
      given. (The source needs its deep copy for this; values here are
      immutable.) */
  lemma TemplateUntouched(text: Option<string>, placeholder: Option<string>)
    ensures BuildModalView(None, None) == LabelModel
    ensures text.Some? ==> BuildModalView(text, placeholder).title == LabelModel.title + "..."
    ensures text.None? ==> BuildModalView(text, placeholder).title == LabelModel.title
    ensures text.None? ==> BuildModalView(text, placeholder).notes == LabelModel.notes
    ensures placeholder.None? ==> BuildModalView(text, placeholder).placeholder == LabelModel.placeholder
  {
    var v := BuildModalView(text, placeholder);
    if text.Some? {
      assert v.title == v.title[..|LabelModel.title|] + v.title[|LabelModel.title|..];
    }
  }

  // ---------------------------------------------------------------------
  // Reading the CSV box
  // ---------------------------------------------------------------------

  /** Python's `s.split(sep)`: the pieces between separators, at least one. */
  function Split(s: string, sep: char): (r: seq<string>)
    ensures |r| >= 1
    ensures forall i, j :: 0 <= i < |r| && 0 <= j < |r[i]| ==> r[i][j] != sep
    decreases |s|
  {
    if s == [] then [""]
    else
      var rest := Split(s[1..], sep);
      if s[0] == sep then [""] + rest
      else
        var r := [[s[0]] + rest[0]] + rest[1..];
        assert forall i :: 1 <= i < |r| ==> r[i] == rest[i];
        r
  }

  /** `sep.join(pieces)`. */
  function Join(pieces: seq<string>, sep: char): string
    requires |pieces| >= 1
    decreases |pieces|
  {
    if |pieces| == 1 then pieces[0] else pieces[0] + [sep] + Join(pieces[1..], sep)
  }

  /** Splitting loses nothing: joining the pieces with the separator gives the text back. */
  lemma {:induction false} SplitJoin(s: string, sep: char)
    ensures Join(Split(s, sep), sep) == s
    decreases |s|
  {
    if s != [] {
      var rest := Split(s[1..], sep);
      SplitJoin(s[1..], sep);
      if s[0] == sep {
        assert Split(s, sep)[1..] == rest;
      } else {
        var r := Split(s, sep);
        if |rest| == 1 {
          assert r == [[s[0]] + rest[0]];
        } else {
          assert r[1..] == rest[1..];
          assert Join(rest, sep) == rest[0] + [sep] + Join(rest[1..], sep);
        }
      }
    }
  }

  /** A text ending in the separator splits into one more, empty, piece. */
  lemma {:induction false} SplitTrailing(s: string, sep: char)
    ensures Split(s + [sep], sep) == Split(s, sep) + [""]
    decreases |s|
  {
    if s == [] {
      assert [sep][1..] == [];
    } else {
      assert (s + [sep])[1..] == s[1..] + [sep];
      SplitTrailing(s[1..], sep);
      var rest := Split(s[1..], sep);
      var rest' := Split(s[1..] + [sep], sep);
      assert rest' == rest + [""];
      if s[0] != sep {
        assert rest'[0] == rest[0];
        assert rest'[1..] == rest[1..] + [""];
      }
    }
  }

  /** One line through `csv.reader`, without quoting: an empty line is an
      empty row, any other line its comma-separated fields. */
  function CsvRow(line: string): (row: seq<string>)
    ensures line == [] <==> row == []
  {
    if line == [] then [] else Split(line, ',')
  }

  function CsvLines(lines: seq<string>): (rows: seq<seq<string>>)
    ensures |rows| == |lines|
    ensures forall i :: 0 <= i < |lines| ==> rows[i] == CsvRow(lines[i])
  {
    if lines == [] then [] else [CsvRow(lines[0])] + CsvLines(lines[1..])
  }

  /** The rows of the labels box, `csv.reader(text.split('\n'))`. */
  function CsvRows(text: string): (rows: seq<seq<string>>)
    ensures |rows| >= 1
  {
    CsvLines(Split(text, '\n'))
  }

  // ---------------------------------------------------------------------
  // Converting bacterial stock rows
  // ---------------------------------------------------------------------

  /** A printed label: the main line, the description, the date-and-initials
      line and the text in the circle. */
  datatype Label = Label(title: string, description: string, stamp: string, circle: string)

  /** The label of bacterial stock number `n`. */
  function BacterialLabel(n: int, name: string, stamp: string): Label {
    Label("pKG" + IntToString(n), name, stamp, IntToString(n))
  }

  /** How a cell is read as an integer: the handler uses `int()` (`PyInt`). */
  type IntParser = string -> Option<int>

  /** A row the conversion loop gets through: a first cell that reads as an integer, and a second cell. */
  predicate GoodRow(row: seq<string>, parse: IntParser) {
    |row| >= 2 && parse(row[0]).Some?
  }

  /** The position of the first row the conversion loop does not get through. */
  function FirstStop(rows: seq<seq<string>>, parse: IntParser): (k: nat)
    ensures k <= |rows|
    ensures forall i :: 0 <= i < k ==> GoodRow(rows[i], parse)
    ensures k < |rows| ==> !GoodRow(rows[k], parse)
  {
    if rows == [] || !GoodRow(rows[0], parse) then 0
    else
      var k := 1 + FirstStop(rows[1..], parse);
      assert forall i :: 1 <= i < k ==> rows[i] == rows[1..][i - 1];
      k
  }

  /** What the loop leaves behind: the labels converted so far and the row
      whose pKG number is not an integer, if the loop broke off there; or the
      `IndexError` of a row too short to read. */
  datatype Conversion = Converted(labels: seq<Label>, invalid: Option<seq<string>>) | RowTooShort

  /** The `for label in labels` loop of the bacterial branch. */
  function ConvertBacterial(rows: seq<seq<string>>, stamp: string, parse: IntParser): (c: Conversion)
    ensures c.Converted? ==> |c.labels| <= |rows|
  {
    if rows == [] then Converted([], None)
    else
      var row := rows[0];
      if |row| == 0 then RowTooShort
      else match parse(row[0])
        case None => Converted([], Some(row))
        case Some(n) =>
          if |row| < 2 then RowTooShort
          else match ConvertBacterial(rows[1..], stamp, parse)
            case RowTooShort => RowTooShort
            case Converted(rest, invalid) => Converted([BacterialLabel(n, row[1], stamp)] + rest, invalid)
  }

  /** The loop converts every row before the first one it cannot get
      through; that row ends the loop with an error naming it when its first
      cell is not an integer, and with an `IndexError` when it is empty or has
      a single integer cell. */
  lemma ConvertBacterialSpec(rows: seq<seq<string>>, stamp: string, parse: IntParser)
    ensures var k := FirstStop(rows, parse);
      var c := ConvertBacterial(rows, stamp, parse);
      && (c.Converted? ==>
            && |c.labels| == k
            && (forall i :: 0 <= i < k ==>
                  c.labels[i] == BacterialLabel(parse(rows[i][0]).value, rows[i][1], stamp)))
      && (k == |rows| ==> c.Converted? && c.invalid.None?)
      && (k < |rows| && |rows[k]| > 0 && parse(rows[k][0]).None? ==>
            c.Converted? && c.invalid == Some(rows[k]))
      && (k < |rows| && (|rows[k]| == 0 || parse(rows[k][0]).Some?) ==> c.RowTooShort?)
  {
    ConvertedLabels(rows, stamp, parse);
    ConversionStops(rows, stamp, parse);
  }

  lemma {:induction false} ConvertedLabels(rows: seq<seq<string>>, stamp: string, parse: IntParser)
    ensures var c := ConvertBacterial(rows, stamp, parse);
      c.Converted? ==>
        && |c.labels| == FirstStop(rows, parse)
        && (forall i :: 0 <= i < |c.labels| ==>
              c.labels[i] == BacterialLabel(parse(rows[i][0]).value, rows[i][1], stamp))
    decreases |rows|
  {
    if rows != [] && GoodRow(rows[0], parse) {
      var tail := rows[1..];
      ConvertedLabels(tail, stamp, parse);
      var c := ConvertBacterial(rows, stamp, parse);
      var c' := ConvertBacterial(tail, stamp, parse);
      assert FirstStop(rows, parse) == 1 + FirstStop(tail, parse);
      if c'.Converted? {
        var first := BacterialLabel(parse(rows[0][0]).value, rows[0][1], stamp);
        assert c.labels == [first] + c'.labels;
        forall i | 1 <= i < |c.labels|
          ensures c.labels[i] == BacterialLabel(parse(rows[i][0]).value, rows[i][1], stamp)
        {
          assert c.labels[i] == c'.labels[i - 1];
          assert rows[i] == tail[i - 1];
        }
      }
    }
  }

  lemma {:induction false} ConversionStops(rows: seq<seq<string>>, stamp: string, parse: IntParser)
    ensures var k := FirstStop(rows, parse);
      var c := ConvertBacterial(rows, stamp, parse);
      && (k == |rows| ==> c.Converted? && c.invalid.None?)
      && (k < |rows| && |rows[k]| > 0 && parse(rows[k][0]).None? ==>
            c.Converted? && c.invalid == Some(rows[k]))
      && (k < |rows| && (|rows[k]| == 0 || parse(rows[k][0]).Some?) ==> c.RowTooShort?)
    decreases |rows|
  {
    if rows != [] && GoodRow(rows[0], parse) {
      var tail := rows[1..];
      ConversionStops(tail, stamp, parse);
      assert FirstStop(rows, parse) == 1 + FirstStop(tail, parse);
      assert FirstStop(rows, parse) < |rows| ==> rows[FirstStop(rows, parse)] == tail[FirstStop(tail, parse)];
    }
  }

  // ---------------------------------------------------------------------
  // The form submission
  // ---------------------------------------------------------------------

  const CopiesKey := "num_copies-field"
  const LabelsKey := "labels-field"
  const TypeKey := "label_type-field"
  const DateKey := "date-field"
  const InitialsKey := "initials-field"

  const CopiesError := "Number of copies must be a positive integer!"
  const TwoColumnError := "Input is not a two-column (pKG number, name) CSV!"
  const LabelTypeMessage := "Unexpected label type!"

  const BacterialStock := "bacterial_stock"

  /** The label types whose branches read the loop variable `label`, which
      only the bacterial branch binds. */
  predicate UnboundLabelType(t: string) {
    t == "cell_line_stock" || t == "virus_stock" || t == "custom"
  }

  /** Python's `repr` of a list of strings without quotes or backslashes in them. */
  function RowRepr(row: seq<string>): string {
    "[" + Items(row) + "]"
  }

  function Items(row: seq<string>): string {
    if row == [] then ""
    else if |row| == 1 then "'" + row[0] + "'"
    else "'" + row[0] + "', " + Items(row[1..])
  }

  function InvalidRowError(row: seq<string>): string {
    "Row " + RowRepr(row) + " has invalid pKG number! This should be an integer!"
  }

  /** The submitted form values. */
  datatype Form = Form(labelsText: string, labelType: string, date: string, initials: string, numCopies: string)

  /** `view['state']['values']` as the handler reads it: a key to the
      string stored under it. */
  type StateValues = map<string, string>

  /** The five keys the handler reads, each an action id of the modal. */
  predicate HasFields(values: StateValues) {
    LabelsKey in values && TypeKey in values && DateKey in values && InitialsKey in values && CopiesKey in values
  }

  /** The reads of the labels box, label type, date, initials and copy
      count; a missing key raises `KeyError`, modelled as `None`. */
  function ReadForm(values: StateValues): (r: Option<Form>)
    ensures r.Some? <==> HasFields(values)
  {
    if HasFields(values) then
      Some(Form(values[LabelsKey], values[TypeKey], values[DateKey], values[InitialsKey], values[CopiesKey]))
    else None
  }

  /** The state values of a form whose fields are stored under their action
      ids: reading them gives the form back. */
  function FormValues(form: Form): (values: StateValues)
    ensures ReadForm(values) == Some(form)
  {
    map[LabelsKey := form.labelsText, TypeKey := form.labelType, DateKey := form.date,
        InitialsKey := form.initials, CopiesKey := form.numCopies]
  }

  /** The rows of the labels box. */
  function Rows(form: Form): seq<seq<string>> {
    CsvRows(form.labelsText)
  }

  /** The date-and-initials line every label of the form carries. */
  function Stamp(form: Form): string {
    form.date + " " + form.initials
  }

  /** The `num_copies-field` check fails on the count `int()` read, or on its `ValueError`. */
  predicate BadCount(count: Option<int>) {
    count.None? || count.value <= 0
  }

  predicate BadCopies(numCopies: string) {
    BadCount(PyInt(numCopies))
  }

  predicate TwoColumns(rows: seq<seq<string>>) {
    forall i :: 0 <= i < |rows| ==> |rows[i]| == 2
  }

  /** The errors the copy count contributes. */
  function CopiesErrors(count: Option<int>): (e: map<string, string>)
    ensures CopiesKey in e <==> BadCount(count)
    ensures forall k :: k in e ==> k == CopiesKey && e[k] == CopiesError
  {
    if BadCount(count) then map[CopiesKey := CopiesError] else map[]
  }

  /** The exceptions that escape the handler before it acknowledges the form. */
  datatype Failure = KeyError | IndexError | UnboundLabel | NoViewId

  /** The validation part of the handler: the field errors, the copy count
      and the converted labels of a valid form, or an exception. */
  datatype Check =
    | Invalid(errors: map<string, string>)
    | Valid(copies: int, labels: seq<Label>)
    | Raised(failure: Failure)

  /** The field errors of the bacterial branch once every row has been
      read: the copies error, then the column error, overwritten by the
      invalid-row error when there is an invalid row. */
  function BacterialErrors(rows: seq<seq<string>>, count: Option<int>, invalid: Option<seq<string>>): (e: map<string, string>)
    ensures CopiesKey in e <==> BadCount(count)
    ensures CopiesKey in e ==> e[CopiesKey] == CopiesError
    ensures LabelsKey in e <==> !TwoColumns(rows) || invalid.Some?
    ensures invalid.Some? ==> e[LabelsKey] == InvalidRowError(invalid.value)
    ensures invalid.None? && LabelsKey in e ==> e[LabelsKey] == TwoColumnError
    ensures forall k :: k in e ==> k == CopiesKey || k == LabelsKey
  {
    var copiesErrors := CopiesErrors(count);
    var columnErrors := if TwoColumns(rows) then copiesErrors else copiesErrors[LabelsKey := TwoColumnError];
    if invalid.Some? then columnErrors[LabelsKey := InvalidRowError(invalid.value)] else columnErrors
  }

  /** The bacterial branch, given the copy count as read. */
  function CheckBacterial(rows: seq<seq<string>>, stamp: string, count: Option<int>, parse: IntParser): (c: Check)
    ensures c.Invalid? ==> c.errors != map[]
    ensures c.Valid? ==> c.copies > 0 && count == Some(c.copies)
  {
    match ConvertBacterial(rows, stamp, parse)
    case RowTooShort => Raised(IndexError)
    case Converted(labels, invalid) =>
      var errors := BacterialErrors(rows, count, invalid);
      if errors == map[] then
        assert CopiesKey !in errors;
        Valid(count.value, labels)
      else Invalid(errors)
  }

  /** The bacterial branch raises exactly when the conversion loop does; it
      shows the copies error exactly when the count is bad and a labels-field
      error exactly when a row has other than two columns or an invalid pKG
      number, naming the invalid row in that case; and it accepts the
      converted labels when there is no error at all. */
  lemma CheckBacterialSpec(rows: seq<seq<string>>, stamp: string, count: Option<int>, parse: IntParser)
    ensures var c := CheckBacterial(rows, stamp, count, parse);
      var conv := ConvertBacterial(rows, stamp, parse);
      && (c.Raised? <==> conv.RowTooShort?)
      && (c.Raised? ==> c.failure == IndexError)
      && (c.Valid? <==> conv.Converted? && conv.invalid.None? && TwoColumns(rows) && !BadCount(count))
      && (c.Valid? ==> c.labels == conv.labels)
      && (c.Invalid? ==> conv.Converted? && c.errors == BacterialErrors(rows, count, conv.invalid))
  {
    var conv := ConvertBacterial(rows, stamp, parse);
    if conv.Converted? && conv.invalid.None? && TwoColumns(rows) && !BadCount(count) {
      var e := BacterialErrors(rows, count, conv.invalid);
      assert forall k :: k !in e;
      assert e == map[];
    }
  }

  /** The checks of `handle_form_submission`, in the handler's order. */
  function CheckForm(form: Form): (c: Check)
    ensures c.Invalid? ==> c.errors != map[]
    ensures c.Valid? ==> form.labelType == BacterialStock && c.copies > 0
  {
    if form.labelType == BacterialStock then CheckBacterial(Rows(form), Stamp(form), PyInt(form.numCopies), PyInt)
    else if UnboundLabelType(form.labelType) then Raised(UnboundLabel)
    else
      var errors := CopiesErrors(PyInt(form.numCopies))[TypeKey := LabelTypeMessage];
      assert TypeKey in errors;
      Invalid(errors)
  }

  /** A queue entry: the view to report progress in, the copy count and the labels. */
  datatype Entry = Entry(viewId: string, labelCount: int, labels: seq<Label>)

  /** The handler's outcome: the field errors shown in the form, the queue
      after a successful submission together with the view the form turns
      into, or an exception. */
  datatype Submission =
    | Rejected(errors: map<string, string>)
    | Queued(queue: seq<Entry>, view: ModalView)
    | Failed(failure: Failure)

  /** `handle_form_submission` on `label_queue`. `values` is the view's
      state values and `viewId` the value of `view.id`: the view arrives as
      a dictionary, which has no such attribute, so the handler as written
      always passes `None`. */
  function Submit(queue: seq<Entry>, values: StateValues, viewId: Option<string>): (r: Submission)
    ensures r == Failed(KeyError) <==> !HasFields(values)
    ensures r.Queued? ==> |r.queue| == |queue| + 1 && r.queue[..|queue|] == queue
    ensures r.Rejected? ==> r.errors != map[]
  {
    match ReadForm(values)
    case None => Failed(KeyError)
    case Some(form) => Answer(queue, CheckForm(form), viewId)
  }

  /** The handler once the fields are read: errors are answered, an
      exception escapes, and a valid form is queued under its view id. */
  function Answer(queue: seq<Entry>, c: Check, viewId: Option<string>): (r: Submission)
    ensures r.Rejected? <==> c.Invalid?
    ensures r.Rejected? ==> r.errors == c.errors
    ensures r.Failed? ==> (c.Raised? && r.failure == c.failure) || (c.Valid? && r.failure == NoViewId)
    ensures r.Queued? <==> c.Valid? && viewId.Some?
  {
    match c
    case Invalid(errors) => Rejected(errors)
    case Raised(failure) => Failed(failure)
    case Valid(copies, labels) =>
      if viewId.None? then Failed(NoViewId)
      else Queued(queue + [Entry(viewId.value, copies, labels)], BuildModalView(Some("Labels queued..."), None))
  }

  /** Slack stores a view's state values under block ids, and the modal
      sets none, so the ids Slack generates are not the action ids the
      handler reads: every submission raises `KeyError` at the first read,
      before anything is validated, answered or queued. */
  lemma SlackValuesRaise(queue: seq<Entry>, values: StateValues, viewId: Option<string>)
    requires LabelsKey !in values
    ensures Submit(queue, values, viewId) == Failed(KeyError)
  {
  }

  /** Values holding a form under its action ids get the answer to that form. */
  lemma SubmitFormValues(queue: seq<Entry>, form: Form, viewId: Option<string>)
    ensures Submit(queue, FormValues(form), viewId) == Answer(queue, CheckForm(form), viewId)
  {
  }

  // The lemmas below submit a form whose fields are stored under their
  // action ids (`FormValues`); the values Slack sends never have that shape
  // (`SlackValuesRaise`), so they describe the validation the handler would
  // give if its reads succeeded.

  /** A copy count that is not a positive integer is never accepted: the
      form shows the copies error, unless reading the rows raised first. */
  lemma CheckFormBadCopies(form: Form)
    requires BadCopies(form.numCopies)
    ensures var c := CheckForm(form);
      && !c.Valid?
      && (c.Invalid? ==> CopiesKey in c.errors && c.errors[CopiesKey] == CopiesError)
  {
    var count := PyInt(form.numCopies);
    if form.labelType == BacterialStock {
      CheckBacterialSpec(Rows(form), Stamp(form), count, PyInt);
    }
  }

  /** Hence such a submission is never queued. */
  lemma SubmitBadCopies(queue: seq<Entry>, form: Form, viewId: Option<string>)
    requires BadCopies(form.numCopies)
    ensures var r := Submit(queue, FormValues(form), viewId);
      && !r.Queued?
      && (r.Rejected? ==> CopiesKey in r.errors && r.errors[CopiesKey] == CopiesError)
      && (r.Failed? ==> r.failure != NoViewId)
  {
    var c := CheckForm(form);
    CheckFormBadCopies(form);
    SubmitFormValues(queue, form, viewId);
    assert Submit(queue, FormValues(form), viewId) == Answer(queue, c, viewId);
  }

  /** A bacterial submission with a row of other than two columns is never
      queued; when the form is answered it carries a labels-field error. */
  lemma SubmitBadColumns(queue: seq<Entry>, form: Form, viewId: Option<string>)
    requires form.labelType == BacterialStock && !TwoColumns(Rows(form))
    ensures var r := Submit(queue, FormValues(form), viewId);
      && !r.Queued?
      && (r.Rejected? ==> LabelsKey in r.errors)
      && (r.Failed? ==> r.failure == IndexError)
  {
    CheckBacterialSpec(Rows(form), Stamp(form), PyInt(form.numCopies), PyInt);
  }

  /** The first row whose pKG number is not an integer is named in the labels-field error. */
  lemma SubmitInvalidRow(queue: seq<Entry>, form: Form, viewId: Option<string>)
    requires form.labelType == BacterialStock
    requires var rows := Rows(form); var k := FirstStop(rows, PyInt);
      k < |rows| && |rows[k]| > 0 && PyInt(rows[k][0]).None?
    ensures var rows := Rows(form);
      var r := Submit(queue, FormValues(form), viewId);
      r.Rejected? && LabelsKey in r.errors && r.errors[LabelsKey] == InvalidRowError(rows[FirstStop(rows, PyInt)])
  {
    ConvertBacterialSpec(Rows(form), Stamp(form), PyInt);
    CheckBacterialSpec(Rows(form), Stamp(form), PyInt(form.numCopies), PyInt);
  }

  /** An empty row, or a one-cell row with an integer, before any invalid
      number raises `IndexError` and the form gets no answer. */
  lemma SubmitShortRow(queue: seq<Entry>, form: Form, viewId: Option<string>)
    requires form.labelType == BacterialStock
    requires var rows := Rows(form); var k := FirstStop(rows, PyInt);
      k < |rows| && (|rows[k]| == 0 || PyInt(rows[k][0]).Some?)
    ensures Submit(queue, FormValues(form), viewId) == Failed(IndexError)
  {
    ConvertBacterialSpec(Rows(form), Stamp(form), PyInt);
    CheckBacterialSpec(Rows(form), Stamp(form), PyInt(form.numCopies), PyInt);
  }

  lemma {:induction false} FirstStopAfterGood(rows: seq<seq<string>>, k: nat)
    requires k < |rows| && !GoodRow(rows[k], PyInt)
    requires forall i :: 0 <= i < k ==> GoodRow(rows[i], PyInt)
    ensures FirstStop(rows, PyInt) == k
  {
    if k > 0 {
      FirstStopAfterGood(rows[1..], k - 1);
    }
  }

  /** A trailing newline adds one empty row. */
  lemma CsvRowsTrailing(body: string)
    ensures CsvRows(body + "\n") == CsvRows(body) + [[]]
  {
    SplitTrailing(body, '\n');
    var lines := Split(body, '\n');
    assert CsvLines(lines + [""]) == CsvLines(lines) + [CsvRow("")];
  }

  /** A box ending in a newline has an empty last row, which raises
      `IndexError` once every row before it converts. */
  lemma TrailingNewlineFails(queue: seq<Entry>, form: Form, viewId: Option<string>, body: string)
    requires form.labelType == BacterialStock && form.labelsText == body + "\n"
    requires forall i :: 0 <= i < |CsvRows(body)| ==> GoodRow(CsvRows(body)[i], PyInt)
    ensures Submit(queue, FormValues(form), viewId) == Failed(IndexError)
  {
    var rows := Rows(form);
    var pre := CsvRows(body);
    CsvRowsTrailing(body);
    assert forall i :: 0 <= i < |pre| ==> rows[i] == pre[i];
    FirstStopAfterGood(rows, |pre|);
    SubmitShortRow(queue, form, viewId);
  }

  /** An empty box is a single empty row: `IndexError`. */
  lemma EmptyBoxFails(queue: seq<Entry>, form: Form, viewId: Option<string>)
    requires form.labelType == BacterialStock && form.labelsText == ""
    ensures Submit(queue, FormValues(form), viewId) == Failed(IndexError)
  {
    assert Rows(form) == [[]];
    SubmitShortRow(queue, form, viewId);
  }

  /** An unrecognised label type is answered with the label-type error, next
      to the copies error exactly when the copy count is bad. */
  lemma SubmitUnknownType(queue: seq<Entry>, form: Form, viewId: Option<string>)
    requires form.labelType != BacterialStock && !UnboundLabelType(form.labelType)
    ensures var r := Submit(queue, FormValues(form), viewId);
      r.Rejected? && TypeKey in r.errors && r.errors[TypeKey] == LabelTypeMessage
      && (CopiesKey in r.errors <==> BadCopies(form.numCopies))
  {
  }

  /** The cell-line, virus and custom branches raise before anything is answered or queued. */
  lemma SubmitOtherTypes(queue: seq<Entry>, form: Form, viewId: Option<string>)
    requires UnboundLabelType(form.labelType)
    ensures Submit(queue, FormValues(form), viewId) == Failed(UnboundLabel)
  {
  }

  /** The validation accepts a form exactly when it is a bacterial one with
      a positive copy count and every row two columns with an integer first;
      the labels are then the converted rows in order. */
  lemma CheckFormAccepts(form: Form)
    ensures var rows := Rows(form);
      var c := CheckForm(form);
      && (c.Valid? <==>
            && form.labelType == BacterialStock
            && !BadCopies(form.numCopies)
            && (forall i :: 0 <= i < |rows| ==> |rows[i]| == 2 && PyInt(rows[i][0]).Some?))
      && (c.Valid? ==>
            && c.copies == PyInt(form.numCopies).value
            && |c.labels| == |rows|
            && (forall i :: 0 <= i < |rows| ==>
                  c.labels[i] == BacterialLabel(PyInt(rows[i][0]).value, rows[i][1], Stamp(form))))
  {
    var rows := Rows(form);
    ConvertBacterialSpec(rows, Stamp(form), PyInt);
    CheckBacterialSpec(rows, Stamp(form), PyInt(form.numCopies), PyInt);
    if FirstStop(rows, PyInt) < |rows| {
      var k := FirstStop(rows, PyInt);
      assert !GoodRow(rows[k], PyInt);
    }
  }

  /** A submission is queued exactly when all five fields are read, the
      form is valid and it has a view id; the queue then grows by one entry
      at its tail holding that view id, the copy count and the converted
      labels. It is rejected exactly when the fields are read and the form
      is invalid. */
  lemma SubmitQueues(queue: seq<Entry>, values: StateValues, viewId: Option<string>)
    ensures var r := Submit(queue, values, viewId);
      && (r.Queued? <==> HasFields(values) && CheckForm(ReadForm(values).value).Valid? && viewId.Some?)
      && (r.Queued? ==> var c := CheckForm(ReadForm(values).value);
            r.queue == queue + [Entry(viewId.value, c.copies, c.labels)])
      && (r.Rejected? <==> HasFields(values) && CheckForm(ReadForm(values).value).Invalid?)
  {
  }

  /** As written the handler never queues anything: `view.id` fails on every
      submission that gets past reading and validation. */
  lemma NothingEverQueued(queue: seq<Entry>, values: StateValues)
    ensures !Submit(queue, values, None).Queued?
  {
  }

  // ---------------------------------------------------------------------
  // The queue endpoints
  // ---------------------------------------------------------------------

  /** A `views_update` call: which view to replace, and with what. */
  datatype ViewUpdate = ViewUpdate(viewId: string, view: ModalView)

  /** The reply of `/labels/dequeue`: 401, a server error (the token missing
      from the configuration, or the view update raising), `{}`, or an entry. */
  datatype Reply = Unauthorized | ServerError | EmptyReply | Payload(entry: Entry)

  datatype Dequeued = Dequeued(reply: Reply, queue: seq<Entry>, update: Option<ViewUpdate>)

  /** The view a dequeued entry's form is replaced with. */
  function SentView(): ModalView {
    BuildModalView(Some("Sent to label client..."), None)
  }

  /** `dequeue_labels`. `configured` is `module_config['token']` (absent
      unless the configuration sets it) and `updateOk` whether `views_update`
      returns normally; the entry is popped before that call, so a failing
      update loses it. */
  function Dequeue(queue: seq<Entry>, token: string, configured: Option<string>, updateOk: bool): (r: Dequeued)
    ensures r.reply.Unauthorized? <==> configured.Some? && token != configured.value
    ensures r.reply.EmptyReply? <==> configured == Some(token) && queue == []
    ensures r.reply.Payload? <==> configured == Some(token) && queue != [] && updateOk
    ensures r.queue == queue || (queue != [] && r.queue == queue[1..] && configured == Some(token))
    ensures r.reply.Payload? ==> r.reply.entry == queue[0] && r.queue == queue[1..]
    ensures r.update.Some? <==> r.reply.Payload?
  {
    if configured.None? then Dequeued(ServerError, queue, None)
    else if token != configured.value then Dequeued(Unauthorized, queue, None)
    else if queue == [] then Dequeued(EmptyReply, queue, None)
    else if !updateOk then Dequeued(ServerError, queue[1..], None)
    else Dequeued(Payload(queue[0]), queue[1..], Some(ViewUpdate(queue[0].viewId, SentView())))
  }

  /** Repeated authorised dequeues with working view updates, until `{}`:
      the entries in the order they are handed out. */
  function Drain(queue: seq<Entry>, token: string): (out: seq<Entry>)
    decreases |queue|
  {
    var d := Dequeue(queue, token, Some(token), true);
    if d.reply.Payload? then [d.reply.entry] + Drain(d.queue, token) else []
  }

  /** The queue is first in, first out: draining hands the entries out in
      the order they were queued. */
  lemma {:induction false} DrainInOrder(queue: seq<Entry>, token: string)
    ensures Drain(queue, token) == queue
    decreases |queue|
  {
    if queue != [] {
      DrainInOrder(queue[1..], token);
    }
  }

  /** A new submission waits behind every entry already queued. */
  lemma QueuedLast(queue: seq<Entry>, values: StateValues, viewId: Option<string>, token: string)
    requires Submit(queue, values, viewId).Queued?
    ensures var q := Submit(queue, values, viewId).queue;
      Drain(q, token) == queue + [q[|queue|]]
  {
    var q := Submit(queue, values, viewId).queue;
    DrainInOrder(q, token);
    assert q == q[..|queue|] + [q[|queue|]];
  }

  /** The reply of `/labels/update_status`. */
  datatype StatusReply = StatusUnauthorized | StatusServerError | StatusUpdated(update: ViewUpdate)

  /** `update_label_status`: after the token check, the form's view shows
      the client's status followed by "...". The view id arrives as an
      integer and is passed on as its decimal string. */
  function UpdateLabelStatus(token: string, configured: Option<string>, vid: int, status: string, updateOk: bool): (r: StatusReply)
    ensures r.StatusUnauthorized? <==> configured.Some? && token != configured.value
    ensures r.StatusUpdated? <==> configured == Some(token) && updateOk
    ensures r.StatusUpdated? ==>
              && r.update.viewId == IntToString(vid)
              && r.update.view.notes == [":label: _" + status + "..._"]
  {
    if configured.None? then StatusServerError
    else if token != configured.value then StatusUnauthorized
    else if !updateOk then StatusServerError
    else
      var v := BuildModalView(Some(status + "..."), None);
      assert v.notes == [v.notes[0]];
      assert ":label: _" + (status + "...") + "_" == ":label: _" + status + "..._";
      StatusUpdated(ViewUpdate(IntToString(vid), v))
  }
}

=== FILE: word_verification.dfy ===
/** The Word citation checker: it walks the elements of a document's main XML
    part and reports superscripted numbers that lie outside Zotero citation
    field codes (likely citations typed by hand), and tells whether the
    document holds a Zotero bibliography. The XML tree is abstracted to its
    elements in document order. */
module WordVerification {
  import opened Common
  import opened PyText

  /** An element as the scanner classifies it. Parents are compared by
      identity, so they are given as node numbers.
      - FldBegin, FldEnd: a `fldChar` with `fldCharType` begin or end;
      - InstrText: a field instruction and its text (`None` when empty);
      - VertAlignSup: a `vertAlign` whose value says superscript, with the
        node two levels up, if any;
      - Text: a `t` run, its parent node and its text;
      - Other: anything else, including other `fldChar` and `vertAlign` values. */
  datatype Elem =
    | FldBegin
    | FldEnd
    | InstrText(text: Option<string>)
    | VertAlignSup(grandparent: Option<nat>)
    | Text(parent: Option<nat>, text: Option<string>)
    | Other

  /** The exceptions the functions raise: the `RuntimeError` of a field end
      without a begin, the `TypeError` of testing a substring in a missing
      text, and the `NameError` of a module-level `root` that was never set. */
  datatype ScanError = UnexpectedFieldCode | NoneText | NoRoot

  /** A reported superscript and the text just before it. */
  datatype Hit = Hit(superscript: string, context: string)

  /** The scanner's loop variables. */
  datatype ScanState = ScanState(
    count: int,
    inCitation: bool,
    lastSuperscript: Option<nat>,
    window: seq<string>,
    results: seq<Hit>)

  datatype Step = Next(state: ScanState) | Raised(error: ScanError)

  const Initial := ScanState(0, false, None, [], [])

  /** How many text runs the context keeps. */
  const ContextRuns := 6

  const CitationCode := "ADDIN ZOTERO_ITEM"
  const BibliographyCode := "ADDIN ZOTERO_BIBL"

  /** The superscript pattern `(\d| |[-,])*\d(\d| |[-,])*`: digits, spaces,
      hyphens and commas, at least one digit. */
  predicate CitationChars(s: string) {
    (forall i :: 0 <= i < |s| ==> IsDigit(s[i]) || s[i] == ' ' || s[i] == '-' || s[i] == ',')
    && (exists i :: 0 <= i < |s| && IsDigit(s[i]))
  }

  /** `re.match` of the anchored superscript pattern. */
  predicate LooksLikeCitation(s: string) {
    AnchoredMatch(CitationChars, s)
  }

  function Concat(runs: seq<string>): string {
    if runs == [] then "" else runs[0] + Concat(runs[1..])
  }

  /** The context window after a run: the run appended, the oldest dropped beyond six. */
  function Slide(window: seq<string>, run: string): seq<string> {
    var w := window + [run];
    if |w| > ContextRuns then w[1..] else w
  }

  /** One iteration of the scanner's loop. */
  function ScanStep(st: ScanState, e: Elem): (r: Step)
    ensures e.FldBegin? ==> r == Next(st.(count := st.count + 1))
    ensures e.FldEnd? ==> (r.Raised? <==> st.count - 1 < 0)
    ensures e.FldEnd? && r.Next? ==> r.state == st.(count := st.count - 1, inCitation := false)
    ensures e.InstrText? && e.text.None? ==> r == Raised(NoneText)
    ensures e.InstrText? && e.text.Some? ==>
              r == Next(st.(inCitation := st.inCitation || (Contains(e.text.value, CitationCode) && st.count > 0)))
    ensures e.VertAlignSup? ==> r == Next(st.(lastSuperscript := e.grandparent))
    ensures e.Other? ==> r == Next(st)
  {
    match e
    case FldBegin => Next(st.(count := st.count + 1))
    case FldEnd =>
      var st := st.(count := st.count - 1, inCitation := false);
      if st.count < 0 then Raised(UnexpectedFieldCode) else Next(st)
    case InstrText(text) =>
      if text.None? then Raised(NoneText)
      else if Contains(text.value, CitationCode) && st.count > 0 then Next(st.(inCitation := true))
      else Next(st)
    case VertAlignSup(g) => Next(st.(lastSuperscript := g))
    case Text(parent, text) =>
      var underSuperscript := st.lastSuperscript.Some? && st.lastSuperscript == parent;
      if underSuperscript && text.None? then Raised(NoneText)
      else
        var run := if text.None? then "" else text.value;
        var results := if underSuperscript && LooksLikeCitation(run) && !st.inCitation
                       then st.results + [Hit(run, Concat(st.window))] else st.results;
        Next(st.(window := Slide(st.window, run), results := results))
    case Other => Next(st)
  }

  /** The loop over the elements so far. */
  function ScanPrefix(elems: seq<Elem>): Step
    decreases |elems|
  {
    if elems == [] then Next(Initial)
    else match ScanPrefix(elems[..|elems| - 1])
      case Raised(err) => Raised(err)
      case Next(st) => ScanStep(st, elems[|elems| - 1])
  }

  datatype Scan = Results(hits: seq<Hit>) | Failed(error: ScanError)

  /** `scan_for_superscripts(xml)`: it iterates the module-level `root`, not
      its argument, so without that global it raises `NameError`. */
  function ScanForSuperscripts(root: Option<seq<Elem>>, xml: seq<Elem>): (r: Scan)
    ensures root.None? ==> r == Failed(NoRoot)
  {
    if root.None? then Failed(NoRoot)
    else match ScanPrefix(root.value)
      case Raised(err) => Failed(err)
      case Next(st) => Results(st.results)
  }

  // ---------------------------------------------------------------------
  // The field-code counter
  // ---------------------------------------------------------------------

  function Begins(elems: seq<Elem>): nat {
    if elems == [] then 0 else Begins(elems[..|elems| - 1]) + (if elems[|elems| - 1].FldBegin? then 1 else 0)
  }

  function Ends(elems: seq<Elem>): nat {
    if elems == [] then 0 else Ends(elems[..|elems| - 1]) + (if elems[|elems| - 1].FldEnd? then 1 else 0)
  }

  /** The counter is the number of field begins minus field ends so far, and
      it never went below zero on the way. */
  lemma {:induction false} CountIsBalance(elems: seq<Elem>)
    requires ScanPrefix(elems).Next?
    ensures ScanPrefix(elems).state.count == Begins(elems) - Ends(elems) >= 0
    ensures forall k :: 0 <= k <= |elems| ==> Begins(elems[..k]) >= Ends(elems[..k])
    decreases |elems|
  {
    if elems != [] {
      var pre := elems[..|elems| - 1];
      CountIsBalance(pre);
      forall k | 0 <= k <= |elems|
        ensures Begins(elems[..k]) >= Ends(elems[..k])
      {
        if k < |elems| {
          assert elems[..k] == pre[..k];
        } else {
          assert elems[..k] == elems;
        }
      }
    }
  }

  /** More field ends than begins anywhere raises. */
  lemma UnbalancedRaises(elems: seq<Elem>, k: nat)
    requires k <= |elems| && Ends(elems[..k]) > Begins(elems[..k])
    ensures ScanPrefix(elems).Raised?
  {
    if ScanPrefix(elems).Next? {
      CountIsBalance(elems);
    }
  }

  /** Raising stops the scan for good: a raised prefix raises the whole input. */
  lemma {:induction false} RaisedStays(elems: seq<Elem>, more: seq<Elem>)
    requires ScanPrefix(elems).Raised?
    ensures ScanPrefix(elems + more) == ScanPrefix(elems)
    decreases |more|
  {
    if more == [] {
      assert elems + more == elems;
    } else {
      var all := elems + more;
      var shorter := elems + more[..|more| - 1];
      assert all[..|all| - 1] == shorter;
      RaisedStays(elems, more[..|more| - 1]);
    }
  }

  // ---------------------------------------------------------------------
  // The context window
  // ---------------------------------------------------------------------

  /** The text runs so far, a missing text counted as empty. */
  function TextRuns(elems: seq<Elem>): seq<string> {
    if elems == [] then []
    else
      var last := elems[|elems| - 1];
      TextRuns(elems[..|elems| - 1]) + (if last.Text? then [if last.text.None? then "" else last.text.value] else [])
  }

  /** The last `n` entries of `s`. */
  function LastN<T>(s: seq<T>, n: nat): (r: seq<T>)
    ensures |r| <= n && |r| <= |s|
  {
    if |s| <= n then s else s[|s| - n..]
  }

  lemma SlideKeepsLast(runs: seq<string>, run: string)
    ensures Slide(LastN(runs, ContextRuns), run) == LastN(runs + [run], ContextRuns)
  {
    var s := runs + [run];
    if |runs| > ContextRuns {
      assert LastN(runs, ContextRuns) + [run] == s[|s| - ContextRuns - 1..];
    }
  }

  /** The window holds the last six text runs. */
  lemma {:induction false} WindowIsLastRuns(elems: seq<Elem>)
    requires ScanPrefix(elems).Next?
    ensures ScanPrefix(elems).state.window == LastN(TextRuns(elems), ContextRuns)
    decreases |elems|
  {
    if elems != [] {
      var pre := elems[..|elems| - 1];
      WindowIsLastRuns(pre);
      var last := elems[|elems| - 1];
      if last.Text? {
        SlideKeepsLast(TextRuns(pre), if last.text.None? then "" else last.text.value);
      } else {
        assert TextRuns(elems) == TextRuns(pre);
      }
    }
  }

  /** A text run is reported exactly when it sits directly under the last
      superscript's grandparent, looks like a citation and is outside a
      citation field; its context is the concatenation of the (at most six)
      text runs before it. */
  lemma ReportedRun(pre: seq<Elem>, parent: Option<nat>, text: string)
    requires ScanPrefix(pre).Next?
    ensures var st := ScanPrefix(pre).state;
      var r := ScanPrefix(pre + [Text(parent, Some(text))]);
      var reported := st.lastSuperscript.Some? && st.lastSuperscript == parent
                      && LooksLikeCitation(text) && !st.inCitation;
      && r.Next?
      && (reported ==> r.state.results == st.results + [Hit(text, Concat(LastN(TextRuns(pre), ContextRuns)))])
      && (!reported ==> r.state.results == st.results)
  {
    var all := pre + [Text(parent, Some(text))];
    assert all[..|all| - 1] == pre;
    WindowIsLastRuns(pre);
  }

  /** A missing text under the last superscript raises, even inside a citation. */
  lemma NoneTextUnderSuperscript(pre: seq<Elem>, parent: nat)
    requires ScanPrefix(pre).Next? && ScanPrefix(pre).state.lastSuperscript == Some(parent)
    ensures ScanPrefix(pre + [Text(Some(parent), None)]) == Raised(NoneText)
  {
    var all := pre + [Text(Some(parent), None)];
    assert all[..|all| - 1] == pre;
  }

  /** A lone "12" after an unrelated superscript marker is reported; inside
      a citation field it is not. */
  lemma SuperscriptExample()
    ensures ScanForSuperscripts(Some([VertAlignSup(Some(7)), Text(Some(7), Some("12"))]), []) ==
            Results([Hit("12", "")])
    ensures ScanForSuperscripts(Some([FldBegin, InstrText(Some("ADDIN ZOTERO_ITEM x")), VertAlignSup(Some(7)),
                                      Text(Some(7), Some("12"))]), []) == Results([])
  {
    assert CitationChars("12") by {
      assert IsDigit("12"[0]);
    }
    var a: seq<Elem> := [VertAlignSup(Some(7)), Text(Some(7), Some("12"))];
    assert a[..1] == [VertAlignSup(Some(7))];
    assert [VertAlignSup(Some(7))][..0] == [];
    var b: seq<Elem> := [FldBegin, InstrText(Some("ADDIN ZOTERO_ITEM x")), VertAlignSup(Some(7)),
                         Text(Some(7), Some("12"))];
    var b1: seq<Elem> := [FldBegin];
    var b2: seq<Elem> := b1 + [InstrText(Some("ADDIN ZOTERO_ITEM x"))];
    var b3: seq<Elem> := b2 + [VertAlignSup(Some(7))];
    assert b == b3 + [Text(Some(7), Some("12"))];
    assert b[..3] == b3 && b3[..2] == b2 && b2[..1] == b1 && b1[..0] == [];
    assert ScanPrefix(b1) == Next(Initial.(count := 1));
    assert Contains("ADDIN ZOTERO_ITEM x", CitationCode) by {
      assert "ADDIN ZOTERO_ITEM x"[..|CitationCode|] == CitationCode;
    }
    assert ScanPrefix(b2).state.inCitation;
    assert ScanPrefix(b3).state.inCitation;
  }

  // ---------------------------------------------------------------------
  // The bibliography check
  // ---------------------------------------------------------------------

  datatype Check = Answer(found: bool) | CheckFailed(error: ScanError)

  /** The loop over the instruction texts, returning at the first bibliography code. */
  function FindBibliography(elems: seq<Elem>): Check
    decreases |elems|
  {
    if elems == [] then Answer(false)
    else match elems[0]
      case InstrText(text) =>
        if text.None? then CheckFailed(NoneText)
        else if Contains(text.value, BibliographyCode) then Answer(true)
        else FindBibliography(elems[1..])
      case _ => FindBibliography(elems[1..])
  }

  /** `check_for_bibliography(xml)`: like the scanner, it reads the global `root`. */
  function CheckForBibliography(root: Option<seq<Elem>>, xml: seq<Elem>): (r: Check)
    ensures root.None? ==> r == CheckFailed(NoRoot)
  {
    if root.None? then CheckFailed(NoRoot) else FindBibliography(root.value)
  }

  /** The instruction text at `i` holds the bibliography code. */
  predicate BibliographyAt(elems: seq<Elem>, i: nat)
    requires i < |elems|
  {
    elems[i].InstrText? && elems[i].text.Some? && Contains(elems[i].text.value, BibliographyCode)
  }

  /** No instruction text before `i` lacks its text. */
  predicate TextsPresentBefore(elems: seq<Elem>, i: nat)
    requires i <= |elems|
  {
    forall j :: 0 <= j < i && elems[j].InstrText? ==> elems[j].text.Some?
  }

  /** The check answers true iff some instruction text holds the
      bibliography code with none before it lacking its text; it answers
      false iff no instruction text lacks its text or holds the code. */
  lemma {:induction false} FindBibliographySpec(elems: seq<Elem>)
    ensures FindBibliography(elems) == Answer(true) <==>
              exists i :: 0 <= i < |elems| && BibliographyAt(elems, i) && TextsPresentBefore(elems, i)
    ensures FindBibliography(elems) == Answer(false) <==>
              TextsPresentBefore(elems, |elems|) && forall i :: 0 <= i < |elems| ==> !BibliographyAt(elems, i)
    decreases |elems|
  {
    if elems != [] {
      var tail := elems[1..];
      FindBibliographySpec(tail);
      forall i | 1 <= i < |elems|
        ensures BibliographyAt(elems, i) == BibliographyAt(tail, i - 1)
        ensures TextsPresentBefore(elems, i) <==> TextsPresentBefore(elems, 1) && TextsPresentBefore(tail, i - 1)
      {
        assert forall j :: 1 <= j < i ==> elems[j] == tail[j - 1];
      }
      assert TextsPresentBefore(elems, |elems|) <==>
             TextsPresentBefore(elems, 1) && TextsPresentBefore(tail, |tail|);
      if FindBibliography(elems) == Answer(true) && !BibliographyAt(elems, 0) {
        var i :| 0 <= i < |tail| && BibliographyAt(tail, i) && TextsPresentBefore(tail, i);
        assert BibliographyAt(elems, i + 1) && TextsPresentBefore(elems, i + 1);
      }
      if exists i :: 0 <= i < |elems| && BibliographyAt(elems, i) && TextsPresentBefore(elems, i) {
        var i :| 0 <= i < |elems| && BibliographyAt(elems, i) && TextsPresentBefore(elems, i);
        if i > 0 && !BibliographyAt(elems, 0) {
          assert BibliographyAt(tail, i - 1) && TextsPresentBefore(tail, i - 1);
        }
      }
    }
  }
}

=== FILE: zip_images.dfy ===
/** The dated-folder zipper: a script that walks monitored directory trees
    and, for each folder named after a date (`YYYY.MM.DD`, `YYYY-MM-DD`,
    `YYYYMMDD`, ...) that is old enough or carries the zip indicator file,
    writes the archive `<name>.zip` beside it, rewriting it from scratch on
    every run and leaving the folder itself in place; a tree that carries
    the nozip indicator is never archived. The file system is abstracted:
    each monitored root comes as its top-down walk, and archive writes
    become an event log in which `Create(base)` opens the archive beside
    the folder `base`. */
module ZipImages {
  import opened Common
  import opened PyText
  import Calendar

  // ---------------------------------------------------------------------
  // Configuration
  // ---------------------------------------------------------------------

  /** A resolved path as its components; the last one is the name. */
  type Path = seq<string>

  /** The configuration file's keys; a key that is absent is `None`. */
  datatype RawConfig = RawConfig(
    zipDelayDays: Option<int>,
    monitorLocations: Option<seq<Path>>,
    indicators: Option<map<string, string>>)

  /** The file names whose presence in a folder forces or forbids zipping. */
  datatype Indicators = Indicators(nozip: string, zip: string)

  datatype Settings = Settings(delay: int, roots: seq<Path>, indicators: Indicators)

  datatype ConfigCheck = ConfigError(message: string) | ConfigOk(settings: Settings)

  function MissingKey(key: string): string {
    "Must include a '" + key + "' key in the configuration!"
  }

  function MissingIndicator(key: string): string {
    "Must include an indicator filename for the '" + key + "' indicator"
  }

  /** The validation loops: the three top-level keys, then the two
      indicators, each in order; the first missing one ends the script with
      its message. */
  function CheckConfig(c: RawConfig): (r: ConfigCheck)
    ensures r.ConfigOk? <==>
      && c.zipDelayDays.Some? && c.monitorLocations.Some? && c.indicators.Some?
      && "nozip" in c.indicators.value && "zip" in c.indicators.value
    ensures r.ConfigOk? ==>
      && r.settings.delay == c.zipDelayDays.value
      && r.settings.roots == c.monitorLocations.value
      && r.settings.indicators == Indicators(c.indicators.value["nozip"], c.indicators.value["zip"])
    ensures c.zipDelayDays.None? ==> r == ConfigError(MissingKey("zip_delay_days"))
    ensures c.zipDelayDays.Some? && c.monitorLocations.None? ==> r == ConfigError(MissingKey("monitor_locations"))
  {
    if c.zipDelayDays.None? then ConfigError(MissingKey("zip_delay_days"))
    else if c.monitorLocations.None? then ConfigError(MissingKey("monitor_locations"))
    else if c.indicators.None? then ConfigError(MissingKey("indicators"))
    else if "nozip" !in c.indicators.value then ConfigError(MissingIndicator("nozip"))
    else if "zip" !in c.indicators.value then ConfigError(MissingIndicator("zip"))
    else ConfigOk(Settings(c.zipDelayDays.value, c.monitorLocations.value,
                           Indicators(c.indicators.value["nozip"], c.indicators.value["zip"])))
  }

  /** With the top-level keys present, a missing indicator is reported, the nozip one first. */
  lemma IndicatorsChecked(c: RawConfig)
    requires c.zipDelayDays.Some? && c.monitorLocations.Some? && c.indicators.Some?
    ensures "nozip" !in c.indicators.value ==> CheckConfig(c) == ConfigError(MissingIndicator("nozip"))
    ensures "nozip" in c.indicators.value && "zip" !in c.indicators.value ==>
              CheckConfig(c) == ConfigError(MissingIndicator("zip"))
  {
  }

  // ---------------------------------------------------------------------
  // Dated folder names
  // ---------------------------------------------------------------------

  /** `a` is an initial segment of `b`. */
  predicate Within<T(==)>(a: seq<T>, b: seq<T>) {
    |a| <= |b| && b[..|a|] == a
  }

  /** `a` is a proper initial segment of `b`: for paths, `a in b.parents`. */
  predicate StrictlyWithin<T(==)>(a: seq<T>, b: seq<T>) {
    |a| < |b| && b[..|a|] == a
  }

  predicate SepChar(c: char) {
    c == '.' || c == '_' || c == '-'
  }

  /** The groups of a dated name: year, separator, month, day. */
  datatype DateMatch = DateMatch(year: string, sep: string, month: string, day: string)

  /** What `^(\d{4})([._-]?)(\d{2})\2(\d{2})` describes: four digits, an
      optional separator, two digits, the same separator again and two
      digits, at the start of the name. */
  predicate DatedAs(name: string, g: DateMatch) {
    && |g.year| == 4 && AllDigits(g.year)
    && |g.month| == 2 && AllDigits(g.month)
    && |g.day| == 2 && AllDigits(g.day)
    && (g.sep == "" || (|g.sep| == 1 && SepChar(g.sep[0])))
    && Within(g.year + g.sep + g.month + g.sep + g.day, name)
  }

  /** `re.match` of the folder-name pattern: a separator after the year is
      tried first; without one the next character must be a digit. */
  function MatchDate(name: string): Option<DateMatch> {
    if |name| >= 10 && AllDigits(name[..4]) && SepChar(name[4])
       && AllDigits(name[5..7]) && name[7] == name[4] && AllDigits(name[8..10])
    then Some(DateMatch(name[..4], [name[4]], name[5..7], name[8..10]))
    else if |name| >= 8 && AllDigits(name[..8])
    then Some(DateMatch(name[..4], "", name[4..6], name[6..8]))
    else None
  }

  /** The matcher finds exactly the groups the pattern describes: a name
      is dated with groups `g` iff it starts with them, the separator used
      twice. */
  lemma MatchDateSpec(name: string, g: DateMatch)
    ensures MatchDate(name) == Some(g) <==> DatedAs(name, g)
  {
    if DatedAs(name, g) {
      var p := g.year + g.sep + g.month + g.sep + g.day;
      assert name[..|p|] == p;
      if g.sep == "" {
        assert p == g.year + g.month + g.day;
        assert name[4] == p[4] == g.month[0];
        assert forall i :: 0 <= i < 8 ==> name[i] == p[i];
        assert name[..4] == g.year && name[4..6] == g.month && name[6..8] == g.day;
      } else {
        assert forall i :: 0 <= i < 10 ==> name[i] == p[i];
        assert name[..4] == g.year && name[5..7] == g.month && name[8..10] == g.day;
        assert [name[4]] == g.sep;
      }
    }
    if MatchDate(name) == Some(g) {
      var p := g.year + g.sep + g.month + g.sep + g.day;
      if g.sep == "" {
        assert p == name[..8];
      } else {
        assert p == name[..10];
      }
    }
  }

  /** A mixed separator is not a date: `2021.01-05` does not match. */
  lemma MixedSeparatorsRejected()
    ensures MatchDate("2021.01-05") == None
  {
    assert !AllDigits("2021.01-05"[..8]) by {
      assert !IsDigit("2021.01-05"[4]);
    }
  }

  /** The same separator twice is a date: `2021.01.05` gives its three groups. */
  lemma DottedDateAccepted()
    ensures MatchDate("2021.01.05") == Some(DateMatch("2021", ".", "01", "05"))
  {
    var dotted := DateMatch("2021", ".", "01", "05");
    assert dotted.year + dotted.sep + dotted.month + dotted.sep + dotted.day == "2021.01.05";
    MatchDateSpec("2021.01.05", dotted);
  }

  /** So is a date with no separator at all, whatever follows it. */
  lemma CompactDateAccepted()
    ensures MatchDate("20210105_scope") == Some(DateMatch("2021", "", "01", "05"))
  {
    var plain := DateMatch("2021", "", "01", "05");
    assert plain.year + plain.sep + plain.month + plain.sep + plain.day == "20210105_scope"[..8];
    MatchDateSpec("20210105_scope", plain);
  }

  /** `date(int(year), int(month), int(day))`: `None` is the `ValueError`. */
  function FolderDay(g: DateMatch): Option<Calendar.Day>
    requires AllDigits(g.year) && AllDigits(g.month) && AllDigits(g.day)
  {
    var y := DigitsValue(g.year);
    var m := DigitsValue(g.month);
    var d := DigitsValue(g.day);
    if Calendar.ValidDate(y, m, d) then Some(Calendar.DaysFromCivil(y, m, d)) else None
  }

  /** The zip decision for a dated folder. */
  predicate ShouldZip(ind: Indicators, delay: int, today: Calendar.Day, files: seq<string>, folder: Calendar.Day) {
    ind.zip in files || today - folder > delay
  }

  // ---------------------------------------------------------------------
  // The walk
  // ---------------------------------------------------------------------

  /** A directory visited by the walk, with the names of the files in it. */
  datatype DirEntry = DirEntry(path: Path, files: seq<string>)

  function Name(p: Path): string {
    if p == [] then "" else p[|p| - 1]
  }

  /** What the script does to archives: open the archive of a folder, add a
      file under an archive name, close the archive of a folder. */
  datatype Event = Create(base: Path) | Write(dir: Path, file: string, arcName: Path) | Close(base: Path)

  /** The walk's state: the folder whose archive is open, and the folders
      whose subtrees were pruned. */
  datatype ZipState = ZipState(open: Option<Path>, pruned: seq<Path>)

  /** A folder is pruned when it lies below a pruned one. */
  predicate Pruned(pruned: seq<Path>, p: Path) {
    exists k :: 0 <= k < |pruned| && StrictlyWithin(pruned[k], p)
  }

  /** The additions of the files of `dir` to the archive of `base`. */
  function Writes(base: Path, dir: Path, files: seq<string>): (w: seq<Event>)
    requires Within(base, dir)
    ensures |w| == |files|
    ensures forall i :: 0 <= i < |w| ==> w[i] == Write(dir, files[i], dir[|base|..] + [files[i]])
  {
    if files == [] then [] else [Write(dir, files[0], dir[|base|..] + [files[0]])] + Writes(base, dir, files[1..])
  }

  /** One visit's outcome: the new state, the events, and whether the date
      constructor raised. */
  datatype Visit = Visit(state: ZipState, events: seq<Event>, crashed: bool)

  /** One iteration of the walk loop. */
  function VisitDir(ind: Indicators, delay: int, today: Calendar.Day, st: ZipState, e: DirEntry): (v: Visit)
    ensures Pruned(st.pruned, e.path) ==> v == Visit(st, [], false)
    ensures !Pruned(st.pruned, e.path) && ind.nozip in e.files ==>
              v == Visit(st.(pruned := st.pruned + [e.path]), [], false)
    ensures !Pruned(st.pruned, e.path) && ind.nozip !in e.files
              && st.open.Some? && !StrictlyWithin(st.open.value, e.path) ==>
              |v.events| > 0 && v.events[0] == Close(st.open.value)
    ensures !Pruned(st.pruned, e.path) && ind.nozip !in e.files
              && st.open.Some? && StrictlyWithin(st.open.value, e.path) ==>
              v == Visit(st, Writes(st.open.value, e.path, e.files), false)
    ensures v.state.pruned == st.pruned || v.state.pruned == st.pruned + [e.path]
    ensures forall k :: 0 <= k < |v.events| && v.events[k].Write? ==> v.events[k].dir == e.path
  {
    if Pruned(st.pruned, e.path) then Visit(st, [], false)
    else if ind.nozip in e.files then Visit(st.(pruned := st.pruned + [e.path]), [], false)
    else if st.open.Some? && StrictlyWithin(st.open.value, e.path) then
      Visit(st, Writes(st.open.value, e.path, e.files), false)
    else VisitOutside(ind, delay, today, st, e)
  }

  /** Whether a folder outside any archive starts one: its name must start
      with a date, which must be a calendar date (`None` is the `ValueError`
      of `date(...)`), and then the zip decision applies. */
  function StartsArchive(ind: Indicators, delay: int, today: Calendar.Day, e: DirEntry): Option<bool> {
    match MatchDate(Name(e.path))
    case None => Some(false)
    case Some(g) =>
      MatchDateSpec(Name(e.path), g);
      match FolderDay(g)
      case None => None
      case Some(day) => Some(ShouldZip(ind, delay, today, e.files, day))
  }

  /** Opening an archive at a folder writes that folder's files only. */
  lemma OpeningWritesOwnDir(closing: seq<Event>, e: DirEntry)
    requires forall k :: 0 <= k < |closing| ==> !closing[k].Write?
    ensures var events := closing + ([Create(e.path)] + Writes(e.path, e.path, e.files));
      forall k :: 0 <= k < |events| && events[k].Write? ==> events[k].dir == e.path
  {
    var w := Writes(e.path, e.path, e.files);
    var events := closing + ([Create(e.path)] + w);
    assert forall k :: |closing| + 1 <= k < |events| ==> events[k] == w[k - |closing| - 1];
  }

  /** A folder outside the open archive: close it, then decide from the
      folder's name whether to start a new one here. */
  function VisitOutside(ind: Indicators, delay: int, today: Calendar.Day, st: ZipState, e: DirEntry): (v: Visit)
    ensures v.state.pruned == st.pruned
    ensures v.state.open.None? || v.state.open == Some(e.path)
    ensures v.state.open.None? ==> v.events == (if st.open.Some? then [Close(st.open.value)] else [])
    ensures v.state.open.Some? ==>
      v.events == (if st.open.Some? then [Close(st.open.value)] else []) + ([Create(e.path)] + Writes(e.path, e.path, e.files))
    ensures forall k :: 0 <= k < |v.events| && v.events[k].Write? ==> v.events[k].dir == e.path
  {
    var closing := if st.open.Some? then [Close(st.open.value)] else [];
    var st := st.(open := None);
    match StartsArchive(ind, delay, today, e)
    case None => Visit(st, closing, true)
    case Some(false) => Visit(st, closing, false)
    case Some(true) =>
      var w := Writes(e.path, e.path, e.files);
      OpeningWritesOwnDir(closing, e);
      Visit(st.(open := Some(e.path)), closing + ([Create(e.path)] + w), false)
  }

  /** A dated folder seen with no archive open starts one exactly when the
      zip indicator is present or the folder is more than the delay old;
      a folder named like a date that is no calendar date ends the script. */
  lemma ZipDecision(ind: Indicators, delay: int, today: Calendar.Day, st: ZipState, e: DirEntry, g: DateMatch)
    requires !Pruned(st.pruned, e.path) && ind.nozip !in e.files
    requires st.open.None? && MatchDate(Name(e.path)) == Some(g)
    ensures DatedAs(Name(e.path), g)
    ensures var v := VisitDir(ind, delay, today, st, e);
      && (v.crashed <==> FolderDay(g).None?)
      && (v.state.open.Some? <==> FolderDay(g).Some? && ShouldZip(ind, delay, today, e.files, FolderDay(g).value))
      && (v.state.open.Some? ==> v.state.open.value == e.path && v.events[0] == Create(e.path))
  {
    MatchDateSpec(Name(e.path), g);
  }

  /** The result of walking one monitored root. */
  datatype Walk = Walk(state: ZipState, events: seq<Event>, crashed: bool)

  /** The walk loop over one root's entries, stopping at a crash. */
  function WalkEntries(ind: Indicators, delay: int, today: Calendar.Day, st: ZipState, entries: seq<DirEntry>): (w: Walk)
    decreases |entries|
  {
    if entries == [] then Walk(st, [], false)
    else
      var v := VisitDir(ind, delay, today, st, entries[0]);
      if v.crashed then Walk(v.state, v.events, true)
      else
        var rest := WalkEntries(ind, delay, today, v.state, entries[1..]);
        Walk(rest.state, v.events + rest.events, rest.crashed)
  }

  /** One monitored root: its walk, then closing an archive left open. */
  function WalkRoot(ind: Indicators, delay: int, today: Calendar.Day, entries: seq<DirEntry>): (w: Walk) {
    var w := WalkEntries(ind, delay, today, ZipState(None, []), entries);
    if !w.crashed && w.state.open.Some? then
      Walk(ZipState(None, w.state.pruned), w.events + [Close(w.state.open.value)], false)
    else w
  }

  datatype Run = Run(events: seq<Event>, crashed: bool)

  /** The whole script after validation: each root's walk in turn; a crash
      ends everything. */
  function RunAll(s: Settings, today: Calendar.Day, walks: seq<seq<DirEntry>>): (r: Run)
    decreases |walks|
  {
    if walks == [] then Run([], false)
    else
      var w := WalkRoot(s.indicators, s.delay, today, walks[0]);
      if w.crashed then Run(w.events, true)
      else
        var rest := RunAll(s, today, walks[1..]);
        Run(w.events + rest.events, rest.crashed)
  }

  // ---------------------------------------------------------------------
  // The archive log
  // ---------------------------------------------------------------------

  /** Replaying a log from an open-archive state: `None` when an event is
      out of place (an archive started inside another, a file added with no
      archive open, outside its folder or under another archive name, a
      close of an archive that is not open), otherwise the final state. */
  function Replay(log: seq<Event>, open: Option<Path>): Option<Option<Path>>
    decreases |log|
  {
    if log == [] then Some(open)
    else match log[0]
      case Create(b) => if open.None? then Replay(log[1..], Some(b)) else None
      case Write(dir, file, arc) =>
        if open.Some? && Within(open.value, dir) && arc == dir[|open.value|..] + [file]
        then Replay(log[1..], open) else None
      case Close(b) => if open == Some(b) then Replay(log[1..], None) else None
  }

  lemma {:induction false} ReplayAppend(a: seq<Event>, b: seq<Event>, open: Option<Path>)
    requires Replay(a, open).Some?
    ensures Replay(a + b, open) == Replay(b, Replay(a, open).value)
    decreases |a|
  {
    if a != [] {
      assert (a + b)[0] == a[0];
      assert (a + b)[1..] == a[1..] + b;
      match a[0]
      case Create(x) => ReplayAppend(a[1..], b, Some(x));
      case Write(dir, file, arc) => ReplayAppend(a[1..], b, open);
      case Close(x) => ReplayAppend(a[1..], b, None);
    } else {
      assert a + b == b;
    }
  }

  lemma {:induction false} ReplayWrites(base: Path, dir: Path, files: seq<string>)
    requires Within(base, dir)
    ensures Replay(Writes(base, dir, files), Some(base)) == Some(Some(base))
    decreases |files|
  {
    if files != [] {
      var w := Writes(base, dir, files);
      assert w[1..] == Writes(base, dir, files[1..]);
      ReplayWrites(base, dir, files[1..]);
    }
  }

  /** A visit outside the open archive closes it and replays to the new one. */
  lemma VisitOutsideReplays(ind: Indicators, delay: int, today: Calendar.Day, st: ZipState, e: DirEntry)
    ensures var v := VisitOutside(ind, delay, today, st, e);
      Replay(v.events, st.open) == Some(v.state.open)
  {
    var v := VisitOutside(ind, delay, today, st, e);
    var closing: seq<Event> := if st.open.Some? then [Close(st.open.value)] else [];
    assert Replay(closing, st.open) == Some(None);
    if v.state.open.Some? {
      var w := Writes(e.path, e.path, e.files);
      ReplayAppend(closing, [Create(e.path)] + w, st.open);
      assert ([Create(e.path)] + w)[1..] == w;
      ReplayWrites(e.path, e.path, e.files);
    } else {
      assert v.events == closing;
    }
  }

  /** One visit's events are in place and lead to the visit's open archive. */
  lemma VisitReplays(ind: Indicators, delay: int, today: Calendar.Day, st: ZipState, e: DirEntry)
    ensures var v := VisitDir(ind, delay, today, st, e);
      Replay(v.events, st.open) == Some(v.state.open)
  {
    if !Pruned(st.pruned, e.path) && ind.nozip !in e.files {
      if st.open.Some? && StrictlyWithin(st.open.value, e.path) {
        ReplayWrites(st.open.value, e.path, e.files);
      } else {
        VisitOutsideReplays(ind, delay, today, st, e);
      }
    }
  }

  lemma {:induction false} WalkEntriesReplays(ind: Indicators, delay: int, today: Calendar.Day, st: ZipState, entries: seq<DirEntry>)
    ensures var w := WalkEntries(ind, delay, today, st, entries);
      Replay(w.events, st.open) == Some(w.state.open)
    decreases |entries|
  {
    if entries != [] {
      var v := VisitDir(ind, delay, today, st, entries[0]);
      VisitReplays(ind, delay, today, st, entries[0]);
      if !v.crashed {
        WalkEntriesReplays(ind, delay, today, v.state, entries[1..]);
        ReplayAppend(v.events, WalkEntries(ind, delay, today, v.state, entries[1..]).events, st.open);
      }
    }
  }

  /** Every archive is opened with none other open, receives only files of
      its folder's subtree under names relative to that folder, and is
      closed before the next one opens; a root that completes leaves no
      archive open. */
  lemma WalkRootReplays(ind: Indicators, delay: int, today: Calendar.Day, entries: seq<DirEntry>)
    ensures var w := WalkRoot(ind, delay, today, entries);
      Replay(w.events, None).Some? && (!w.crashed ==> Replay(w.events, None) == Some(None))
  {
    var w := WalkEntries(ind, delay, today, ZipState(None, []), entries);
    WalkEntriesReplays(ind, delay, today, ZipState(None, []), entries);
    if !w.crashed && w.state.open.Some? {
      ReplayAppend(w.events, [Close(w.state.open.value)], None);
    }
  }

  /** The whole run's log is in place from start to end. */
  lemma {:induction false} RunReplays(s: Settings, today: Calendar.Day, walks: seq<seq<DirEntry>>)
    ensures var r := RunAll(s, today, walks);
      Replay(r.events, None).Some? && (!r.crashed ==> Replay(r.events, None) == Some(None))
    decreases |walks|
  {
    if walks != [] {
      var w := WalkRoot(s.indicators, s.delay, today, walks[0]);
      WalkRootReplays(s.indicators, s.delay, today, walks[0]);
      if !w.crashed {
        RunReplays(s, today, walks[1..]);
        ReplayAppend(w.events, RunAll(s, today, walks[1..]).events, None);
      }
    }
  }

  // ---------------------------------------------------------------------
  // Pruning
  // ---------------------------------------------------------------------

  /** A top-down listing of a tree: distinct folders, each after its ancestors. */
  predicate TopDown(entries: seq<DirEntry>) {
    forall i, j :: 0 <= i < |entries| && 0 <= j < |entries| ==>
      (i != j ==> entries[i].path != entries[j].path)
      && (StrictlyWithin(entries[j].path, entries[i].path) ==> j < i)
  }

  /** The files of `dir` reach an archive. */
  predicate Archived(events: seq<Event>, dir: Path) {
    exists k :: 0 <= k < |events| && events[k].Write? && events[k].dir == dir
  }

  /** `dir` lies in the tree of a listed folder holding the nozip indicator. */
  predicate Excluded(nozip: string, entries: seq<DirEntry>, dir: Path) {
    exists j :: 0 <= j < |entries| && nozip in entries[j].files && Within(entries[j].path, dir)
  }

  /** No write of the log comes from an excluded tree. */
  predicate SpareExcluded(nozip: string, entries: seq<DirEntry>, events: seq<Event>) {
    forall k :: 0 <= k < |events| && events[k].Write? ==> !Excluded(nozip, entries, events[k].dir)
  }

  /** What the pruned list stands for after `i` visits: every folder so far
      with the nozip indicator is pruned or below a pruned one. */
  predicate PrunedCovers(nozip: string, entries: seq<DirEntry>, i: nat, pruned: seq<Path>)
    requires i <= |entries|
  {
    forall j :: 0 <= j < i && nozip in entries[j].files ==>
      (entries[j].path in pruned || Pruned(pruned, entries[j].path))
  }

  lemma PrunedBelow(pruned: seq<Path>, a: Path, b: Path)
    requires a in pruned || Pruned(pruned, a)
    requires StrictlyWithin(a, b)
    ensures Pruned(pruned, b)
  {
    if a in pruned {
      var k :| 0 <= k < |pruned| && pruned[k] == a;
      assert StrictlyWithin(pruned[k], b);
    } else {
      var k :| 0 <= k < |pruned| && StrictlyWithin(pruned[k], a);
      assert b[..|pruned[k]|] == a[..|pruned[k]|];
      assert StrictlyWithin(pruned[k], b);
    }
  }

  /** A visit to a folder in an excluded tree writes nothing. */
  lemma VisitExcluded(ind: Indicators, delay: int, today: Calendar.Day, st: ZipState,
                      entries: seq<DirEntry>, i: nat)
    requires TopDown(entries) && i < |entries|
    requires PrunedCovers(ind.nozip, entries, i, st.pruned)
    requires Excluded(ind.nozip, entries, entries[i].path)
    ensures var v := VisitDir(ind, delay, today, st, entries[i]);
      v.events == [] && !v.crashed
  {
    var e := entries[i];
    var j :| 0 <= j < |entries| && ind.nozip in entries[j].files && Within(entries[j].path, e.path);
    if j != i {
      assert StrictlyWithin(entries[j].path, e.path);
      assert j < i;
      PrunedBelow(st.pruned, entries[j].path, e.path);
    }
  }

  lemma VisitCovers(ind: Indicators, delay: int, today: Calendar.Day, st: ZipState,
                    entries: seq<DirEntry>, i: nat)
    requires TopDown(entries) && i < |entries|
    requires PrunedCovers(ind.nozip, entries, i, st.pruned)
    ensures PrunedCovers(ind.nozip, entries, i + 1, VisitDir(ind, delay, today, st, entries[i]).state.pruned)
  {
    var v := VisitDir(ind, delay, today, st, entries[i]);
    var p := v.state.pruned;
    forall j | 0 <= j < i + 1 && ind.nozip in entries[j].files
      ensures entries[j].path in p || Pruned(p, entries[j].path)
    {
      if j == i {
        if !Pruned(st.pruned, entries[i].path) {
          assert p == st.pruned + [entries[i].path];
        }
      } else {
        if entries[j].path in st.pruned {
          assert entries[j].path in p;
        } else {
          var k :| 0 <= k < |st.pruned| && StrictlyWithin(st.pruned[k], entries[j].path);
          assert p[k] == st.pruned[k];
        }
      }
    }
  }

  /** One visit keeps what the pruned list stands for and writes nothing
      from an excluded tree. */
  lemma VisitSafe(ind: Indicators, delay: int, today: Calendar.Day, st: ZipState,
                  entries: seq<DirEntry>, i: nat)
    requires TopDown(entries) && i < |entries|
    requires PrunedCovers(ind.nozip, entries, i, st.pruned)
    ensures var v := VisitDir(ind, delay, today, st, entries[i]);
      && PrunedCovers(ind.nozip, entries, i + 1, v.state.pruned)
      && SpareExcluded(ind.nozip, entries, v.events)
  {
    if Excluded(ind.nozip, entries, entries[i].path) {
      VisitExcluded(ind, delay, today, st, entries, i);
    }
    VisitCovers(ind, delay, today, st, entries, i);
  }

  lemma {:induction false} WalkSkipsExcluded(ind: Indicators, delay: int, today: Calendar.Day, st: ZipState,
                                             entries: seq<DirEntry>, i: nat)
    requires TopDown(entries) && i <= |entries|
    requires PrunedCovers(ind.nozip, entries, i, st.pruned)
    ensures SpareExcluded(ind.nozip, entries, WalkEntries(ind, delay, today, st, entries[i..]).events)
    decreases |entries| - i
  {
    if i < |entries| {
      var e := entries[i];
      assert entries[i..][0] == e;
      assert entries[i..][1..] == entries[i + 1..];
      var v := VisitDir(ind, delay, today, st, e);
      VisitSafe(ind, delay, today, st, entries, i);
      if !v.crashed {
        WalkSkipsExcluded(ind, delay, today, v.state, entries, i + 1);
        var rest := WalkEntries(ind, delay, today, v.state, entries[i + 1..]);
        var w := WalkEntries(ind, delay, today, st, entries[i..]);
        assert w.events == v.events + rest.events;
        forall k | 0 <= k < |w.events| && w.events[k].Write?
          ensures !Excluded(ind.nozip, entries, w.events[k].dir)
        {
          if k >= |v.events| {
            assert w.events[k] == rest.events[k - |v.events|];
          } else {
            assert w.events[k] == v.events[k];
          }
        }
      }
    }
  }

  /** A folder holding the nozip indicator is never archived, nor is any
      folder below it, even when an archive is open around it. */
  lemma NozipPrunes(ind: Indicators, delay: int, today: Calendar.Day, entries: seq<DirEntry>, dir: Path)
    requires TopDown(entries)
    requires Excluded(ind.nozip, entries, dir)
    ensures !Archived(WalkRoot(ind, delay, today, entries).events, dir)
  {
    WalkSkipsExcluded(ind, delay, today, ZipState(None, []), entries, 0);
    assert entries[0..] == entries;
    var w := WalkEntries(ind, delay, today, ZipState(None, []), entries);
    assert SpareExcluded(ind.nozip, entries, w.events);
    var r := WalkRoot(ind, delay, today, entries);
    forall k | 0 <= k < |r.events| && r.events[k].Write?
      ensures r.events[k].dir != dir
    {
      assert k < |w.events| && r.events[k] == w.events[k];
      assert !Excluded(ind.nozip, entries, w.events[k].dir);
    }
  }
}
